=== FILE: README.md ===
# Attendance QR app — a verified model of its decision logic

The application issues QR tokens to event participants, checks them in at
the door, and lets administrators manage users and download posters. This
project models the parts of it that make decisions:

- the server routes: check-in (`/api/qrcodes/hadir`), listing and bulk
  issuance (`/api/qrcodes`), the recent-scans feed (`/api/qrcodes/recent`),
  users (`/api/users`), the current profile (`/api/me`) and seeding
  (`/api/seed`);
- the admin guard (`lib/require-admin.ts`) and the cookie middleware;
- the pure logic of the client pages:
  - the page-number window, URL normalisation and row numbering of the three tables;
  - file-name sanitising and poster naming;
  - the template composer's size clamp, prefill and one-shot auto-download;
  - the generator's count rule, response normalisation, ZIP naming and progress percentages;
  - the scanner's submit classification;
  - the sidebar's user badge;
- the progress trace of the ZIP helper.

Modules follow the source files:

- Shared pieces:
  - `JsNum`: JavaScript numbers and query parameters;
  - `JsText`: `trim`, `split`, case mapping and zero padding;
  - `Http`: replies with a status code;
  - `Wrappers`: `Option`.
- The data layer:
  - `QrStore` and `UserStore`: tables as sequences of rows;
  - `Ordering`: ORDER BY … DESC, WHERE and LIMIT/OFFSET;
  - `Paging` and `Listing`: the shared page arithmetic.
- One module per route, component or page.

The database is a sequence of rows, and each query is a pure function of it.

Outside calls are parameters of the model:

- the auth library's session lookup, sign-up and user lookup;
- the database's fresh ids and tokens;
- the clock.

## Model

| member | source | states |
|---|---|---|
| HadirRoute.CheckInStep | app/api/qrcodes/hadir/route.ts:20-54 | The check-in answers only 200, 400, 404 or 409. It answers 400 exactly when the chosen token is missing or empty. The chosen token is `token` when that is a string, else `qrToken`. It answers 404 exactly when no row has the token, 409 when that row is already present, and 200 otherwise. Only a 200 changes the store. It then sets `hadir` and the timestamp on the matching row alone, and no flag is ever cleared. |
| HadirRoute.Post | app/api/qrcodes/hadir/route.ts:15-54 | The admin guard runs first, and its refusal is returned unchanged with the store untouched. A granted request is exactly the check-in step on the body and the clock. |
| HadirRoute.DeniedPostIgnoresBody | app/api/qrcodes/hadir/route.ts:15-17 | A refused request gets the guard's status whatever its body and arrival time, and two refused requests get the same answer and leave the same table. |
| HadirRoute.CheckInOutcomes | app/api/qrcodes/hadir/route.ts:32-54 | On a store with unique tokens, a 200 returns the updated row of that token. A 409 returns the existing row unchanged. |
| HadirRoute.SecondCheckInConflicts | app/api/qrcodes/hadir/route.ts:40-45 | After a successful check-in, repeating it at any later time answers 409 and changes nothing. |
| HadirRoute.ReplayOnlyRaises | app/api/qrcodes/hadir/route.ts:46-50 | Over any sequence of check-in requests, flags only go from false to true. Token uniqueness is preserved. |
| QrStore.Lookup | app/api/qrcodes/hadir/route.ts:32-36 | The lookup finds the first row carrying the token, or reports that no row carries it. |
| QrStore.LookupUnique | app/api/qrcodes/hadir/route.ts:32-36 | When tokens are unique, the lookup finds exactly the row holding the token. |
| Paging.PageOf | app/api/qrcodes/route.ts:18-21 | The page is at least 1. It is the floor of a finite value of at least 1, and 1 for a missing, non-finite or smaller value. |
| Paging.Offset | app/api/qrcodes/route.ts:22 | The offset is non-negative, a multiple of the limit, and skips exactly `page - 1` pages. |
| Paging.PageCount | app/api/qrcodes/route.ts:29 | The page count is at least 1 and its pages cover all rows. It is 1 or the least count that covers them, so an empty table has exactly one page. |
| Paging.RowOnPage | app/api/qrcodes/route.ts:22-29 | Every row index lies on one page that is within the page count. |
| Paging.PagesDisjoint | app/api/qrcodes/route.ts:22 | Two pages that contain the same row index are the same page. |
| Ordering.SortDesc | app/api/qrcodes/route.ts:26 | ORDER BY … DESC gives a permutation of the rows whose keys do not increase. |
| Ordering.InsertAddsOne | app/api/qrcodes/route.ts:26 | Placing a row into a sorted sequence adds exactly that row to its multiset. |
| Ordering.Filter | app/api/qrcodes/recent/route.ts:28 | WHERE keeps every satisfying row with its multiplicity, and nothing else. |
| Ordering.Window | app/api/qrcodes/route.ts:27-28 | LIMIT/OFFSET gives the rows starting at the offset, at most `limit` of them, in their original order. |
| Ordering.InWindow | app/api/qrcodes/route.ts:27-28 | A row whose position falls inside the window is returned. |
| Ordering.WindowsDescend | app/api/qrcodes/route.ts:26-28 | A window of a descending sequence is descending. Every row of one window ranks at or above every row of the next window. |
| Ordering.TakeKeepsTop | app/api/qrcodes/recent/route.ts:29-30 | A row left out by LIMIT ranks no higher than any row that was kept. |
| Listing.PageRows | app/api/qrcodes/route.ts:26-28 | A page holds the rows of the descending order from the offset on. It is sorted, and it holds no row that is not in the table. |
| Listing.List | app/api/qrcodes/route.ts:24-31 | The response echoes the page, the limit and the total. Its page count covers all rows and is 1 or the smallest count that does, so an empty table reports one page. |
| Listing.NextPageRanksLower | app/api/qrcodes/route.ts:26-28 | Every row on page p ranks at or above every row on page p+1. |
| Listing.RowListedOnItsPage | app/api/qrcodes/route.ts:26-28 | Each row of the ordered table is listed on the page that covers its position. |
| QrCodesRoute.ListLimit | app/api/qrcodes/route.ts:13-16 | The limit is in [1,500]. A missing, non-finite or non-positive value gives 50, a larger one is floored, and anything above 500 becomes 500. |
| QrCodesRoute.Get | app/api/qrcodes/route.ts:8-31 | A refused guard is returned unchanged. Otherwise the reply is 200 with the listing of the requested page, ordered by creation time descending. Its page count is max(1, ceil(total/limit)). |
| QrCodesRoute.RequestedCount | app/api/qrcodes/route.ts:46 | The count comes from `count`, then `jumlah`, then `qty`, then 0. Only null and undefined fall through to the next field. |
| QrCodesRoute.IssueCount | app/api/qrcodes/route.ts:48-54 | A non-finite count or a floored count of 0 or less is rejected. Otherwise the number issued is min(floor, 5000), which lies in [1,5000]. |
| QrCodesRoute.NewRows | app/api/qrcodes/route.ts:56-61 | The insert creates exactly n rows. Each takes the database's next fresh id and token, with both flags false and a creation time of now. |
| QrCodesRoute.Post | app/api/qrcodes/route.ts:41-65 | A refused guard or a rejected count leaves the store unchanged. The rejection is 400 "count harus > 0". Otherwise the reply is 201 with the created rows, and the store grows by exactly those rows. |
| QrCodesRoute.PostKeepsTokensUnique | app/api/qrcodes/route.ts:56-61 | With fresh tokens from the database, issuing keeps every token unique. |
| RecentRoute.KindOf | app/api/qrcodes/recent/route.ts:12-18 | The souvenir feed is chosen exactly when the lower-cased type is "souvenir". Every other value, including a missing one, selects check-ins. |
| RecentRoute.UpperCaseSouvenir | app/api/qrcodes/recent/route.ts:12 | "SOUVENIR" selects the souvenir feed. |
| RecentRoute.OtherWordsAreCheckIns | app/api/qrcodes/recent/route.ts:12-18 | "souvenirs", the empty string and a missing type all select the check-in feed. |
| RecentRoute.RecentLimit | app/api/qrcodes/recent/route.ts:13-16 | The limit is in [1,50]. A missing or non-finite value gives 5, small values become 1 and large ones 50. |
| RecentRoute.Chosen | app/api/qrcodes/recent/route.ts:27-30 | At most `limit` rows are chosen. Every one carries the feed's flag and comes from the table, newest update first. |
| RecentRoute.ChosenAreNewest | app/api/qrcodes/recent/route.ts:29-30 | If a flagged row is left out, the feed is full and every chosen row is at least as recent as that row. |
| RecentRoute.Get | app/api/qrcodes/recent/route.ts:8-46 | A refused guard is returned unchanged. Otherwise the reply is 200 and its i-th row carries the id, token, both flags and update time of the i-th chosen row of the feed, and nothing else. |
| RecentRoute.CheckInHeadsFeed | app/api/qrcodes/recent/route.ts:34-45 | The strictly most recent check-in always appears in the check-in feed. |
| UsersRoute.UsersLimit | app/api/users/route.ts:13-16 | The limit is in [1,100]. A missing value gives 10, but an explicit 0 gives 1. Values are floored and capped at 100. |
| UsersRoute.Get | app/api/users/route.ts:8-41 | A refused guard is returned unchanged. Otherwise the reply is 200 with the requested page of users, newest first, and the page count max(1, ceil(total/limit)). |
| UsersRoute.CredentialsOf | app/api/users/route.ts:60-69 | Sign-up goes ahead exactly when email, password and name are all non-empty strings, and it uses them unchanged. |
| UsersRoute.PromotedId | app/api/users/route.ts:85-96 | A user is promoted only when the lookup returned a list whose first entry has a non-empty string id. |
| UsersRoute.Post | app/api/users/route.ts:51-110 | Missing fields give 400 "email, password, name required". A sign-up exception gives 400 with its message, or "Failed to create user". Otherwise the reply is success. Promotion happens only after a completed sign-up. |
| UsersRoute.RoleStepNeverFails | app/api/users/route.ts:73-106 | Whatever the admin-role step does, the reply and the sign-up are the same. |
| UsersRoute.CreatedIff | app/api/users/route.ts:51-106 | Behind the real guard, the reply is success exactly when the caller is an admin, the fields are present and sign-up completes. |
| UserStore.FindUser | app/api/me/route.ts:23-27 | The lookup finds a user row with that id, or reports that no row has it. |
| UserStore.FindUserUnique | app/api/me/route.ts:23-27 | When ids are unique, the lookup finds exactly that user's row. |
| UserStore.FindSession | app/api/me/route.ts:14-21 | The lookup finds a session row with that token, or reports that none exists. |
| MeRoute.ImageOf | app/api/me/route.ts:35 | The image is kept when it is a non-empty string. A falsy image becomes null. |
| MeRoute.Get | app/api/me/route.ts:8-37 | It answers 401 "Unauthorized" exactly when the cookie is missing or empty. It answers 401 "Invalid Session" exactly when no session matches. It answers 404 "User Not Found" when the user row is missing. A 200 returns that user's id, name, email and image. |
| MeRoute.ReturnsSessionOwner | app/api/me/route.ts:14-37 | With unique user ids, a valid cookie returns exactly the profile of the session's owner. |
| MeRoute.NotFoundIff | app/api/me/route.ts:23-27 | It answers 404 exactly when the cookie is set and matches a session whose user does not exist. |
| SeedRoute.FirstTruthy | app/api/seed/route.ts:14-18 | A truthy body value is used as it is: a non-empty string, or a non-string passed through unchanged. Otherwise a non-empty environment value is used, then the literal. The result is never the empty string when the literal is not. |
| SeedRoute.SeedCredentials | app/api/seed/route.ts:14-18 | The seeded email, password and name are never the empty string. Each is a non-string exactly when the body gave a truthy non-string for it. |
| SeedRoute.Post | app/api/seed/route.ts:5-28 | Unless ENABLE_SEED is exactly "1", the reply is 403 "Seed disabled" and there is no sign-up. Otherwise sign-up is attempted with the fallback chain. A completed sign-up echoes the chosen email. A thrown error gives 400 with its message, or "Seed failed". |
| SeedRoute.DefaultSeed | app/api/seed/route.ts:14-18 | With nothing configured, the seed signs up "admin@admin.com" / "12345678" / "Admin". |
| SeedRoute.FalsyIsMissing | app/api/seed/route.ts:14-18 | Body fields that are all falsy (an empty string, 0, false, null) give the same reply and sign-up as an empty body. |
| SeedRoute.NonStringEmailEchoed | app/api/seed/route.ts:14-24 | `{"email": 5}` is handed to sign-up as the number 5, and a completed sign-up echoes it as the email. |
| RequireAdmin.DropEmpty | lib/require-admin.ts:28 | `.filter(Boolean)` keeps exactly the non-empty pieces. |
| RequireAdmin.CommaList | lib/require-admin.ts:8-16 | Every item of a parsed comma list is non-empty, has no comma and no surrounding whitespace. |
| RequireAdmin.CommaListJoin | lib/require-admin.ts:8-16 | Joining clean items with commas and parsing the result gives the items back. |
| RequireAdmin.DefaultLists | lib/require-admin.ts:8-16 | An empty setting parses to no items, and "admin" parses to ["admin"]. |
| RequireAdmin.ConfigOf | lib/require-admin.ts:8-16 | An unset or empty ADMIN_USER_IDS gives no ids. An unset or empty ADMIN_ROLES gives ["admin"]. Otherwise each is the parsed comma list. |
| RequireAdmin.SomeAllowed | lib/require-admin.ts:29 | True exactly when some role is in the allowed list. |
| RequireAdmin.IsAdminSession | lib/require-admin.ts:18-32 | A session is an admin session exactly when one of its parsed roles is an admin role, or its id is non-empty and listed. |
| RequireAdmin.DefaultAdminRole | lib/require-admin.ts:24-31 | With the defaults, a role field that lists "admin" among other entries grants admin. |
| RequireAdmin.ItemListed | lib/require-admin.ts:25-28 | A clean item between two comma-free neighbours survives the split, trim and filter. |
| RequireAdmin.AdminListed | lib/require-admin.ts:25-28 | "admin" between two comma-free neighbours is found by the role parser. |
| RequireAdmin.EnsureAdminApi | lib/require-admin.ts:46-70 | No session gives 401, decided before the admin test. A non-admin session gives 403. A lookup failure gives 503 with the error "Auth unavailable: " followed by the thrown Error's message, or by "Service unavailable" when the thrown value is not an Error. Access is granted exactly to admin sessions and carries that session. |
| RequireAdmin.RequireAdminPage | lib/require-admin.ts:35-40 | No session redirects to /login and a non-admin session to /not-admin. The page renders exactly when the API guard would grant. A lookup failure propagates. |
| Middleware.Handle | middleware.ts:4-24 | Any non-empty session cookie passes. Without one, an API prefix gives 401, a /dashboard path redirects to /login, and anything else redirects to "/". |
| Middleware.MatchedNeverFallsThrough | middleware.ts:21-35 | For every path the matcher selects, the "/" redirect never happens. Matched API paths either pass or get 401. |
| Middleware.PrefixLooserThanMatcher | middleware.ts:9-16 | Prefix matching treats "/api/mex" as guarded, although the matcher never routes it to the middleware. |
| Middleware.UnderSegmentStartsWith | middleware.ts:27-35 | A path under a matcher segment starts with that segment. |
| ClientPaging.UrlPageAsWritten | components/qrcodes-table.tsx:76-77 | The page as the table computes it is 0 exactly for a finite value strictly between 0 and 1. Values of at least 1 are floored. |
| ClientPaging.HalfPageNumbersBelowOne | components/qrcodes-table.tsx:76-77 | For page=0.5 the table starts at page 0 while the server serves page 1. The first row is numbered -9 instead of 1. |
| ClientPaging.UrlPage | components/qrcodes-table.tsx:76-77 | The corrected page is at least 1. It agrees with the table's value except where that value is 0, and there it is 1. |
| ClientPaging.UrlPageAgreesWithServer | app/api/qrcodes/route.ts:18-21 | The corrected client page is the page the server computes. |
| ClientPaging.UrlLimit | components/qrcodes-table.tsx:78-82 | The page size is always one of 10…50. A listed integer is taken. A missing value keeps the current size, and anything else gives 10. |
| ClientPaging.Window | components/qrcodes-table.tsx:130-146 | With at most 5 pages the window is exactly 1…pageCount. With more it starts with 1, ends with pageCount and has at least three entries. |
| ClientPaging.Pieces | components/qrcodes-table.tsx:137-144 | A large window is 1, an optional ellipsis, the neighbours strictly between the ends, an optional ellipsis, and pageCount. |
| ClientPaging.Shown | components/qrcodes-table.tsx:137-144 | For a large window, a number appears exactly when it is 1, pageCount, or a neighbour of the current page within range. |
| ClientPaging.ShownSmall | components/qrcodes-table.tsx:133-136 | With at most 5 pages, exactly 1…pageCount appear and there is no ellipsis. |
| ClientPaging.WindowGapped | components/qrcodes-table.tsx:130-146 | Consecutive numbers follow each other directly. An ellipsis sits only between numbers at least two apart. |
| ClientPaging.WindowIncreasing | components/qrcodes-table.tsx:130-146 | The numbers of the window strictly increase, so none repeats, and all lie in [1,pageCount]. |
| ClientPaging.CurrentShown | components/qrcodes-table.tsx:137-142 | The current page and its in-range neighbours are always shown. |
| ClientPaging.EllipsisPlacement | components/qrcodes-table.tsx:140-143 | The leading ellipsis appears exactly when left > 2, and the trailing one exactly when right < pageCount-1. |
| ClientPaging.Prev | components/qrcodes-table.tsx:371 | "Previous" moves back one page only from a page above 1. |
| ClientPaging.Next | components/qrcodes-table.tsx:400 | "Next" moves forward one page only below the page count. |
| ClientPaging.NavigationStaysInRange | components/qrcodes-table.tsx:371-400 | From a page in range, previous, next and every window number stay in [1,pageCount]. |
| ClientPaging.RowNumberIsRank | components/qrcodes-table.tsx:154 | The number shown on a row is its 1-based rank in the server's full ordering. |
| QrCodesTable.ClientPageCount | components/qrcodes-table.tsx:119 | The reported page count is kept when it is at least 1. Otherwise it is 1. |
| QrCodesTable.Mount | components/qrcodes-table.tsx:70-84 | On mount the size comes from the URL. A size other than the default resets the page to 1. Otherwise the page is the table's own reading of the URL, which is 0 for a value strictly between 0 and 1. |
| QrCodesTable.MountCorrected | components/qrcodes-table.tsx:70-84 | With the page read as the server reads it the mounted state is valid. The size rule and the reset to page 1 are the same as in Mount. |
| QrCodesTable.MountsAgreeExceptHalfPage | components/qrcodes-table.tsx:70-84 | The two mounts differ exactly when the table's page reading is 0 and the size stays 10. The written mount is valid exactly when it equals the corrected one. |
| QrCodesTable.HalfPageMountsAtZero | components/qrcodes-table.tsx:76-77 | `?page=0.5` mounts the table on page 0, which is not a valid state. The corrected mount is on page 1. |
| QrCodesTable.Step | components/qrcodes-table.tsx:119-400 | Prev and next move within bounds, and picking a number selects it. Changing the size returns to page 1. A load only updates the page count. |
| QrCodesTable.StepKeepsValid | components/qrcodes-table.tsx:278-400 | Every offered control keeps the page at least 1, the size among the choices and the page count at least 1. |
| QrCodesTable.RunKeepsValid | components/qrcodes-table.tsx:278-400 | From a valid state, such as the corrected mount, any sequence of offered controls keeps the table state valid. |
| UsersTable.PageCountOf | components/users/users-table.tsx:102-110 | The page count is at least 1. For a positive numeric total it is the least count that covers it. A missing or non-positive total gives 1. |
| UsersTable.PageCountAgreesWithServer | components/users/users-table.tsx:110 | The table's page count equals the server's for every total. |
| UsersTable.Remove | components/users/users-table.tsx:122-148 | Deleting one's own account is refused before any request. A rejected delete fails with the server's error or "Gagal hapus user". A page > 1 whose only row was deleted steps back one page, and any other delete refetches. |
| UsersTable.StepBackLandsOnLastPage | components/users/users-table.tsx:143 | When the last page's only row is deleted, the page stepped back to is the new last page, and it still has rows. |
| ParticipantsTable.Initial | components/participants-table.tsx:55-66 | The initial size is one of 10…50, and 10 when the URL has none. The page is 0 exactly for a value strictly between 0 and 1. Any other page is the one `Paging.PageOf` gives, the rule of the qrcodes and users routes. |
| ParticipantsTable.HalfPageStartsAtZero | components/participants-table.tsx:62-66 | `?page=0.5` gives a starting page of 0, where `Paging.PageOf` (the qrcodes and users routes' rule) gives 1. |
| ParticipantsTable.Previous | components/participants-table.tsx:374 | "Previous" never goes below page 1. |
| ParticipantsTable.Following | components/participants-table.tsx:382-383 | "Next" advances only when more rows exist. |
| ParticipantsTable.Step | components/participants-table.tsx:370-386 | "Sebelumnya" goes back one page above page 1 and is disabled at page 1 or below. "Berikutnya" goes on one page when the server reported more rows and is disabled otherwise. |
| ParticipantsTable.Walk | components/participants-table.tsx:370-386 | Pressing the buttons in turn: without an enabled "next" press the page never rises, and with only enabled "next" presses it rises by one per press. |
| ParticipantsTable.WalkAppend | components/participants-table.tsx:370-386 | Pressing one sequence and then another is the same as pressing them joined. |
| ParticipantsTable.BackAtZeroStays | components/participants-table.tsx:374-375 | On page 0, the page a URL of `?page=0.5` gives, "Sebelumnya" is disabled and the page stays 0. |
| ParticipantsTable.WalkBounds | components/participants-table.tsx:370-386 | For any sequence of presses from a page of 0 or more, the page stays at 0 or more, and a page of at least 1 never drops below 1. The page never exceeds the start page plus the number of "next" presses made while the server reported more rows. |
| FileNames.ReplaceRejected | components/participants-table.tsx:405 | The result uses only letters, digits, "-" and "_", keeps every letter, digit and underscore in order, and leaves an allowed string unchanged. |
| FileNames.RejectedRunIsHyphen | components/participants-table.tsx:405 | A non-empty run of rejected characters becomes exactly one hyphen. |
| FileNames.ReplaceRejectedSplits | components/participants-table.tsx:405 | The replacement works run by run: cutting the input next to an accepted character cuts the output at the same place. With RejectedRunIsHyphen this says each maximal rejected run becomes one hyphen in place. |
| FileNames.Collapse | components/participants-table.tsx:406 | The result has no "--", keeps every letter, digit and underscore in order, keeps the first character, and leaves a string without doubled hyphens unchanged. |
| FileNames.HyphenRunIsHyphen | components/participants-table.tsx:406 | A non-empty run of hyphens becomes exactly one hyphen. |
| FileNames.CollapseSplits | components/participants-table.tsx:406 | Collapsing works run by run: cutting the input anywhere that does not split a hyphen run cuts the output at the same place. With HyphenRunIsHyphen this says each hyphen run becomes one hyphen in place. |
| FileNames.StripEdges | components/participants-table.tsx:407 | Removing one hyphen at each end keeps the other characters. On a string without doubled hyphens it leaves no hyphen at either end. |
| FileNames.Sanitize | components/participants-table.tsx:403-408 | The result equals WordRuns(s): the input's runs of letters, digits and underscores joined by single hyphens, with nothing before the first run or after the last. It uses only letters, digits, "-" and "_", has no "--" and no hyphen at either end. |
| FileNames.SeparatorBecomesOneHyphen | components/participants-table.tsx:403-408 | Two words separated by any non-empty stretch of spaces, punctuation or hyphens come out joined by exactly one hyphen. |
| FileNames.SpaceBecomesHyphen | components/participants-table.tsx:403-408 | The name "John" + " " + "Doe" is saved as "John-Doe". |
| FileNames.SanitizeFixesClean | components/participants-table.tsx:403-408 | A name that is already clean is returned unchanged. |
| FileNames.SanitizeIdempotent | app/dashboard/participants/template/page.tsx:310-315 | Sanitizing twice gives the same result as sanitizing once. |
| FileNames.PosterBase | components/participants-table.tsx:213-215 | An empty name gives "Absensi QR Code". Any other name gives its sanitized form followed by " Absensi QR Code". |
| FileNames.PosterFileName | components/participants-table.tsx:216 | The poster's download name always ends in ".png". |
| FileNames.PosterNameCarriesName | app/dashboard/participants/template/page.tsx:96-99 | For a non-empty name, the file name is the sanitized name, then " Absensi QR Code", then ".png". |
| TemplatePage.QrPx | app/dashboard/participants/template/page.tsx:80 | The QR size is NaN exactly when the input is, and never infinite. It is at least 50, at most the shorter image side when that side is at least 50, and an in-range size is kept. |
| TemplatePage.QrPxIdempotent | app/dashboard/participants/template/page.tsx:80 | For any image size, clamping an already clamped size changes nothing. |
| TemplatePage.Prefill | app/dashboard/participants/template/page.tsx:40-42 | The query token fills the field only while the field is empty, and a typed token is never overwritten. |
| TemplatePage.PrefillIdempotent | app/dashboard/participants/template/page.tsx:40-42 | Prefilling twice is the same as prefilling once. |
| TemplatePage.Handle | app/dashboard/participants/template/page.tsx:188-230 | Typing replaces the token, a background load or failure sets readiness, and editing replaces the placement. Each leaves the rest of the state alone. Reset snaps to 292/860/500 once the background is ready and changes nothing before. A manual download happens exactly when the button is pressed with a token and a ready background, uses the current placement and the poster file name, and changes no state. |
| TemplatePage.Settle | app/dashboard/participants/template/page.tsx:123-133 | The prefill runs first. The automatic download starts exactly when the background is ready, the prefilled token is non-empty, `auto` is "download" in any case and it has not fired yet. It downloads the prefilled token at the placement held before the snap, under the poster file name. Firing marks it as fired and snaps the placement. |
| TemplatePage.Automatic | app/dashboard/participants/template/page.tsx:123-133 | Keeps exactly the automatic downloads. |
| TemplatePage.AutomaticAtMostOnce | app/dashboard/participants/template/page.tsx:123-133 | Over any sequence of events, at most one automatic download happens, and none once it has fired. |
| TemplatePage.NoAutomaticUnlessAsked | app/dashboard/participants/template/page.tsx:125 | Without `auto=download`, no automatic download ever happens. |
| TemplatePage.DownloadsCarryToken | app/dashboard/participants/template/page.tsx:123-222 | Every download, manual or automatic, carries a non-empty token. |
| TemplatePage.QueryTokenSticks | app/dashboard/participants/template/page.tsx:40-42 | With a token in the query, the field is never empty after a settled step. |
| TemplatePage.OpenedForDownload | app/dashboard/participants/template/page.tsx:21-133 | A page opened with a token and `auto=download` downloads once, automatically, as soon as the background loads. The download uses the default placement and the poster name. |
| GeneratePage.SentCount | app/dashboard/participants/add/page.tsx:33-42 | A non-finite or non-positive count sends no request. Otherwise it sends min(5000, floor(count)), which is 0 exactly when the count is below 1. |
| GeneratePage.SentCountAccepted | app/api/qrcodes/route.ts:46-54 | A sent count of at least 1 is issued unchanged by the server. A sent 0 is rejected. |
| GeneratePage.Normalise | app/dashboard/participants/add/page.tsx:65-70 | A missing id or token becomes "", and boolean flags are kept. |
| GeneratePage.NormaliseEncode | app/dashboard/participants/add/page.tsx:65-70 | Normalising a row the server returned gives back its id, token and flags. |
| GeneratePage.ReadResponse | app/dashboard/participants/add/page.tsx:44-70 | A failed reply carries the server's error string or "Gagal membuat QR". A successful one normalises every returned row, in order, and gives none when `data` is not a list. |
| GeneratePage.GenerateEndToEnd | app/dashboard/participants/add/page.tsx:32-71 | For an admin, pressing "generate" with a sendable count either lists exactly the rows the server created, or shows the server's 400 for a count of 0. |
| GeneratePage.EntryNameInjective | app/dashboard/participants/add/page.tsx:132 | Different indices never give the same ZIP entry name. |
| GeneratePage.SeventhEntryName | app/dashboard/participants/add/page.tsx:132 | The seventh poster is named "QR_0007.png". |
| GeneratePage.ExportFiles | app/dashboard/participants/add/page.tsx:128-133 | The i-th poster becomes the file named with the 1-based index i+1. |
| GeneratePage.ExportEntriesDistinct | app/dashboard/participants/add/page.tsx:132-138 | No two entries of the exported archive share a name. |
| GeneratePage.ArchiveName | app/dashboard/participants/add/page.tsx:142 | The ZIP's name is "QR_", then the decimal poster count, then "_PNG.zip". |
| GeneratePage.PdfName | app/dashboard/participants/add/page.tsx:213 | The PDF's name is "QR_", then the decimal poster count, then "_Posters.pdf". |
| GeneratePage.ExportNamesCarryCount | app/dashboard/participants/add/page.tsx:142-213 | Two archive names, or two PDF names, are equal exactly when their poster counts are. |
| GeneratePage.ComposeProgress | app/dashboard/participants/add/page.tsx:134 | Compose progress lies in [0,70]. |
| GeneratePage.PackProgress | app/dashboard/participants/add/page.tsx:139-140 | Zip progress lies in [70,100]. |
| GeneratePage.ScaledMonotone | app/dashboard/participants/add/page.tsx:134 | Rounded progress never decreases as more posters are done. |
| GeneratePage.ScaledFull | app/dashboard/participants/add/page.tsx:134 | Finishing all posters gives the full share. |
| GeneratePage.ZipExportStepsUp | app/dashboard/participants/add/page.tsx:126-143 | Each successive value shown during a ZIP export is at least the previous one, and all lie in [0,100]. |
| GeneratePage.ZipExportMonotone | app/dashboard/participants/add/page.tsx:126-143 | The ZIP progress bar never moves backwards. |
| GeneratePage.BuildPdf | app/dashboard/participants/add/page.tsx:198-215 | The PDF has one page per poster, with the i-th poster on page i+1. Its progress values never decrease, stay in [70,100] and end at 100. |
| ScanPage.OnSubmit | app/dashboard/scan/hadir/page.tsx:49-103 | A submit while busy is ignored. An input that trims to "" gives the error with no request. Otherwise the trimmed, non-empty token is sent. |
| ScanPage.Classify | app/dashboard/scan/hadir/page.tsx:60-68 | An ok status is a success and 409 is "already checked in". Any other status is an error carrying the server's message, or "Gagal". |
| ScanPage.FieldAfter | app/dashboard/scan/hadir/page.tsx:60-69 | The input is cleared after a success or a 409, and kept after an error. |
| ScanPage.SubmitEndToEnd | app/dashboard/scan/hadir/page.tsx:49-69 | Submitting a field checks in exactly its trimmed token. Success means the server answered 200, and "already checked in" means 409. Any other answer is a 404 that leaves the store unchanged. |
| ScanPage.ScanTwice | app/dashboard/scan/hadir/page.tsx:49-69 | Scanning the same valid code twice gives a success and then "already checked in". Both times the field is cleared. |
| NavUser.AvatarSrc | components/nav-user.tsx:37-39 | The avatar is the image whenever one is set, even an empty one. Otherwise it is the generated avatar for a non-empty email, and otherwise none. |
| NavUser.DisplayName | components/nav-user.tsx:40-43 | The shown name is a non-empty name if there is one. Otherwise it is the email's part before the first "@", which contains no "@". Without an email it is "Pengguna". |
| NavUser.DisplaysLocalPart | components/nav-user.tsx:43 | A nameless user with email local@domain is shown as "local". |
| NavUser.EmptyEmailShowsBlank | components/nav-user.tsx:43 | A nameless user whose email is "" is shown with an empty name, not "Pengguna". |
| NavUser.Initial | components/nav-user.tsx:44-48 | In the model (ASCII case mapping), the initial is one character: the upper-cased first letter of a non-empty name, else of a non-empty email, else "P". |
| NavUser.InitialStartsDisplayName | components/nav-user.tsx:40-48 | When the user has a name or a non-empty email, the initial is the upper-cased first character of the shown name. |
| NavUser.Alt | components/nav-user.tsx:60 | The alt text is the user's name when it is set, even empty. Otherwise it is the shown name. |
| NavUser.Render | components/nav-user.tsx:34-71 | Nothing renders while the session is pending. The email line appears exactly when the email is non-empty. |
| NavUser.SignedOutBadge | components/nav-user.tsx:34-71 | With no user, the badge shows "Pengguna" with initial "P" and no avatar or email. |
| Zip.CallbackTrace | lib/zip.ts:27-39 | The trace starts with (0,n), reports (k,n) after the k-th file, and ends with (n,n). |
| Zip.ZipFiles | lib/zip.ts:10-20 | Every input file becomes one entry at level 0, with its name and data, in input order. |
| Zip.ZipFilesWithProgress | lib/zip.ts:22-41 | It builds the same archive as the plain ZIP helper. With a callback, the trace is exactly the callback trace, and without one it is empty. |
| Zip.TraceStepsByOne | lib/zip.ts:27-39 | `done` rises by at most one per callback and never exceeds the file count. |
| JsText.Trim | app/dashboard/scan/hadir/page.tsx:50 | `trim` returns a contiguous slice of the input with no whitespace at either end. |
| JsText.TrimIdempotent | lib/require-admin.ts:27 | Trimming twice equals trimming once. |
| JsText.SplitJoin | lib/require-admin.ts:26 | Splitting a comma join of comma-free pieces gives the pieces back. |
| JsText.JoinSplit | lib/require-admin.ts:26 | Joining the split pieces with the separator gives the original string. |
| JsText.ZeroPaddedRoundTrip | app/dashboard/participants/add/page.tsx:132 | A zero-padded decimal index is all digits and reads back as the index. |
| JsNum.CeilDiv | app/api/qrcodes/route.ts:29 | `Math.ceil(n/d)` is the least q with q·d ≥ n. |
| JsNum.RoundDiv | app/dashboard/participants/add/page.tsx:134 | `Math.round(n/d)` is the nearest integer to n/d, with halves rounded up. |
| JsNum.RoundDivMonotone | app/dashboard/participants/add/page.tsx:134 | Rounded quotients never decrease as the numerator grows. |
| JsNum.RoundScaledBounds | app/dashboard/participants/add/page.tsx:139 | round(i/n·s) lies in [0,s] for 0 ≤ i ≤ n. |

## Left out

- The OPTIONS handler and every 500 path. Database failures are not modelled, so no query can throw.
- The check-in route reads the row and updates it in two separate steps. A concurrent request can interleave between them. Check-in is modelled as one sequential step, and no atomicity is claimed.
- Caching and revalidation of queries have no observable effect on results.
- Ties in ORDER BY: the database may return equal keys in any order. The model fixes one order, and the contracts promise only "descending and a permutation".
- Ids, tokens and timestamps come from the database and the clock. They are parameters: a supply of fresh (id, token) pairs, and `now`.
- The auth library is parameters of the model:
  - session lookup is an outcome (no session, a session, or a thrown error);
  - sign-up, user listing and the role update are outcomes;
  - `authClient.admin.listUsers` in the users table is its reported total.
- JSON fields of other types: the users route checks `typeof … === "string"`, so its fields are a string or not a string. The qrcodes route reads its count fields with `??` and `Number(...)`, so each is nullish or the number `Number` makes of it. The seed route checks no type, so its fields are missing, a string, a falsy non-string or a truthy non-string kept as its JSON text. The generator's raw row fields are nullish, a string or a boolean. The scan page's error is a string or absent. `String(...)` and `Boolean(...)` of other JSON values are not modelled.
- Floating-point rounding in `i/total*70` and `done/total*30`. The model computes the exact rational and rounds it once.
- Canvas drawing, image loading, jsPDF layout and scaling, and Blob handling: only the page count, page order, progress values and file names are modelled.
- Case mapping is modelled for ASCII letters only. JavaScript's `toLowerCase`/`toUpperCase` on other letters is not modelled.
- React effects, debounce timers, AbortController, toasts, focus and URL syncing. The component logic is modelled as events applied to a state.
- The participants table's reset to page 1 when the query or size changes (components/participants-table.tsx:104-107) is not modelled. It also runs on mount, so a page of 0 read from the URL lasts one render. The URL writer (lines 88-102) then writes page=0, which the URL-sync effect (lines 152-154) reads back as 1. `ParticipantsTable.Initial` models only the page read from the URL.
- The users table's page-size select, previous/next buttons and row numbers (components/users/users-table.tsx:235-416) follow the qrcodes table's code line for line. They are modelled once, by `QrCodesTable.Step`, `ClientPaging.Prev`/`Next` and `ClientPaging.RowNumberIsRank`, and have no separate event model.
- The print flow of the template page, which has the same guards as its download button.
- TemplatePage.Settle: the delayed `onDownload` closes over the render before the snap, so the automatic download uses the placement shown before the snap. This equals the default placement unless it was edited first.
- The qrcodes table's own poster download is not part of this model.
- The participants route (`/api/participants`) is not part of this model. Its page rule is assumed to be `Paging.PageOf`, the rule of the qrcodes and users routes; the comparisons in `ParticipantsTable.Initial` and `ParticipantsTable.HalfPageStartsAtZero` rest on that.
- `/api/users/[id]` (the delete endpoint): only its answer, deleted or rejected with an optional error, enters the users table model.
- The QR proxy `app/api/qr/route.ts`, the form schemas, dashboard statistics and the static pages.
- Malformed JSON in a request: the routes fall back to `{}`, which the model represents as every field absent.
- UsersRoute.Post: a body that is the JSON literal `null` makes reading `json.email` throw a TypeError, and the route answers 400 with that error's message (app/api/users/route.ts:55-60 and 107-109). The model's body always has fields, so this reply is not covered.
- SeedRoute.Post: a `null` body likewise throws on `body.email` and gives 400 with the TypeError's message (app/api/seed/route.ts:9-15 and 25-27). Not covered, for the same reason.
- HadirRoute.Post: a `null` body throws on `json.token` and gives 500 "Failed to mark hadir" (app/api/qrcodes/hadir/route.ts:19-24 and 51-56). Not covered, for the same reason.
- The scan page when the reply body is not JSON. `res.json()` then throws, and the page shows the thrown error; the model does not cover this.
- GeneratePage.ZipExportStepsUp: the progress sequence is the values the page sets in order. React may merge updates, so fewer values may be displayed.

## Findings

| source | as written | input that shows it | evidently intended | confidence | as-written member | corrected member |
|---|---|---|---|---|---|---|
| components/qrcodes-table.tsx:76-77 | the URL page is `p > 0 ? Math.floor(p) : 1` | `?page=0.5` gives page 0, while the server answers page 1; the first row is numbered -9 | a page of at least 1, as the server computes (`max(1, floor(p))`) | not executed | ClientPaging.HalfPageNumbersBelowOne | ClientPaging.UrlPageAgreesWithServer |
| components/participants-table.tsx:62-66 | the initial page is `p > 0 ? Math.floor(p) : 1`; the URL-sync effect (lines 152-153) uses the same rule | `?page=0.5` gives page 0 for the first render: "Halaman 0" shows and one request asks for page 0, before the reset at lines 104-107 sets page 1 | a page of at least 1, as `Paging.PageOf` computes for the qrcodes and users routes | not executed | ParticipantsTable.HalfPageStartsAtZero | ClientPaging.UrlPageAgreesWithServer |

=== FILE: client_paging.dfy ===
/**
 * Pagination in the browser tables: the page and page size read from the
 * address bar, the pagination bar shared by the token table and the user
 * table (at most five page buttons, else the first page, the current page
 * with its neighbours and the last page, with an ellipsis wherever pages are
 * skipped), the previous/next links and the row numbering.
 */
module ClientPaging {
  import opened JsNum
  import Ordering
  import Paging
  import Listing

  /** The page sizes the tables offer. */
  const PageSizes: set<int> := {10, 20, 30, 40, 50}

  /** The address bar's `page` as the tables read it: floored when finite
      and positive, else 1.  A value strictly between 0 and 1 floors to 0. */
  function UrlPageAsWritten(p: Param): (page: int)
    ensures page >= 0
    ensures page == 0 <==> p.Given? && p.n.Finite? && 0.0 < p.n.v < 1.0
    ensures p.Given? && p.n.Finite? && p.n.v >= 1.0 ==> page == p.n.v.Floor
  {
    var raw := if p.Absent? then Finite(1.0) else p.n;
    if raw.Finite? && raw.v > 0.0 then raw.v.Floor else 1
  }

  /** The evident intent: a page of at least 1, read as the server reads it. */
  function UrlPage(p: Param): (page: int)
    ensures page >= 1
    ensures p.Given? && p.n.Finite? && p.n.v >= 1.0 ==> page == p.n.v.Floor
    ensures page == UrlPageAsWritten(p) || (UrlPageAsWritten(p) == 0 && page == 1)
  {
    var raw := if p.Absent? then Finite(1.0) else p.n;
    if raw.Finite? && raw.v > 0.0 then Max(1, raw.v.Floor) else 1
  }

  /** The corrected reading agrees with the server's for every address. */
  lemma UrlPageAgreesWithServer(p: Param)
    ensures UrlPage(p) == Paging.PageOf(p)
  {
  }

  /** A page of 0.5 in the address bar: the tables take page 0 while the
      server serves page 1, so the first row is numbered -9 instead of 1. */
  lemma HalfPageNumbersBelowOne()
    ensures UrlPageAsWritten(Given(Finite(0.5))) == 0
    ensures Paging.PageOf(Given(Finite(0.5))) == 1
    ensures RowNumber(UrlPageAsWritten(Given(Finite(0.5))), 10, 0) == -9
    ensures RowNumber(UrlPage(Given(Finite(0.5))), 10, 0) == 1
  {
    assert (0.5).Floor == 0;
  }

  /** The address bar's `limit`: kept when it is exactly one of the offered
      sizes, else 10; a missing value stands for `current`. */
  function UrlLimit(p: Param, current: int): (size: int)
    requires current in PageSizes
    ensures size in PageSizes
    ensures p.Given? && p.n.Finite? && p.n.v.Floor in PageSizes && p.n.v == p.n.v.Floor as real ==> size == p.n.v.Floor
    ensures p.Absent? ==> size == current
    ensures p.Given? ==> size == 10 || (p.n.Finite? && p.n.v == size as real)
  {
    var raw := if p.Absent? then Finite(current as real) else p.n;
    if raw.Finite? && raw.v == raw.v.Floor as real && raw.v.Floor in PageSizes then raw.v.Floor else 10
  }

  const MaxButtons := 5

  /** One entry of the bar. */
  datatype PageItem = Num(n: int) | Ellipsis

  /** The buttons `lo, lo + 1, ..., hi` (none when `hi < lo`). */
  function Nums(lo: int, hi: int): (r: seq<PageItem>)
    ensures |r| == if hi >= lo then hi - lo + 1 else 0
    ensures forall k :: 0 <= k < |r| ==> r[k] == Num(lo + k)
  {
    seq(if hi >= lo then hi - lo + 1 else 0, k => Num(lo + k))
  }

  /** The loop `for i in left..right: if i != 1 && i != pageCount push i`,
      from `i` on: the pages of the range other than the first and last. */
  function Middle(i: int, right: int, pageCount: int): (r: seq<PageItem>)
    requires i >= 1 && right <= pageCount
    ensures r == Nums(Max(i, 2), Min(right, pageCount - 1))
    decreases right - i + 1
  {
    if i > right then []
    else
      var rest := Middle(i + 1, right, pageCount);
      if i != 1 && i != pageCount then
        assert Max(i + 1, 2) == i + 1;
        [Num(i)] + rest
      else
        rest
  }

  /** The bar for `page` out of `pageCount`. */
  function Window(page: int, pageCount: int): (r: seq<PageItem>)
    ensures pageCount <= MaxButtons ==> r == Nums(1, pageCount)
    ensures pageCount > MaxButtons ==> |r| >= 3 && r[0] == Num(1) && r[|r| - 1] == Num(pageCount)
  {
    if pageCount <= MaxButtons then Nums(1, pageCount)
    else
      var left := Max(1, page - 1);
      var right := Min(pageCount, page + 1);
      [Num(1)]
        + (if left > 2 then [Ellipsis] else [])
        + Middle(left, right, pageCount)
        + (if right < pageCount - 1 then [Ellipsis] else [])
        + [Num(pageCount)]
  }

  /** The pages a bar of more than five shows, as the pieces it is built
      from: the first page, the current page's in-range neighbours other
      than the first and last, and the last page. */
  lemma Pieces(page: int, pageCount: int)
    requires pageCount > MaxButtons
    ensures var left := Max(1, page - 1);
            var right := Min(pageCount, page + 1);
            var e1: seq<PageItem> := if left > 2 then [Ellipsis] else [];
            var e2: seq<PageItem> := if right < pageCount - 1 then [Ellipsis] else [];
            Window(page, pageCount)
              == [Num(1)] + e1 + Nums(Max(2, page - 1), Min(pageCount - 1, page + 1)) + e2 + [Num(pageCount)]
  {
  }

  /** Beyond five pages the bar shows exactly the first page, the last
      page, and the in-range pages next to or at the current one. */
  lemma Shown(page: int, pageCount: int, v: int)
    requires pageCount > MaxButtons
    ensures Num(v) in Window(page, pageCount) <==>
      v == 1 || v == pageCount || (1 <= v <= pageCount && page - 1 <= v <= page + 1)
  {
    Pieces(page, pageCount);
    var lo, hi := Max(2, page - 1), Min(pageCount - 1, page + 1);
    var mid := Nums(lo, hi);
    if lo <= v <= hi {
      assert mid[v - lo] == Num(v);
    }
    assert Num(v) in mid ==> lo <= v <= hi;
  }

  /** Up to five pages the bar shows every page. */
  lemma ShownSmall(page: int, pageCount: int, v: int)
    requires pageCount <= MaxButtons
    ensures Num(v) in Window(page, pageCount) <==> 1 <= v <= pageCount
    ensures Ellipsis !in Window(page, pageCount)
  {
    var r := Window(page, pageCount);
    if 1 <= v <= pageCount {
      assert r[v - 1] == Num(v);
    }
  }

  /** Reading the bar left to right: it starts and ends with a page, two
      adjacent pages are consecutive, and an ellipsis stands between two
      pages with at least one page skipped. */
  ghost predicate Gapped(r: seq<PageItem>) {
    |r| >= 1 && r[0].Num? && r[|r| - 1].Num? && Consecutive(r) && EllipsesSkip(r)
  }

  /** Two pages side by side are consecutive. */
  ghost predicate Consecutive(r: seq<PageItem>) {
    forall k :: 0 <= k < |r| - 1 && r[k].Num? && r[k + 1].Num? ==> r[k + 1].n == r[k].n + 1
  }

  /** An ellipsis stands between two pages with at least one page skipped. */
  ghost predicate EllipsesSkip(r: seq<PageItem>) {
    forall k :: 0 < k < |r| - 1 && r[k].Ellipsis? ==>
      r[k - 1].Num? && r[k + 1].Num? && r[k + 1].n >= r[k - 1].n + 2
  }

  lemma NumsGapped(lo: int, hi: int)
    requires lo <= hi
    ensures Gapped(Nums(lo, hi))
  {
  }

  /** Two gapped bars placed side by side, joined directly when the pages
      meet and through an ellipsis when pages are skipped. */
  lemma JoinGapped(x: seq<PageItem>, y: seq<PageItem>, gap: bool)
    requires Gapped(x) && Gapped(y)
    requires gap ==> y[0].n >= x[|x| - 1].n + 2
    requires !gap ==> y[0].n == x[|x| - 1].n + 1
    ensures Gapped(x + (if gap then [Ellipsis] else []) + y)
  {
    var e: seq<PageItem> := if gap then [Ellipsis] else [];
    var r := x + e + y;
    JoinConsecutive(x, y, gap);
    JoinEllipsesSkip(x, y, gap);
    assert r[0] == x[0] && r[|r| - 1] == y[|y| - 1];
  }

  lemma JoinConsecutive(x: seq<PageItem>, y: seq<PageItem>, gap: bool)
    requires Gapped(x) && Gapped(y)
    requires !gap ==> y[0].n == x[|x| - 1].n + 1
    ensures Consecutive(x + (if gap then [Ellipsis] else []) + y)
  {
    var e: seq<PageItem> := if gap then [Ellipsis] else [];
    var r := x + e + y;
    var m := |x| + |e|;
    forall k | 0 <= k < |r| - 1 && r[k].Num? && r[k + 1].Num?
      ensures r[k + 1].n == r[k].n + 1
    {
      if k + 1 < |x| {
        assert r[k] == x[k] && r[k + 1] == x[k + 1];
      } else if k >= m {
        assert r[k] == y[k - m] && r[k + 1] == y[k + 1 - m];
      } else {
        assert k == |x| - 1 && !gap;
        assert r[k] == x[k] && r[k + 1] == y[0];
      }
    }
  }

  lemma JoinEllipsesSkip(x: seq<PageItem>, y: seq<PageItem>, gap: bool)
    requires Gapped(x) && Gapped(y)
    requires gap ==> y[0].n >= x[|x| - 1].n + 2
    ensures EllipsesSkip(x + (if gap then [Ellipsis] else []) + y)
  {
    var e: seq<PageItem> := if gap then [Ellipsis] else [];
    var r := x + e + y;
    var m := |x| + |e|;
    forall k | 0 < k < |r| - 1 && r[k].Ellipsis?
      ensures r[k - 1].Num? && r[k + 1].Num? && r[k + 1].n >= r[k - 1].n + 2
    {
      if k < |x| {
        assert r[k - 1] == x[k - 1] && r[k] == x[k];
        assert r[k + 1] == x[k + 1];
      } else if k > m {
        assert r[k - 1] == y[k - 1 - m] && r[k] == y[k - m] && r[k + 1] == y[k + 1 - m];
      } else {
        assert k == |x| && gap;
        assert r[k - 1] == x[|x| - 1] && r[k + 1] == y[0];
      }
    }
  }

  /** Every bar with at least one page reads as gapped. */
  lemma WindowGapped(page: int, pageCount: int)
    requires pageCount >= 1
    ensures Gapped(Window(page, pageCount))
  {
    if pageCount <= MaxButtons {
      NumsGapped(1, pageCount);
    } else {
      Pieces(page, pageCount);
      var lo, hi := Max(2, page - 1), Min(pageCount - 1, page + 1);
      PiecesGapped(lo, hi, pageCount, Max(1, page - 1) > 2, Min(pageCount, page + 1) < pageCount - 1);
    }
  }

  /** The first page, an optional ellipsis, the pages `lo..hi`, an optional
      ellipsis and the last page read as gapped when each ellipsis stands
      exactly where pages are skipped. */
  lemma PiecesGapped(lo: int, hi: int, pageCount: int, gap1: bool, gap2: bool)
    requires 2 <= lo && hi <= pageCount - 1
    requires lo <= hi ==> (gap1 <==> lo > 2) && (gap2 <==> hi < pageCount - 1)
    requires lo > hi ==> pageCount >= 3 && gap1 != gap2
    ensures var e1: seq<PageItem> := if gap1 then [Ellipsis] else [];
            var e2: seq<PageItem> := if gap2 then [Ellipsis] else [];
            Gapped([Num(1)] + e1 + Nums(lo, hi) + e2 + [Num(pageCount)])
  {
    var e1: seq<PageItem> := if gap1 then [Ellipsis] else [];
    var e2: seq<PageItem> := if gap2 then [Ellipsis] else [];
    if lo <= hi {
      RangeBetweenEnds(lo, hi, pageCount, gap1, gap2);
    } else {
      assert Nums(lo, hi) == [];
      assert e1 + e2 == [Ellipsis];
      EllipsisBetweenEnds(pageCount, e1, e2);
    }
  }

  /** A single page as a bar of its own. */
  lemma OnePage(n: int)
    ensures Nums(n, n) == [Num(n)] && Gapped([Num(n)])
  {
    NumsGapped(n, n);
  }

  /** `PiecesGapped` with pages between the ends. */
  lemma RangeBetweenEnds(lo: int, hi: int, pageCount: int, gap1: bool, gap2: bool)
    requires 2 <= lo <= hi <= pageCount - 1
    requires (gap1 <==> lo > 2) && (gap2 <==> hi < pageCount - 1)
    ensures var e1: seq<PageItem> := if gap1 then [Ellipsis] else [];
            var e2: seq<PageItem> := if gap2 then [Ellipsis] else [];
            Gapped([Num(1)] + e1 + Nums(lo, hi) + e2 + [Num(pageCount)])
  {
    var first, last := [Num(1)], [Num(pageCount)];
    OnePage(1);
    OnePage(pageCount);
    var e1: seq<PageItem> := if gap1 then [Ellipsis] else [];
    var mid := Nums(lo, hi);
    NumsGapped(lo, hi);
    JoinGapped(first, mid, gap1);
    assert (first + e1 + mid)[|first + e1 + mid| - 1] == Num(hi) by {
      LastOfJoin(first + e1, mid);
    }
    JoinGapped(first + e1 + mid, last, gap2);
  }

  /** `PiecesGapped` with no pages between the ends: one ellipsis. */
  lemma EllipsisBetweenEnds(pageCount: int, e1: seq<PageItem>, e2: seq<PageItem>)
    requires pageCount >= 3 && e1 + e2 == [Ellipsis]
    ensures Gapped([Num(1)] + e1 + [] + e2 + [Num(pageCount)])
  {
    var first, last := [Num(1)], [Num(pageCount)];
    OnePage(1);
    OnePage(pageCount);
    JoinGapped(first, last, true);
    assert first + e1 + [] + e2 + last == first + [Ellipsis] + last;
  }

  /** The last item of `x + y` is the last item of a non-empty `y`. */
  lemma LastOfJoin(x: seq<PageItem>, y: seq<PageItem>)
    requires y != []
    ensures (x + y)[|x + y| - 1] == y[|y| - 1]
  {
  }

  /** Page numbers in a gapped bar strictly increase, so none repeats. */
  lemma {:induction false} GappedIncreasing(r: seq<PageItem>, i: nat, j: nat)
    requires Gapped(r) && i < j < |r| && r[i].Num? && r[j].Num?
    ensures r[i].n < r[j].n
    decreases j - i
  {
    if r[j - 1].Num? {
      if i < j - 1 {
        GappedIncreasing(r, i, j - 1);
      }
    } else {
      assert r[j - 2].Num? && r[j].n >= r[j - 2].n + 2;
      if i < j - 2 {
        GappedIncreasing(r, i, j - 2);
      }
    }
  }

  /** Every bar numbers its pages in strictly increasing order, all within
      [1, pageCount]. */
  lemma WindowIncreasing(page: int, pageCount: int)
    requires pageCount >= 1
    ensures var r := Window(page, pageCount);
      forall i, j :: 0 <= i < j < |r| && r[i].Num? && r[j].Num? ==> r[i].n < r[j].n
    ensures forall v :: Num(v) in Window(page, pageCount) ==> 1 <= v <= pageCount
  {
    var r := Window(page, pageCount);
    WindowGapped(page, pageCount);
    forall i, j | 0 <= i < j < |r| && r[i].Num? && r[j].Num?
      ensures r[i].n < r[j].n
    {
      GappedIncreasing(r, i, j);
    }
    forall v | Num(v) in r
      ensures 1 <= v <= pageCount
    {
      if pageCount <= MaxButtons { ShownSmall(page, pageCount, v); } else { Shown(page, pageCount, v); }
    }
  }

  /** A current page within range is shown, with its in-range neighbours. */
  lemma CurrentShown(page: int, pageCount: int)
    requires 1 <= page <= pageCount
    ensures Num(page) in Window(page, pageCount)
    ensures page > 1 ==> Num(page - 1) in Window(page, pageCount)
    ensures page < pageCount ==> Num(page + 1) in Window(page, pageCount)
  {
    if pageCount <= MaxButtons {
      ShownSmall(page, pageCount, page);
      ShownSmall(page, pageCount, page - 1);
      ShownSmall(page, pageCount, page + 1);
    } else {
      Shown(page, pageCount, page);
      Shown(page, pageCount, page - 1);
      Shown(page, pageCount, page + 1);
    }
  }

  /** Beyond five pages, an ellipsis follows the first page exactly when the
      current page is past 3, and precedes the last page exactly when the
      current page is more than two before it. */
  lemma EllipsisPlacement(page: int, pageCount: int)
    requires pageCount > MaxButtons && 1 <= page <= pageCount
    ensures var r := Window(page, pageCount);
      && (r[1] == Ellipsis <==> page > 3)
      && (r[|r| - 2] == Ellipsis <==> page < pageCount - 2)
  {
    Pieces(page, pageCount);
    var lo, hi := Max(2, page - 1), Min(pageCount - 1, page + 1);
    assert lo <= hi;
    var mid := Nums(lo, hi);
    var r := Window(page, pageCount);
    var left := Max(1, page - 1);
    assert r[1] == if left > 2 then Ellipsis else mid[0];
    assert r[|r| - 2] == if Min(pageCount, page + 1) < pageCount - 1 then Ellipsis else mid[|mid| - 1];
  }

  /** The previous-page link: moves back one page unless on the first. */
  function Prev(page: int): (p: int)
    ensures page > 1 ==> p == page - 1
    ensures page <= 1 ==> p == page
  {
    if page > 1 then page - 1 else page
  }

  /** The next-page link: moves on one page unless on the last. */
  function Next(page: int, pageCount: int): (p: int)
    ensures page < pageCount ==> p == page + 1
    ensures page >= pageCount ==> p == page
  {
    if page < pageCount then page + 1 else page
  }

  /** The links never leave the range of pages, and a bar button always
      names a page within it. */
  lemma NavigationStaysInRange(page: int, pageCount: int, v: int)
    requires 1 <= page <= pageCount
    requires Num(v) in Window(page, pageCount)
    ensures 1 <= Prev(page) <= pageCount && 1 <= Next(page, pageCount) <= pageCount
    ensures 1 <= v <= pageCount
  {
    WindowIncreasing(page, pageCount);
  }

  /** The "No" column: `(page - 1) * pageSize + index + 1`. */
  function RowNumber(page: int, pageSize: int, index: int): int {
    (page - 1) * pageSize + index + 1
  }

  /** The number shown beside a row is its 1-based rank in the server's
      order, when the table's page is the page the server served. */
  lemma RowNumberIsRank<T>(rows: seq<T>, key: T -> int, page: int, pageSize: int, index: nat)
    requires page >= 1 && pageSize >= 1
    requires index < |Listing.PageRows(rows, key, page, pageSize)|
    ensures 1 <= RowNumber(page, pageSize, index) <= |rows|
    ensures Listing.PageRows(rows, key, page, pageSize)[index]
         == Ordering.SortDesc(rows, key)[RowNumber(page, pageSize, index) - 1]
  {
    var offset := Paging.Offset(page, pageSize);
    var r := Listing.PageRows(rows, key, page, pageSize);
    assert RowNumber(page, pageSize, index) - 1 == offset + index;
    assert offset < |rows| && index < Min(pageSize, |rows| - offset);
    assert r[index] == Ordering.SortDesc(rows, key)[offset + index];
  }
}

=== FILE: file_names.dfy ===
/**
 * Download file names for posters: the `sanitize` helper that appears in
 * both the participants table and the poster template page, and the name
 * built from a participant's name.
 */
module FileNames {
  /** An ASCII letter, digit or underscore: a character every step keeps. */
  predicate IsWord(c: char) {
    ('a' <= c <= 'z') || ('A' <= c <= 'Z') || ('0' <= c <= '9') || c == '_'
  }

  /** A character the pattern `[a-z0-9-_]` with the `i` flag accepts. */
  predicate Allowed(c: char) { IsWord(c) || c == '-' }

  /** The word characters of `s`, in order. */
  function Words(s: string): (w: string)
    ensures forall i :: 0 <= i < |w| ==> IsWord(w[i])
  {
    if s == [] then [] else (if IsWord(s[0]) then [s[0]] else []) + Words(s[1..])
  }

  lemma {:induction false} WordsAppend(a: string, b: string)
    ensures Words(a + b) == Words(a) + Words(b)
  {
    if a == [] {
      assert a + b == b;
    } else {
      assert (a + b)[0] == a[0];
      assert (a + b)[1..] == a[1..] + b;
      WordsAppend(a[1..], b);
    }
  }

  /** Only characters the pattern accepts. */
  ghost predicate AllAllowed(s: string) {
    forall i :: 0 <= i < |s| ==> Allowed(s[i])
  }

  /** No two hyphens in a row. */
  ghost predicate NoDoubleHyphen(s: string) {
    forall i :: 0 <= i < |s| - 1 ==> !(s[i] == '-' && s[i + 1] == '-')
  }

  /** Neither end is a hyphen. */
  predicate NoEdgeHyphen(s: string) {
    s == [] || (s[0] != '-' && s[|s| - 1] != '-')
  }

  /** A name `sanitize` leaves as it is: allowed characters only, no two
      hyphens in a row, no hyphen at either end. */
  ghost predicate Clean(s: string) {
    AllAllowed(s) && NoDoubleHyphen(s) && NoEdgeHyphen(s)
  }

  /** A slice keeps both character-level properties. */
  lemma SliceKeeps(s: string, lo: int, hi: int)
    requires 0 <= lo <= hi <= |s|
    ensures AllAllowed(s) ==> AllAllowed(s[lo..hi])
    ensures NoDoubleHyphen(s) ==> NoDoubleHyphen(s[lo..hi])
  {
    var t := s[lo..hi];
    if NoDoubleHyphen(s) {
      forall i | 0 <= i < |t| - 1
        ensures !(t[i] == '-' && t[i + 1] == '-')
      {
        assert t[i] == s[lo + i] && t[i + 1] == s[lo + i + 1];
      }
    }
  }

  /** The leading run of characters the pattern rejects, removed. */
  function DropRejected(s: string): (r: string)
    ensures |r| <= |s| && r == s[|s| - |r|..]
    ensures r == [] || Allowed(r[0])
    ensures Words(s) == Words(r)
  {
    if s == [] || Allowed(s[0]) then s
    else
      assert s == [s[0]] + s[1..];
      DropRejected(s[1..])
  }

  /** `.replace(/[^a-z0-9-_]+/gi, "-")`: every maximal run of rejected
      characters becomes one hyphen. */
  function ReplaceRejected(s: string): (r: string)
    ensures AllAllowed(r)
    ensures Words(r) == Words(s)
    ensures AllAllowed(s) ==> r == s
    decreases |s|
  {
    if s == [] then []
    else if Allowed(s[0]) then
      assert s == [s[0]] + s[1..];
      WordsAppend([s[0]], s[1..]);
      WordsAppend([s[0]], ReplaceRejected(s[1..]));
      [s[0]] + ReplaceRejected(s[1..])
    else
      var rest := DropRejected(s[1..]);
      assert s == [s[0]] + s[1..];
      WordsAppend([s[0]], s[1..]);
      WordsAppend(['-'], ReplaceRejected(rest));
      ['-'] + ReplaceRejected(rest)
  }

  /** `DropRejected` stops at the first accepted character, so text after
      that character passes through it untouched. */
  lemma {:induction false} DropRejectedAppend(x: string, v: string)
    requires v == [] || Allowed(v[0]) || (x != [] && Allowed(x[|x| - 1]))
    ensures DropRejected(x + v) == DropRejected(x) + v
    decreases |x|
  {
    if x == [] {
      assert x + v == v;
    } else {
      assert (x + v)[0] == x[0] && (x + v)[1..] == x[1..] + v;
      if !Allowed(x[0]) {
        DropRejectedAppend(x[1..], v);
      }
    }
  }

  /** A non-empty stretch of rejected characters becomes a single hyphen. */
  lemma RejectedRunIsHyphen(x: string)
    requires x != [] && forall i :: 0 <= i < |x| ==> !Allowed(x[i])
    ensures ReplaceRejected(x) == "-"
  {
    assert DropRejected(x[1..]) == [];
  }

  /** The replacement works stretch by stretch: cutting the input next to
      an accepted character cuts the output at the same place. Together
      with `RejectedRunIsHyphen` and `AllAllowed(s) ==> r == s` this fixes
      the result for every input. */
  lemma {:induction false} ReplaceRejectedSplits(u: string, v: string)
    requires u == [] || v == [] || Allowed(u[|u| - 1]) || Allowed(v[0])
    ensures ReplaceRejected(u + v) == ReplaceRejected(u) + ReplaceRejected(v)
    decreases |u|, 1
  {
    if u == [] {
      assert u + v == v;
    } else if Allowed(u[0]) {
      SplitsAfterAllowed(u, v);
    } else {
      SplitsAfterRejected(u, v);
    }
  }

  lemma ConsAssoc(c: char, a: string, b: string)
    ensures [c] + (a + b) == ([c] + a) + b
  {
  }

  /** The step of `ReplaceRejectedSplits` where `u` starts with an accepted character. */
  lemma {:induction false} SplitsAfterAllowed(u: string, v: string)
    requires u != [] && Allowed(u[0])
    requires v == [] || Allowed(u[|u| - 1]) || Allowed(v[0])
    ensures ReplaceRejected(u + v) == ReplaceRejected(u) + ReplaceRejected(v)
    decreases |u|, 0
  {
    var a, b, tail := ReplaceRejected(u[1..]), ReplaceRejected(v), ReplaceRejected(u[1..] + v);
    assert ReplaceRejected(u + v) == [u[0]] + tail && ReplaceRejected(u) == [u[0]] + a by {
      HeadOfAppend(u, v);
      AllowedHead(u + v);
      AllowedHead(u);
    }
    assert tail == a + b by {
      if |u| == 1 {
        assert u[1..] == [];
        AppendEmpty(v);
        AppendEmpty(b);
      } else {
        LastOfTail(u);
        ReplaceRejectedSplits(u[1..], v);
      }
    }
    ConsAssoc(u[0], a, b);
  }

  /** The step of `ReplaceRejectedSplits` where `u` starts with a rejected character. */
  lemma {:induction false} SplitsAfterRejected(u: string, v: string)
    requires u != [] && !Allowed(u[0])
    requires v == [] || Allowed(u[|u| - 1]) || Allowed(v[0])
    ensures ReplaceRejected(u + v) == ReplaceRejected(u) + ReplaceRejected(v)
    decreases |u|, 0
  {
    var rest := DropRejected(u[1..]);
    var a, b, tail := ReplaceRejected(rest), ReplaceRejected(v), ReplaceRejected(rest + v);
    assert ReplaceRejected(u + v) == ['-'] + tail && ReplaceRejected(u) == ['-'] + a by {
      RejectedHeadUnfolds(u, v);
    }
    assert tail == a + b by {
      RejectedHeadUnfolds(u, v);
      if rest == [] {
        assert rest + v == v;
      } else {
        ReplaceRejectedSplits(rest, v);
      }
    }
    ConsAssoc('-', a, b);
  }

  /** One unfolding of `ReplaceRejected` past a leading rejected character,
      with text appended that `DropRejected` does not reach. */
  lemma RejectedHeadUnfolds(u: string, v: string)
    requires u != [] && !Allowed(u[0])
    requires v == [] || Allowed(u[|u| - 1]) || Allowed(v[0])
    ensures ReplaceRejected(u + v) == ['-'] + ReplaceRejected(DropRejected(u[1..]) + v)
    ensures ReplaceRejected(u) == ['-'] + ReplaceRejected(DropRejected(u[1..]))
    ensures DropRejected(u[1..]) != [] ==> DropRejected(u[1..])[|DropRejected(u[1..])| - 1] == u[|u| - 1]
  {
    HeadOfAppend(u, v);
    TailCondition(u, v);
    DropRejectedAppend(u[1..], v);
    RejectedHead(u + v);
    RejectedHead(u);
    DropRejectedLast(u[1..]);
  }

  /** The first character and the rest of `u + v`, for a non-empty `u`. */
  lemma HeadOfAppend(u: string, v: string)
    requires u != []
    ensures (u + v)[0] == u[0] && (u + v)[1..] == u[1..] + v
  {
  }

  /** What `RejectedHeadUnfolds` needs of the text after the leading character. */
  lemma TailCondition(u: string, v: string)
    requires u != [] && !Allowed(u[0])
    requires v == [] || Allowed(u[|u| - 1]) || Allowed(v[0])
    ensures v == [] || Allowed(v[0]) || (u[1..] != [] && Allowed(u[1..][|u[1..]| - 1]))
  {
  }

  /** Dropping the first of at least two characters keeps the last one. */
  lemma LastOfTail(u: string)
    requires |u| >= 2
    ensures u[1..][|u[1..]| - 1] == u[|u| - 1]
  {
  }

  /** A leading accepted character is copied. */
  lemma AllowedHead(s: string)
    requires s != [] && Allowed(s[0])
    ensures ReplaceRejected(s) == [s[0]] + ReplaceRejected(s[1..])
  {
  }

  /** A leading rejected character and the rejected ones after it give one hyphen. */
  lemma RejectedHead(s: string)
    requires s != [] && !Allowed(s[0])
    ensures ReplaceRejected(s) == ['-'] + ReplaceRejected(DropRejected(s[1..]))
  {
  }

  /** `DropRejected` removes a prefix only, so a non-empty result ends as its input does. */
  lemma DropRejectedLast(s: string)
    ensures DropRejected(s) != [] ==> DropRejected(s)[|DropRejected(s)| - 1] == s[|s| - 1]
  {
    var r := DropRejected(s);
    if r != [] {
      SuffixLast(s, r);
    }
  }

  /** A non-empty suffix ends where the whole text ends. */
  lemma SuffixLast(s: string, r: string)
    requires r != [] && |r| <= |s| && r == s[|s| - |r|..]
    ensures r[|r| - 1] == s[|s| - 1]
  {
    assert r[|r| - 1] == s[|s| - |r| + |r| - 1];
  }

  /** `.replace(/-+/g, "-")`: every run of hyphens becomes one hyphen. */
  function Collapse(s: string): (r: string)
    ensures AllAllowed(s) ==> AllAllowed(r)
    ensures NoDoubleHyphen(r)
    ensures Words(r) == Words(s)
    ensures |r| <= |s| && (s == [] <==> r == [])
    ensures s != [] ==> r[0] == s[0]
    ensures NoDoubleHyphen(s) ==> r == s
  {
    if s == [] then []
    else if |s| >= 2 && s[0] == '-' && s[1] == '-' then
      assert s == [s[0]] + s[1..];
      WordsAppend([s[0]], s[1..]);
      Collapse(s[1..])
    else
      var rest := Collapse(s[1..]);
      KeepHead(s, rest);
      [s[0]] + rest
  }

  /** The step of `Collapse` that keeps the first character: whatever
      `Collapse` promises of `rest` for `s[1..]` carries over to
      `[s[0]] + rest` for `s`. */
  lemma KeepHead(s: string, rest: string)
    requires s != [] && !(|s| >= 2 && s[0] == '-' && s[1] == '-')
    requires AllAllowed(s[1..]) ==> AllAllowed(rest)
    requires NoDoubleHyphen(rest)
    requires Words(rest) == Words(s[1..])
    requires |rest| <= |s[1..]| && (s[1..] == [] <==> rest == [])
    requires s[1..] != [] ==> rest[0] == s[1..][0]
    requires NoDoubleHyphen(s[1..]) ==> rest == s[1..]
    ensures var r := [s[0]] + rest;
      && (AllAllowed(s) ==> AllAllowed(r))
      && NoDoubleHyphen(r)
      && Words(r) == Words(s)
      && |r| <= |s| && r != [] && r[0] == s[0]
      && (NoDoubleHyphen(s) ==> r == s)
  {
    var r := [s[0]] + rest;
    assert s == [s[0]] + s[1..];
    SliceKeeps(s, 1, |s|);
    assert Words(r) == Words(s) by {
      WordsAppend([s[0]], s[1..]);
      WordsAppend([s[0]], rest);
    }
    assert AllAllowed(s) ==> AllAllowed(r) by {
      if AllAllowed(s) {
        forall i | 0 <= i < |r|
          ensures Allowed(r[i])
        {
          if i > 0 {
            assert r[i] == rest[i - 1];
          }
        }
      }
    }
    forall i | 0 <= i < |r| - 1
      ensures !(r[i] == '-' && r[i + 1] == '-')
    {
      if i > 0 {
        assert r[i] == rest[i - 1] && r[i + 1] == rest[i];
      }
    }
  }

  /** A non-empty run of hyphens becomes one hyphen. */
  lemma {:induction false} HyphenRunIsHyphen(x: string)
    requires x != [] && forall i :: 0 <= i < |x| ==> x[i] == '-'
    ensures Collapse(x) == "-"
    decreases |x|
  {
    if |x| >= 2 {
      HyphenRunIsHyphen(x[1..]);
    }
  }

  /** Collapsing works run by run: cutting the input anywhere that does not
      split a run of hyphens cuts the output at the same place. Together
      with `HyphenRunIsHyphen` and `NoDoubleHyphen(s) ==> r == s` this fixes
      the result for every input. */
  lemma {:induction false} CollapseSplits(u: string, v: string)
    requires u == [] || v == [] || u[|u| - 1] != '-' || v[0] != '-'
    ensures Collapse(u + v) == Collapse(u) + Collapse(v)
    decreases |u|
  {
    if u == [] {
      AppendEmpty(v);
    } else {
      var a, b := Collapse(u[1..]), Collapse(v);
      HeadOfAppend(u, v);
      CollapseHead(u + v);
      CollapseHead(u);
      if |u| == 1 {
        assert u[1..] == [] && a == [];
        AppendEmpty(v);
        AppendEmpty([u[0]]);
      } else {
        assert Collapse(u[1..] + v) == a + b by {
          LastOfTail(u);
          CollapseSplits(u[1..], v);
        }
        assert (u + v)[1] == u[1] by {
          HeadOfAppend(u[1..], v);
        }
        ConsAssoc(u[0], a, b);
      }
    }
  }

  /** One step of `Collapse`. */
  lemma CollapseHead(s: string)
    requires s != []
    ensures Collapse(s) == if |s| >= 2 && s[0] == '-' && s[1] == '-' then Collapse(s[1..]) else [s[0]] + Collapse(s[1..])
  {
  }

  /** The `^-` half: one hyphen off the front. */
  function DropFront(s: string): (r: string)
    ensures |r| <= |s| && r == s[|s| - |r|..]
    ensures Words(r) == Words(s)
    ensures (s == [] || s[0] != '-') ==> r == s
    ensures NoDoubleHyphen(s) ==> r == [] || r[0] != '-'
  {
    if s != [] && s[0] == '-' then
      assert s == ['-'] + s[1..];
      WordsAppend(['-'], s[1..]);
      assert |s| >= 2 ==> s[1] != '-' || !NoDoubleHyphen(s);
      s[1..]
    else s
  }

  /** The `-$` half: one hyphen off the end. */
  function DropBack(s: string): (r: string)
    ensures |r| <= |s| && r == s[..|r|]
    ensures Words(r) == Words(s)
    ensures (s == [] || s[|s| - 1] != '-') ==> r == s
    ensures NoDoubleHyphen(s) ==> r == [] || r[|r| - 1] != '-'
    ensures (s == [] || s[0] != '-') ==> r == [] || r[0] != '-'
  {
    if s != [] && s[|s| - 1] == '-' then
      var r := s[..|s| - 1];
      assert s == r + ['-'];
      WordsAppend(r, ['-']);
      assert |s| >= 2 ==> s[|s| - 2] != '-' || !NoDoubleHyphen(s);
      r
    else s
  }

  /** `.replace(/^-|-$/g, "")`: one hyphen off the front and one off the end. */
  function StripEdges(s: string): (r: string)
    ensures Words(r) == Words(s)
    ensures AllAllowed(s) ==> AllAllowed(r)
    ensures NoDoubleHyphen(s) ==> NoDoubleHyphen(r) && NoEdgeHyphen(r)
    ensures NoEdgeHyphen(s) ==> r == s
  {
    var front := DropFront(s);
    SliceKeeps(s, |s| - |front|, |s|);
    var r := DropBack(front);
    SliceKeeps(front, 0, |r|);
    r
  }

  /** An independent reading of what `sanitize` produces, in one left to
      right scan: letters, digits and underscores are kept; any stretch of
      other characters (hyphens included) between two kept characters
      becomes one hyphen; stretches before the first or after the last kept
      character vanish. `gap` records such a stretch since the last kept
      character, `begun` that some character has been kept. */
  function Joined(s: string, gap: bool, begun: bool): string
    decreases |s|
  {
    if s == [] then []
    else if IsWord(s[0]) then (if gap && begun then "-" else "") + [s[0]] + Joined(s[1..], false, true)
    else Joined(s[1..], true, begun)
  }

  /** The word runs of `s`, joined by single hyphens. */
  function WordRuns(s: string): string {
    Joined(s, false, false)
  }

  lemma {:induction false} DropRejectedJoined(s: string, begun: bool)
    ensures Joined(DropRejected(s), true, begun) == Joined(s, true, begun)
    decreases |s|
  {
    if s != [] && !Allowed(s[0]) {
      DropRejectedJoined(s[1..], begun);
    }
  }

  /** Replacing rejected runs by hyphens does not change the word runs. */
  lemma {:induction false} ReplaceRejectedJoined(s: string, gap: bool, begun: bool)
    ensures Joined(ReplaceRejected(s), gap, begun) == Joined(s, gap, begun)
    decreases |s|
  {
    if s != [] {
      if IsWord(s[0]) {
        var rest := ReplaceRejected(s[1..]);
        assert ([s[0]] + rest)[0] == s[0] && ([s[0]] + rest)[1..] == rest;
        ReplaceRejectedJoined(s[1..], false, true);
      } else if s[0] == '-' {
        var rest := ReplaceRejected(s[1..]);
        assert ([s[0]] + rest)[0] == s[0] && ([s[0]] + rest)[1..] == rest;
        ReplaceRejectedJoined(s[1..], true, begun);
      } else {
        var rest := DropRejected(s[1..]);
        var tail := ReplaceRejected(rest);
        assert (['-'] + tail)[1..] == tail;
        ReplaceRejectedJoined(rest, true, begun);
        DropRejectedJoined(s[1..], begun);
      }
    }
  }

  /** Collapsing hyphen runs does not change the word runs. */
  lemma {:induction false} CollapseJoined(s: string, gap: bool, begun: bool)
    ensures Joined(Collapse(s), gap, begun) == Joined(s, gap, begun)
    decreases |s|
  {
    if s != [] {
      if |s| >= 2 && s[0] == '-' && s[1] == '-' {
        CollapseJoined(s[1..], gap, begun);
      } else {
        var rest := Collapse(s[1..]);
        assert ([s[0]] + rest)[0] == s[0] && ([s[0]] + rest)[1..] == rest;
        if IsWord(s[0]) {
          CollapseJoined(s[1..], false, true);
        } else {
          CollapseJoined(s[1..], true, begun);
        }
      }
    }
  }

  /** A trailing hyphen opens a gap that nothing closes. */
  lemma {:induction false} TrailingHyphenJoined(s: string, gap: bool, begun: bool)
    ensures Joined(s + "-", gap, begun) == Joined(s, gap, begun)
    decreases |s|
  {
    if s == [] {
      assert s + "-" == "-";
    } else {
      assert (s + "-")[0] == s[0] && (s + "-")[1..] == s[1..] + "-";
      if IsWord(s[0]) {
        TrailingHyphenJoined(s[1..], false, true);
      } else {
        TrailingHyphenJoined(s[1..], true, begun);
      }
    }
  }

  /** Dropping the edge hyphens does not change the word runs. */
  lemma StripEdgesJoined(s: string)
    ensures Joined(StripEdges(s), false, false) == Joined(s, false, false)
  {
    DropFrontJoined(s);
    DropBackJoined(DropFront(s));
  }

  /** Before anything is kept, a leading hyphen changes nothing. */
  lemma DropFrontJoined(s: string)
    ensures Joined(DropFront(s), false, false) == Joined(s, false, false)
  {
    if s != [] && s[0] == '-' {
      assert Joined(s, false, false) == Joined(s[1..], true, false);
      if s[1..] != [] {
        assert Joined(s[1..], true, false) == Joined(s[1..], false, false);
      }
    }
  }

  /** A trailing hyphen changes nothing. */
  lemma DropBackJoined(f: string)
    ensures Joined(DropBack(f), false, false) == Joined(f, false, false)
  {
    if f != [] && f[|f| - 1] == '-' {
      var r := DropBack(f);
      LastSplit(f);
      assert f == r + "-";
      TrailingHyphenJoined(r, false, false);
    }
  }

  /** A non-empty string is its front followed by its last character. */
  lemma LastSplit(s: string)
    requires s != []
    ensures s == s[..|s| - 1] + [s[|s| - 1]]
  {
  }

  /** After a kept character, a string of accepted characters with no
      doubled hyphen and no trailing hyphen reads back as itself. */
  lemma {:induction false} CleanTailJoined(s: string)
    requires AllAllowed(s) && NoDoubleHyphen(s) && (s == [] || s[|s| - 1] != '-')
    ensures Joined(s, false, true) == s
    decreases |s|
  {
    if s != [] {
      SliceKeeps(s, 1, |s|);
      if IsWord(s[0]) {
        CleanTailJoined(s[1..]);
        assert s == [s[0]] + s[1..];
      } else {
        assert |s| >= 2 && s[1] != '-' && IsWord(s[1]);
        SliceKeeps(s, 2, |s|);
        CleanTailJoined(s[2..]);
        assert s[1..][1..] == s[2..];
        assert s == "-" + [s[1]] + s[2..];
      }
    }
  }

  /** A clean name is its own word-run reading. */
  lemma CleanJoined(s: string)
    requires Clean(s)
    ensures WordRuns(s) == s
  {
    if s != [] {
      SliceKeeps(s, 1, |s|);
      CleanTailJoined(s[1..]);
      assert s == [s[0]] + s[1..];
    }
  }

  /** The helper: rejected runs to hyphens, hyphen runs collapsed, edge
      hyphens dropped. The result is the input's runs of letters, digits
      and underscores joined by single hyphens. */
  function Sanitize(s: string): (r: string)
    ensures Clean(r)
    ensures Words(r) == Words(s)
    ensures r == WordRuns(s)
  {
    var a := ReplaceRejected(s);
    var b := Collapse(a);
    ReplaceRejectedJoined(s, false, false);
    CollapseJoined(a, false, false);
    StripEdgesJoined(b);
    CleanJoined(StripEdges(b));
    StripEdges(b)
  }

  /** A run of kept characters is copied, behind a hyphen if a gap was open. */
  lemma {:induction false} WordRunJoined(w: string, t: string, gap: bool, begun: bool)
    requires w != [] && forall i :: 0 <= i < |w| ==> IsWord(w[i])
    ensures Joined(w + t, gap, begun) == (if gap && begun then "-" else "") + w + Joined(t, false, true)
    decreases |w|
  {
    assert (w + t)[0] == w[0] && (w + t)[1..] == w[1..] + t;
    if |w| == 1 {
      assert w[1..] + t == t;
    } else {
      WordRunJoined(w[1..], t, false, true);
      assert w == [w[0]] + w[1..];
    }
  }

  /** A stretch with no kept character only opens a gap. */
  lemma {:induction false} GapJoined(x: string, t: string, gap: bool, begun: bool)
    requires x != [] && forall i :: 0 <= i < |x| ==> !IsWord(x[i])
    ensures Joined(x + t, gap, begun) == Joined(t, true, begun)
    decreases |x|
  {
    assert (x + t)[0] == x[0] && (x + t)[1..] == x[1..] + t;
    if |x| == 1 {
      assert x[1..] + t == t;
    } else {
      GapJoined(x[1..], t, true, begun);
    }
  }

  /** Two words with any stretch of spaces, punctuation or hyphens between
      them come out joined by exactly one hyphen. */
  lemma SeparatorBecomesOneHyphen(a: string, sep: string, b: string)
    requires a != [] && b != [] && sep != []
    requires forall i :: 0 <= i < |a| ==> IsWord(a[i])
    requires forall i :: 0 <= i < |b| ==> IsWord(b[i])
    requires forall i :: 0 <= i < |sep| ==> !IsWord(sep[i])
    ensures Sanitize(a + sep + b) == a + "-" + b
  {
    var x := a + sep + b;
    var j := Joined(b, true, true);
    assert j == "-" + b by {
      WordRunJoined(b, [], true, true);
      AppendEmpty(b);
    }
    assert Joined(x, false, false) == a + j by {
      AppendAssoc(a, sep, b);
      WordRunJoined(a, sep + b, false, false);
      GapJoined(sep, b, false, true);
      AppendEmpty(a);
    }
    assert Sanitize(x) == Joined(x, false, false);
    AppendAssoc(a, "-", b);
  }

  lemma AppendAssoc(a: string, b: string, c: string)
    ensures a + b + c == a + (b + c)
  {
  }

  lemma AppendEmpty(a: string)
    ensures a + [] == a && [] + a == a
    ensures "" + a == a
  {
  }

  /** For example, "John Doe" is saved as "John-Doe". */
  lemma SpaceBecomesHyphen(first: string, last: string)
    requires first == "John" && last == "Doe"
    ensures Sanitize(first + " " + last) == first + "-" + last
  {
    WordLiterals();
    SeparatorBecomesOneHyphen(first, " ", last);
  }

  /** The character facts the example needs. */
  lemma WordLiterals()
    ensures forall i :: 0 <= i < |"John"| ==> IsWord("John"[i])
    ensures forall i :: 0 <= i < |"Doe"| ==> IsWord("Doe"[i])
    ensures !IsWord(' ')
  {
    forall i | 0 <= i < |"John"|
      ensures IsWord("John"[i])
    {
      assert i == 0 || i == 1 || i == 2 || i == 3;
    }
    forall i | 0 <= i < |"Doe"|
      ensures IsWord("Doe"[i])
    {
      assert i == 0 || i == 1 || i == 2;
    }
  }

  /** A clean name is left unchanged, so sanitizing twice is sanitizing once. */
  lemma SanitizeFixesClean(s: string)
    requires Clean(s)
    ensures Sanitize(s) == s
  {
  }

  lemma SanitizeIdempotent(s: string)
    ensures Sanitize(Sanitize(s)) == Sanitize(s)
  {
    SanitizeFixesClean(Sanitize(s));
  }

  const PosterSuffix := "Absensi QR Code"

  /** The poster's file name without extension: the sanitized participant
      name before the suffix when there is a name, the suffix alone
      otherwise. */
  function PosterBase(name: string): (base: string)
    ensures name == "" ==> base == PosterSuffix
    ensures name != "" ==> base == Sanitize(name) + " " + PosterSuffix
  {
    if name != "" then Sanitize(name) + " " + PosterSuffix else PosterSuffix
  }

  /** The download name: the base with `.png`. */
  function PosterFileName(name: string): (f: string)
    ensures |f| >= 4 && f[|f| - 4..] == ".png"
  {
    PosterBase(name) + ".png"
  }

  /** The sanitized part of a download name can be read back: it is what
      precedes the suffix, and it carries the participant name's letters,
      digits and underscores in order. */
  lemma PosterNameCarriesName(name: string)
    requires name != ""
    ensures var f := PosterFileName(name);
      var s := Sanitize(name);
      |s| <= |f| && f[..|s|] == s && Words(f[..|s|]) == Words(name)
  {
    var s, b, f := Sanitize(name), PosterBase(name), PosterFileName(name);
    assert |s| <= |b| && b[..|s|] == s by {
      PrefixKept(s, " " + PosterSuffix);
    }
    assert |b| <= |f| && f[..|b|] == b by {
      PrefixKept(b, ".png");
    }
    PrefixOfPrefix(s, b, f);
  }

  lemma PrefixOfPrefix(s: string, b: string, f: string)
    requires |s| <= |b| <= |f| && b[..|s|] == s && f[..|b|] == b
    ensures f[..|s|] == s
  {
    assert forall i :: 0 <= i < |s| ==> f[i] == b[i];
  }

  lemma PrefixKept(s: string, tail: string)
    ensures (s + tail)[..|s|] == s
  {
  }
}

=== FILE: generate_page.dfy ===
/**
 * The "Generate QR" page: the count it sends, how it reads the created
 * rows back, the names of the files it exports, and the progress bar it
 * drives while composing posters and packing them into a ZIP or a PDF.
 * Poster images are opaque byte strings; canvas drawing is not modelled.
 */
module GeneratePage {
  import opened Wrappers
  import opened JsNum
  import opened JsText
  import opened Http
  import QrStore
  import QrCodesRoute
  import RequireAdmin
  import Zip

  const MaxCount := 5000

  /** The count sent to the server: nothing for a value that is not finite
      or not positive, else the floor cut to 5000, which is 0 for a value
      below 1. */
  function SentCount(count: Num): (sent: Option<int>)
    ensures sent.None? <==> !count.Finite? || count.v <= 0.0
    ensures sent.Some? ==> 0 <= sent.value <= MaxCount && sent.value == Min(MaxCount, count.v.Floor)
    ensures sent.Some? ==> (sent.value == 0 <==> count.v < 1.0)
  {
    if !count.Finite? || count.v <= 0.0 then None
    else Some(Min(MaxCount, count.v.Floor))
  }

  /** The request body `{ count: sent }`. */
  function Body(sent: int): QrCodesRoute.CountBody {
    QrCodesRoute.CountBody(Present(Finite(sent as real)), NumField.Nullish, NumField.Nullish)
  }

  /** What the server makes of the count the page sends: the same number of
      rows for a count of at least 1, and a 400 for a count below 1 that the
      page let through. */
  lemma SentCountAccepted(count: Num)
    requires SentCount(count).Some?
    ensures var sent := SentCount(count).value;
      QrCodesRoute.IssueCount(Body(sent)) == if sent >= 1 then Some(sent) else None
  {
    var sent := SentCount(count).value;
    assert (sent as real).Floor == sent;
  }

  /** A JSON value as the page reads one field of a created row. */
  datatype Field = Nullish | Text(s: string) | Flag(b: bool)

  /** `String(v ?? "")`. */
  function FieldString(f: Field): string {
    match f
    case Nullish => ""
    case Text(s) => s
    case Flag(b) => if b then "true" else "false"
  }

  /** `Boolean(v)`. */
  function FieldTruthy(f: Field): bool {
    match f
    case Nullish => false
    case Text(s) => s != ""
    case Flag(b) => b
  }

  /** A created row as the response carries it, and as the page keeps it. */
  datatype RawRow = RawRow(id: Field, token: Field, hadir: Field, souvenir: Field)
  datatype CreatedQr = CreatedQr(id: string, token: string, hadir: bool, souvenir: bool)

  /** The page's normalisation of one row. */
  function Normalise(r: RawRow): (c: CreatedQr)
    ensures r.id.Nullish? ==> c.id == ""
    ensures r.token.Nullish? ==> c.token == ""
    ensures r.hadir.Flag? ==> c.hadir == r.hadir.b
    ensures r.souvenir.Flag? ==> c.souvenir == r.souvenir.b
  {
    CreatedQr(FieldString(r.id), FieldString(r.token), FieldTruthy(r.hadir), FieldTruthy(r.souvenir))
  }

  /** A table row as the server serialises it. */
  function Encode(row: QrStore.QrRow): RawRow {
    RawRow(Text(row.id), Text(row.token), Flag(row.hadir), Flag(row.souvenir))
  }

  /** Reading back a row the server wrote loses nothing the page shows. */
  lemma NormaliseEncode(row: QrStore.QrRow)
    ensures Normalise(Encode(row)) == CreatedQr(row.id, row.token, row.hadir, row.souvenir)
  {
  }

  /** How a generate request ended for the user. */
  datatype Outcome = Invalid | Created(rows: seq<CreatedQr>) | Failed(message: string)

  /** `onGenerate` after the response: a failed status shows the server's
      `error` when it is a string, else a fixed message; a success keeps
      the normalised rows of `data` when it is an array, else none. */
  function ReadResponse(ok: bool, error: Field, data: Option<seq<RawRow>>): (o: Outcome)
    ensures !ok ==> o == Failed(if error.Text? then error.s else "Gagal membuat QR")
    ensures ok ==> o.Created? && |o.rows| == (if data.Some? then |data.value| else 0)
    ensures ok && data.Some? ==> forall i :: 0 <= i < |data.value| ==> o.rows[i] == Normalise(data.value[i])
  {
    if !ok then Failed(if error.Text? then error.s else "Gagal membuat QR")
    else
      var arr := if data.Some? then data.value else [];
      Created(seq(|arr|, i requires 0 <= i < |arr| => Normalise(arr[i])))
  }

  /** A generate request end to end against the issuing route: the rows the
      page lists are the rows the route inserted, and a count below 1 that
      passes the page's check comes back as the route's error. */
  lemma GenerateEndToEnd(count: Num, rows: seq<QrStore.QrRow>, supply: seq<QrCodesRoute.Minted>, now: int, session: RequireAdmin.Session)
    requires |supply| >= QrCodesRoute.MaxIssue
    requires SentCount(count).Some?
    ensures var sent := SentCount(count).value;
      var issue := QrCodesRoute.Post(RequireAdmin.Granted(session), Body(sent), rows, supply, now);
      var reply := issue.reply;
      var data := if reply.body.Data? then Some(seq(|reply.body.data|, i requires 0 <= i < |reply.body.data| => Encode(reply.body.data[i]))) else None;
      var error := if reply.body.Error? then Text(reply.body.error) else Field.Nullish;
      var o := ReadResponse(200 <= reply.status < 300, error, data);
      && (sent >= 1 ==>
            && o.Created? && |o.rows| == sent
            && forall i :: 0 <= i < sent ==> o.rows[i] == CreatedQr(supply[i].id, supply[i].token, false, false))
      && (sent < 1 ==> o == Failed("count harus > 0"))
  {
    SentCountAccepted(count);
  }

  /** `QR_0001.png`, ...: the archive entry for the poster at 1-based position `i`. */
  function EntryName(i: nat): string {
    "QR_" + PadStart(Decimal(i), 4, '0') + ".png"
  }

  /** `QR_{n}_PNG.zip`: the archive's download name for n posters. */
  function ArchiveName(n: nat): (r: string)
    ensures |r| == |Decimal(n)| + 11
    ensures r[..3] == "QR_" && r[|r| - 8..] == "_PNG.zip"
    ensures r[3..|r| - 8] == Decimal(n)
  {
    "QR_" + Decimal(n) + "_PNG.zip"
  }

  /** `QR_{n}_Posters.pdf`: the PDF's download name for n posters. */
  function PdfName(n: nat): (r: string)
    ensures |r| == |Decimal(n)| + 15
    ensures r[..3] == "QR_" && r[|r| - 12..] == "_Posters.pdf"
    ensures r[3..|r| - 12] == Decimal(n)
  {
    "QR_" + Decimal(n) + "_Posters.pdf"
  }

  /** The poster count can be read back from either download name: exports
      of different sizes never get the same file name. */
  lemma ExportNamesCarryCount(m: nat, n: nat)
    ensures ArchiveName(m) == ArchiveName(n) <==> m == n
    ensures PdfName(m) == PdfName(n) <==> m == n
  {
    if ArchiveName(m) == ArchiveName(n) {
      DecimalInjective(m, n);
    }
    if PdfName(m) == PdfName(n) {
      DecimalInjective(m, n);
    }
  }

  /** The position can be read back from an entry name, so no two posters
      share a name however many there are. */
  lemma EntryNameInjective(i: nat, j: nat)
    requires EntryName(i) == EntryName(j)
    ensures i == j
  {
    var a, b := PadStart(Decimal(i), 4, '0'), PadStart(Decimal(j), 4, '0');
    assert |a| == |b|;
    assert EntryName(i)[3..3 + |a|] == a;
    assert EntryName(j)[3..3 + |b|] == b;
    ZeroPaddedRoundTrip(i, 4);
    ZeroPaddedRoundTrip(j, 4);
  }

  /** `QR_0007.png` is the seventh entry's name. */
  lemma SeventhEntryName()
    ensures EntryName(7) == "QR_0007.png"
  {
    assert Decimal(7) == "7";
    assert PadStart("7", 4, '0') == "0007";
  }

  lemma NamesDiffer(i: nat, j: nat)
    requires i != j
    ensures EntryName(i) != EntryName(j)
  {
    if EntryName(i) == EntryName(j) {
      EntryNameInjective(i, j);
    }
  }

  /** The files handed to the ZIP builder: the i-th poster named `EntryName(i + 1)`. */
  function ExportFiles(posters: seq<seq<bv8>>): (files: seq<Zip.FileIn>)
    ensures |files| == |posters|
    ensures forall i :: 0 <= i < |posters| ==> files[i] == Zip.FileIn(EntryName(i + 1), posters[i])
  {
    seq(|posters|, i requires 0 <= i < |posters| => Zip.FileIn(EntryName(i + 1), posters[i]))
  }

  /** The exported archive holds one entry per poster, in order, with
      pairwise distinct names. */
  lemma ExportEntriesDistinct(posters: seq<seq<bv8>>)
    ensures var archive := Zip.ZipFiles(ExportFiles(posters));
      && |archive| == |posters|
      && (forall i :: 0 <= i < |posters| ==> archive[i].data == posters[i])
      && (forall i, j :: 0 <= i < j < |archive| ==> archive[i].name != archive[j].name)
  {
    var archive := Zip.ZipFiles(ExportFiles(posters));
    forall i, j | 0 <= i < j < |archive|
      ensures archive[i].name != archive[j].name
    {
      ArchiveNamesDiffer(posters, i, j);
    }
  }

  lemma ArchiveNamesDiffer(posters: seq<seq<bv8>>, i: nat, j: nat)
    requires i < j < |posters|
    ensures Zip.ZipFiles(ExportFiles(posters))[i].name != Zip.ZipFiles(ExportFiles(posters))[j].name
  {
    var files := ExportFiles(posters);
    assert files[i].name == EntryName(i + 1) && files[j].name == EntryName(j + 1);
    NamesDiffer(i + 1, j + 1);
  }


  /** Progress while composing: `Math.round(i / total * 70)`. */
  function ComposeProgress(i: int, total: int): (p: int)
    requires total >= 1 && 0 <= i <= total
    ensures 0 <= p <= 70
  {
    RoundScaledBounds(i, total, 70);
    RoundDiv(i * 70, total)
  }

  /** Progress while packing: `70 + Math.round(done / total * 30)`. */
  function PackProgress(done: int, total: int): (p: int)
    requires total >= 1 && 0 <= done <= total
    ensures 70 <= p <= 100
  {
    RoundScaledBounds(done, total, 30);
    70 + RoundDiv(done * 30, total)
  }

  /** A share that rises with the work done. */
  lemma ScaledMonotone(i: int, j: int, total: int, scale: int)
    requires total >= 1 && 0 <= i <= j && scale >= 0
    ensures RoundDiv(i * scale, total) <= RoundDiv(j * scale, total)
  {
    MulMonotone(i, j, scale);
    RoundDivMonotone(i * scale, j * scale, total);
  }

  /** All of the work gives the whole share. */
  lemma ScaledFull(total: int, scale: int)
    requires total >= 1 && scale >= 0
    ensures RoundDiv(total * scale, total) == scale
  {
    var q := RoundDiv(total * scale, total);
    assert total * scale == scale * total;
    assert (scale + 1) * total == scale * total + total;
    assert (q + 1) * total == q * total + total;
    if q > scale {
      MulMonotone(scale + 1, q, total);
    }
    if q < scale {
      MulMonotone(q + 1, scale, total);
    }
  }

  /** The bar's `k`-th value during a ZIP export of `total` posters: 0,
      one value per composed poster, one per callback of the ZIP builder,
      and 100 at the end. */
  function TraceValue(total: nat, k: nat): int
    requires total >= 1 && k < 2 * total + 4
  {
    if k == 0 then 0
    else if k <= total then ComposeProgress(k, total)
    else if k < 2 * total + 3 then PackProgress(Zip.CallbackTrace(total)[k - total - 1].done, total)
    else 100
  }

  /** The values the bar takes during a ZIP export, in order. */
  function ZipExportTrace(total: nat): (t: seq<int>)
    requires total >= 1
    ensures |t| == 2 * total + 4
  {
    seq(2 * total + 4, (k: nat) requires k < 2 * total + 4 => TraceValue(total, k))
  }

  /** Each value of the export trace is at least the one before. */
  lemma ZipExportStepsUp(total: nat, k: nat)
    requires total >= 1 && k + 1 < 2 * total + 4
    ensures 0 <= ZipExportTrace(total)[k] <= ZipExportTrace(total)[k + 1] <= 100
  {
    assert ZipExportTrace(total)[k] == TraceValue(total, k);
    assert ZipExportTrace(total)[k + 1] == TraceValue(total, k + 1);
    TraceStepsUp(total, k);
  }

  /** `ZipExportStepsUp` on the values themselves, phase by phase. */
  lemma TraceStepsUp(total: nat, k: nat)
    requires total >= 1 && k + 1 < 2 * total + 4
    ensures 0 <= TraceValue(total, k) <= TraceValue(total, k + 1) <= 100
  {
    if 1 <= k < total {
      ComposeStepsUp(total, k);
    } else if k == total {
      ComposeMeetsPack(total);
    } else if total < k < 2 * total + 2 {
      PackStepsUp(total, k);
    }
  }

  /** While composing, each finished poster moves the bar forward. */
  lemma ComposeStepsUp(total: nat, k: nat)
    requires 1 <= k < total
    ensures TraceValue(total, k) <= TraceValue(total, k + 1)
  {
    ScaledMonotone(k, k + 1, total, 70);
  }

  /** The last composed poster leaves the bar at 70, where packing starts. */
  lemma ComposeMeetsPack(total: nat)
    requires total >= 1
    ensures TraceValue(total, total) <= TraceValue(total, total + 1)
  {
    ScaledFull(total, 70);
  }

  /** While packing, each callback moves the bar forward or leaves it. */
  lemma PackStepsUp(total: nat, k: nat)
    requires 1 <= total < k < 2 * total + 2
    ensures TraceValue(total, k) <= TraceValue(total, k + 1)
  {
    var calls := Zip.CallbackTrace(total);
    var c := k - total - 1;
    var d, e := calls[c].done, calls[c + 1].done;
    assert 0 <= d <= e <= total by {
      Zip.TraceStepsByOne(total, c);
      if c < total {
        Zip.TraceStepsByOne(total, c + 1);
      }
    }
    assert TraceValue(total, k) == PackProgress(d, total);
    assert TraceValue(total, k + 1) == PackProgress(e, total);
    ScaledMonotone(d, e, total, 30);
  }

  /** The bar never moves backwards during a ZIP export. */
  lemma ZipExportMonotone(total: nat, a: nat, b: nat)
    requires total >= 1 && a <= b < 2 * total + 4
    ensures 0 <= ZipExportTrace(total)[a] <= ZipExportTrace(total)[b] <= 100
  {
    var t := ZipExportTrace(total);
    forall k | a <= k < b
      ensures t[k] <= t[k + 1]
    {
      ZipExportStepsUp(total, k);
    }
    StepsChain(t, a, b);
    if a + 1 < |t| {
      ZipExportStepsUp(total, a);
    } else {
      ZipExportStepsUp(total, a - 1);
    }
    if b >= 1 {
      ZipExportStepsUp(total, b - 1);
    } else {
      ZipExportStepsUp(total, b);
    }
  }

  /** Values that never step down never go down. */
  lemma {:induction false} StepsChain(t: seq<int>, a: nat, b: nat)
    requires a <= b < |t|
    requires forall k :: a <= k < b ==> t[k] <= t[k + 1]
    ensures t[a] <= t[b]
    decreases b - a
  {
    if a < b {
      StepsChain(t, a + 1, b);
    }
  }

  /** The PDF export after composing: a document that starts with one page
      gets a new page for every poster but the first, each poster placed on
      its own page, and the bar set after each one. */
  method BuildPdf(posters: seq<string>) returns (pages: nat, placed: seq<(nat, string)>, progress: seq<int>)
    requires |posters| >= 1
    ensures pages == |posters|
    ensures |placed| == |posters| && forall i :: 0 <= i < |posters| ==> placed[i] == (i + 1, posters[i])
    ensures |progress| == |posters| && progress[|posters| - 1] == 100
    ensures forall i :: 0 <= i < |progress| ==> 70 <= progress[i] <= 100
    ensures forall i, j :: 0 <= i <= j < |progress| ==> progress[i] <= progress[j]
  {
    var n := |posters|;
    pages := 1;
    placed := [];
    progress := [];
    var idx := 0;
    while idx < n
      invariant 0 <= idx <= n
      invariant pages == if idx == 0 then 1 else idx
      invariant |placed| == idx && forall i :: 0 <= i < idx ==> placed[i] == (i + 1, posters[i])
      invariant |progress| == idx
      invariant forall i :: 0 <= i < idx ==> progress[i] == PackProgress(i + 1, n)
    {
      if idx > 0 {
        pages := pages + 1;
      }
      placed := placed + [(pages, posters[idx])];
      progress := progress + [PackProgress(idx + 1, n)];
      idx := idx + 1;
    }
    ScaledFull(n, 30);
    forall i, j | 0 <= i <= j < |progress|
      ensures progress[i] <= progress[j]
    {
      ScaledMonotone(i + 1, j + 1, n, 30);
    }
  }
}

=== FILE: hadir_route.dfy ===
/**
 * POST /api/qrcodes/hadir: the check-in transition.  The guard runs first;
 * then the token is taken from the body, looked up, and a row not yet
 * present is marked present.  The select-then-update of the handler is
 * modelled as one sequential step.
 */
module HadirRoute {
  import opened Wrappers
  import opened Http
  import opened QrStore
  import RequireAdmin

  /** The JSON body: `{ token?, qrToken? }`. */
  datatype TokenBody = TokenBody(token: StrField, qrToken: StrField)

  /** The table after a request, and the response. */
  datatype CheckIn = CheckIn(reply: Reply<QrRow>, rows: seq<QrRow>)

  /** `token` when it is a string, otherwise `qrToken` when that is one. */
  function BodyToken(b: TokenBody): Option<string> {
    if b.token.Str? then Some(b.token.s)
    else if b.qrToken.Str? then Some(b.qrToken.s)
    else None
  }

  /** The token a request names, with a missing one read as the empty string
      (both fail the `!token` test). */
  function Requested(b: TokenBody): string {
    BodyToken(b).GetOr("")
  }

  /** `UPDATE qrcode SET hadir = true, updatedAt = now WHERE token = t`. */
  function MarkHadir(rows: seq<QrRow>, token: string, now: int): seq<QrRow> {
    seq(|rows|, i requires 0 <= i < |rows| =>
      if rows[i].token == token then rows[i].(hadir := true, updatedAt := now) else rows[i])
  }

  /** Only `hadir` and `updatedAt` can differ between the two tables, and
      `hadir` never goes from true to false. */
  ghost predicate FlagOnlyRaised(before: seq<QrRow>, after: seq<QrRow>) {
    && |after| == |before|
    && forall i :: 0 <= i < |before| ==>
         && after[i].id == before[i].id
         && after[i].token == before[i].token
         && after[i].souvenir == before[i].souvenir
         && after[i].createdAt == before[i].createdAt
         && (before[i].hadir ==> after[i].hadir)
  }

  /** The handler body after the guard has let the request through. */
  function CheckInStep(rows: seq<QrRow>, body: TokenBody, now: int): (c: CheckIn)
    ensures c.reply.status in {200, 400, 404, 409}
    ensures FlagOnlyRaised(rows, c.rows)
    ensures c.reply.status != 200 ==> c.rows == rows
    ensures c.reply.status == 400 <==> Requested(body) == ""
    ensures c.reply.status == 404 <==>
      Requested(body) != "" && forall i :: 0 <= i < |rows| ==> rows[i].token != Requested(body)
    ensures c.reply.status == 409 ==>
      exists i :: 0 <= i < |rows| && rows[i].token == Requested(body) && rows[i].hadir
              && c.reply.body == ErrorWith("Already checked in", rows[i])
    ensures c.reply.status == 200 ==>
      exists i :: 0 <= i < |rows| && rows[i].token == Requested(body) && !rows[i].hadir
              && c.reply.body == Data(c.rows[i])
    ensures c.reply.status == 200 ==> forall i :: 0 <= i < |rows| ==>
      c.rows[i] == if rows[i].token == Requested(body) then rows[i].(hadir := true, updatedAt := now) else rows[i]
  {
    var token := Requested(body);
    if token == "" then CheckIn(Reply(400, Error("token is required")), rows)
    else
      match Lookup(rows, token)
      case None => CheckIn(Reply(404, Error("QR not found")), rows)
      case Some(k) =>
        if rows[k].hadir then CheckIn(Reply(409, ErrorWith("Already checked in", rows[k])), rows)
        else
          var updated := MarkHadir(rows, token, now);
          CheckIn(Reply(200, Data(updated[k])), updated)
  }

  /** POST: the guard's denial is returned as it is, before the body is read. */
  function Post(guard: RequireAdmin.Guard, body: TokenBody, rows: seq<QrRow>, now: int): (c: CheckIn)
    ensures guard.Denied? ==> c.reply == RequireAdmin.DeniedReply(guard) && c.rows == rows
    ensures guard.Granted? ==> c.reply.status in {200, 400, 404, 409}
    ensures guard.Granted? ==> c == CheckInStep(rows, body, now)
    ensures FlagOnlyRaised(rows, c.rows)
  {
    if guard.Denied? then CheckIn(RequireAdmin.DeniedReply(guard), rows)
    else CheckInStep(rows, body, now)
  }

  /** A refused request is answered before its body is read: whatever it
      asks and whenever it arrives, the answer and the table are the same. */
  lemma DeniedPostIgnoresBody(guard: RequireAdmin.Guard, rows: seq<QrRow>, b1: TokenBody, now1: int, b2: TokenBody, now2: int)
    requires guard.Denied?
    ensures Post(guard, b1, rows, now1) == Post(guard, b2, rows, now2)
    ensures Post(guard, b1, rows, now1).reply.status == guard.status
  {
  }

  /** Under the uniqueness constraint, 409 exactly when the token's row is
      already present, and 200 exactly when it exists and is not. */
  lemma CheckInOutcomes(rows: seq<QrRow>, body: TokenBody, now: int)
    requires TokensUnique(rows)
    ensures var c := CheckInStep(rows, body, now);
      && (c.reply.status == 409 <==> Requested(body) != "" && exists i :: 0 <= i < |rows| && rows[i].token == Requested(body) && rows[i].hadir)
      && (c.reply.status == 200 <==> Requested(body) != "" && exists i :: 0 <= i < |rows| && rows[i].token == Requested(body) && !rows[i].hadir)
  {
    var c := CheckInStep(rows, body, now);
    var t := Requested(body);
    if i :| 0 <= i < |rows| && rows[i].token == t && t != "" {
      LookupUnique(rows, t, i);
    }
  }

  /** The token's row is present after a successful check-in, so checking the
      same token in again is a conflict that changes nothing. */
  lemma SecondCheckInConflicts(rows: seq<QrRow>, body: TokenBody, now: int, later: int)
    requires CheckInStep(rows, body, now).reply.status == 200
    ensures var first := CheckInStep(rows, body, now);
            var second := CheckInStep(first.rows, body, later);
            second.reply.status == 409 && second.rows == first.rows
  {
    var first := CheckInStep(rows, body, now);
    var t := Requested(body);
    var k :| 0 <= k < |rows| && rows[k].token == t && !rows[k].hadir;
    assert first.rows[k].token == t && first.rows[k].hadir;
    var j := Lookup(first.rows, t).value;
    assert first.rows[j].hadir;
  }

  /** A sequence of check-in requests, each with its clock reading. */
  datatype Request = Request(body: TokenBody, now: int)

  function Replay(rows: seq<QrRow>, requests: seq<Request>): seq<QrRow>
    decreases |requests|
  {
    if requests == [] then rows
    else Replay(CheckInStep(rows, requests[0].body, requests[0].now).rows, requests[1..])
  }

  /** Across any sequence of check-ins no row loses its presence, no token,
      id, souvenir flag or creation time changes, and tokens stay unique. */
  lemma {:induction false} ReplayOnlyRaises(rows: seq<QrRow>, requests: seq<Request>)
    ensures FlagOnlyRaised(rows, Replay(rows, requests))
    ensures TokensUnique(rows) ==> TokensUnique(Replay(rows, requests))
    decreases |requests|
  {
    if requests != [] {
      var next := CheckInStep(rows, requests[0].body, requests[0].now).rows;
      ReplayOnlyRaises(next, requests[1..]);
    }
  }
}

=== FILE: http.dfy ===
/** JSON request fields and JSON responses as the route handlers see them. */
module Http {
  import JsNum

  /** A response body: `{ data }`, `{ error }`, or `{ error, data }`. */
  datatype Body<T> = Data(data: T) | Error(error: string) | ErrorWith(error: string, data: T)

  /** `NextResponse.json(body, { status })`. */
  datatype Reply<T> = Reply(status: int, body: Body<T>)

  /** A body field examined with `typeof field === "string"`: anything that is
      not a string (missing, `null`, a number, an object) is `NotString`. */
  datatype StrField = NotString | Str(s: string)

  /** A body field read with `??`: `Nullish` is `null` or missing; a present
      value carries what `Number(value)` makes of it. */
  datatype NumField = Nullish | Present(asNumber: JsNum.Num)

  /** Whether a status is in the `ok` range of `fetch`'s `Response`. */
  predicate Ok(status: int) { 200 <= status <= 299 }
}

=== FILE: js_num.dfy ===
/**
 * The slice of JavaScript number semantics the application relies on:
 * `Number(...)` results, `Number.isFinite`, `Math.floor`, `Math.ceil`,
 * `Math.round`, `Math.min` and `Math.max`.  Integer division and rounding
 * are stated on exact integers.
 */
module JsNum {

  /** A JavaScript number as produced by `Number(text)`. */
  datatype Num = Finite(v: real) | NaN | Infinity(negative: bool)

  /** A URL search parameter read as `Number(searchParams.get(name) || fallback)`:
      `Absent` stands for a missing parameter and for the empty string, both of
      which `||` replaces by the fallback text; `Given` carries `Number(text)`. */
  datatype Param = Absent | Given(n: Num)

  function Max(a: int, b: int): int { if a >= b then a else b }

  function Min(a: int, b: int): int { if a <= b then a else b }

  /** `Math.ceil(n / d)` for a positive divisor. */
  function CeilDiv(n: int, d: int): (q: int)
    requires d > 0
    ensures (q - 1) * d < n <= q * d
  {
    var k := (-n) / d;
    assert -n == d * k + (-n) % d;
    -k
  }

  /** `Math.round(n / d)` for a positive divisor: the nearest integer, halves rounded up. */
  function RoundDiv(n: int, d: int): (q: int)
    requires d > 0
    ensures 2 * (q * d) - d <= 2 * n < 2 * (q * d) + d
  {
    var m := 2 * n + d;
    var k := m / (2 * d);
    assert m == (2 * d) * k + m % (2 * d);
    k
  }

  /** Multiplying by a non-negative factor preserves order. */
  lemma MulMonotone(x: int, y: int, d: int)
    requires x <= y && d >= 0
    ensures x * d <= y * d
  {
    assert y * d - x * d == (y - x) * d;
  }

  /** Dividing an exact multiple gives back the factor with no remainder. */
  lemma MulDivExact(k: int, d: int)
    requires d > 0
    ensures (k * d) / d == k && (k * d) % d == 0
  {
    var q, r := (k * d) / d, (k * d) % d;
    assert d * q + r == k * d;
    assert (q + 1) * d == q * d + d && (k + 1) * d == k * d + d;
    if q < k {
      MulMonotone(q + 1, k, d);
    }
    if q > k {
      MulMonotone(k + 1, q, d);
    }
  }

  /** Rounding a quotient with a fixed positive divisor never decreases when the dividend grows. */
  lemma RoundDivMonotone(a: int, b: int, d: int)
    requires d > 0 && a <= b
    ensures RoundDiv(a, d) <= RoundDiv(b, d)
  {
    var qa, qb := RoundDiv(a, d), RoundDiv(b, d);
    assert (qb + 1) * d == qb * d + d;
    if qa > qb {
      MulMonotone(qb + 1, qa, d);
    }
  }

  /** `Math.round(i / n * scale)` lies in [0, scale] for 0 <= i <= n. */
  lemma RoundScaledBounds(i: int, n: int, scale: int)
    requires n > 0 && 0 <= i <= n && scale >= 0
    ensures 0 <= RoundDiv(i * scale, n) <= scale
  {
    var q := RoundDiv(i * scale, n);
    MulMonotone(i, n, scale);
    assert n * scale == scale * n;
    assert (scale + 1) * n == scale * n + n;
    if q > scale {
      MulMonotone(scale + 1, q, n);
    }
    if q < 0 {
      MulMonotone(q, -1, n);
      assert 0 <= i * scale by { MulMonotone(0, i, scale); }
    }
  }
}

=== FILE: js_text.dfy ===
/**
 * The JavaScript string operations the application relies on, on `seq<char>`:
 * `trim`, `split`, `startsWith`, ASCII case mapping, `String(n)` for
 * naturals and `padStart`.
 */
module JsText {

  /** JavaScript's `WhiteSpace` and `LineTerminator` characters, which `trim` removes. */
  predicate IsSpace(c: char) {
    || c == ' ' || c == '\t' || c == '\n' || c == '\r'
    || c == '\U{000B}' || c == '\U{000C}' || c == '\U{00A0}' || c == '\U{FEFF}'
    || c == '\U{1680}' || ('\U{2000}' <= c <= '\U{200A}')
    || c == '\U{2028}' || c == '\U{2029}' || c == '\U{202F}'
    || c == '\U{205F}' || c == '\U{3000}'
  }

  /** `s.trimStart()`: the suffix left after dropping leading white space. */
  function TrimStart(s: string): (r: string)
    ensures |r| <= |s| && r == s[|s| - |r|..]
    ensures forall k :: 0 <= k < |s| - |r| ==> IsSpace(s[k])
    ensures r == [] || !IsSpace(r[0])
  {
    if s != [] && IsSpace(s[0]) then TrimStart(s[1..]) else s
  }

  /** `s.trimEnd()`: the prefix left after dropping trailing white space. */
  function TrimEnd(s: string): (r: string)
    ensures |r| <= |s| && r == s[..|r|]
    ensures forall k :: |r| <= k < |s| ==> IsSpace(s[k])
    ensures r == [] || !IsSpace(r[|r| - 1])
  {
    if s != [] && IsSpace(s[|s| - 1]) then TrimEnd(s[..|s| - 1]) else s
  }

  /** The number of leading white-space characters. */
  function Lead(s: string): (n: nat)
    ensures n <= |s|
  {
    |s| - |TrimStart(s)|
  }

  /** `s.trim()`: the slice of `s` between its leading and trailing white space. */
  function Trim(s: string): (r: string)
    ensures r == [] || (!IsSpace(r[0]) && !IsSpace(r[|r| - 1]))
    ensures Lead(s) + |r| <= |s| && r == s[Lead(s)..Lead(s) + |r|]
    ensures forall k :: 0 <= k < Lead(s) ==> IsSpace(s[k])
    ensures forall k :: Lead(s) + |r| <= k < |s| ==> IsSpace(s[k])
  {
    var t := TrimStart(s);
    var r := TrimEnd(t);
    assert r == s[Lead(s)..][..|r|];
    r
  }

  /** A string with no white space at either end is its own trim. */
  lemma TrimmedAlready(s: string)
    requires s == [] || (!IsSpace(s[0]) && !IsSpace(s[|s| - 1]))
    ensures Trim(s) == s
  {
    assert TrimStart(s) == s;
  }

  /** Trimming removes characters and never adds any. */
  lemma TrimAddsNothing(s: string, c: char)
    requires c !in s
    ensures c !in Trim(s)
  {
    var r := Trim(s);
    var a := Lead(s);
    forall k | 0 <= k < |r|
      ensures r[k] != c
    {
      assert r[k] == s[a + k];
    }
  }

  /** Trimming is idempotent. */
  lemma TrimIdempotent(s: string)
    ensures Trim(Trim(s)) == Trim(s)
  {
    var r := Trim(s);
    assert TrimStart(r) == r;
  }

  /** `s.split(sep)` for a one-character separator. */
  function Split(s: string, sep: char): (r: seq<string>)
    ensures |r| >= 1
    ensures forall i :: 0 <= i < |r| ==> sep !in r[i]
  {
    if s == [] then [[]]
    else
      var rest := Split(s[1..], sep);
      if s[0] == sep then [[]] + rest
      else [[s[0]] + rest[0]] + rest[1..]
  }

  /** `parts.join(sep)`. */
  function Join(parts: seq<string>, sep: char): string
  {
    if parts == [] then []
    else if |parts| == 1 then parts[0]
    else parts[0] + [sep] + Join(parts[1..], sep)
  }

  /** Joining the pieces of a split restores the original string. */
  lemma {:induction false} JoinSplit(s: string, sep: char)
    ensures Join(Split(s, sep), sep) == s
  {
    if s != [] {
      var rest := Split(s[1..], sep);
      JoinSplit(s[1..], sep);
      if s[0] == sep {
        assert ([[]] + rest)[1..] == rest;
      } else {
        var parts := [[s[0]] + rest[0]] + rest[1..];
        assert parts[1..] == rest[1..];
        if |rest| > 1 {
          assert Join(rest, sep) == rest[0] + [sep] + Join(rest[1..], sep);
          assert Join(parts, sep) == [s[0]] + rest[0] + [sep] + Join(rest[1..], sep);
        }
        assert s == [s[0]] + s[1..];
      }
    }
  }

  /** Splitting a separator-free string yields that string alone. */
  lemma {:induction false} SplitNoSeparator(a: string, sep: char)
    requires sep !in a
    ensures Split(a, sep) == [a]
  {
    if a != [] {
      SplitNoSeparator(a[1..], sep);
      assert [a[0]] + a[1..] == a;
    }
  }

  /** A separator after a separator-free prefix ends the first piece. */
  lemma {:induction false} SplitAtSeparator(a: string, b: string, sep: char)
    requires sep !in a
    ensures Split(a + [sep] + b, sep) == [a] + Split(b, sep)
  {
    var s := a + [sep] + b;
    if a == [] {
      assert s[0] == sep && s[1..] == b;
    } else {
      assert s[1..] == a[1..] + [sep] + b;
      SplitAtSeparator(a[1..], b, sep);
      assert [a[0]] + a[1..] == a;
    }
  }

  /** Splitting the join of separator-free pieces gives the pieces back. */
  lemma {:induction false} SplitJoin(parts: seq<string>, sep: char)
    requires |parts| >= 1
    requires forall i :: 0 <= i < |parts| ==> sep !in parts[i]
    ensures Split(Join(parts, sep), sep) == parts
  {
    if |parts| == 1 {
      SplitNoSeparator(parts[0], sep);
    } else {
      SplitJoin(parts[1..], sep);
      SplitAtSeparator(parts[0], Join(parts[1..], sep), sep);
      assert [parts[0]] + parts[1..] == parts;
    }
  }

  /** `s.startsWith(prefix)`. */
  predicate StartsWith(s: string, prefix: string) {
    |prefix| <= |s| && s[..|prefix|] == prefix
  }

  function LowerChar(c: char): char {
    if 'A' <= c <= 'Z' then (c as int + 32) as char else c
  }

  function UpperChar(c: char): char {
    if 'a' <= c <= 'z' then (c as int - 32) as char else c
  }

  /** `s.toLowerCase()` on the ASCII letters. */
  function Lower(s: string): (r: string)
    ensures |r| == |s|
    ensures forall i :: 0 <= i < |s| ==> r[i] == LowerChar(s[i])
  {
    if s == [] then [] else [LowerChar(s[0])] + Lower(s[1..])
  }

  /** `s.toUpperCase()` on the ASCII letters. */
  function Upper(s: string): (r: string)
    ensures |r| == |s|
    ensures forall i :: 0 <= i < |s| ==> r[i] == UpperChar(s[i])
  {
    if s == [] then [] else [UpperChar(s[0])] + Upper(s[1..])
  }

  predicate IsDigit(c: char) { '0' <= c <= '9' }

  predicate AllDigits(s: string) {
    forall i :: 0 <= i < |s| ==> IsDigit(s[i])
  }

  function DigitChar(d: nat): (c: char)
    requires d < 10
    ensures IsDigit(c) && c as int - '0' as int == d
  {
    ('0' as int + d) as char
  }

  /** `String(n)` for a natural number: its decimal digits without leading zeros. */
  function Decimal(n: nat): (r: string)
    ensures |r| >= 1 && AllDigits(r)
    ensures r[0] == '0' ==> n == 0
  {
    if n < 10 then [DigitChar(n)] else Decimal(n / 10) + [DigitChar(n % 10)]
  }

  /** The number a string of decimal digits denotes. */
  function DecimalValue(s: string): nat
    requires AllDigits(s)
  {
    if s == [] then 0
    else DecimalValue(s[..|s| - 1]) * 10 + (s[|s| - 1] as int - '0' as int)
  }

  /** Reading back the digits `String(n)` writes gives `n`. */
  lemma {:induction false} DecimalRoundTrip(n: nat)
    ensures DecimalValue(Decimal(n)) == n
  {
    if n >= 10 {
      DecimalRoundTrip(n / 10);
      var r := Decimal(n);
      assert r[..|r| - 1] == Decimal(n / 10);
    }
  }

  /** `String(n)` is injective. */
  lemma DecimalInjective(m: nat, n: nat)
    requires Decimal(m) == Decimal(n)
    ensures m == n
  {
    DecimalRoundTrip(m);
    DecimalRoundTrip(n);
  }

  function Repeat(c: char, k: nat): (r: string)
    ensures |r| == k && forall i :: 0 <= i < k ==> r[i] == c
  {
    if k == 0 then [] else [c] + Repeat(c, k - 1)
  }

  /** `s.padStart(width, fill)`: `fill` repeated on the left up to `width` characters. */
  function PadStart(s: string, width: nat, fill: char): (r: string)
    ensures |r| == if |s| >= width then |s| else width
    ensures r[|r| - |s|..] == s
    ensures forall i :: 0 <= i < |r| - |s| ==> r[i] == fill
  {
    if |s| >= width then s else Repeat(fill, width - |s|) + s
  }

  /** A string of zeros denotes zero. */
  lemma {:induction false} ZerosValue(z: string)
    requires forall i :: 0 <= i < |z| ==> z[i] == '0'
    ensures AllDigits(z) && DecimalValue(z) == 0
  {
    if z != [] {
      ZerosValue(z[..|z| - 1]);
    }
  }

  /** Leading zeros do not change the value of a digit string. */
  lemma {:induction false} LeadingZerosValue(z: string, s: string)
    requires forall i :: 0 <= i < |z| ==> z[i] == '0'
    requires AllDigits(s)
    ensures AllDigits(z + s) && DecimalValue(z + s) == DecimalValue(s)
  {
    if s == [] {
      assert z + s == z;
      ZerosValue(z);
    } else {
      LeadingZerosValue(z, s[..|s| - 1]);
      assert (z + s)[..|z + s| - 1] == z + s[..|s| - 1];
    }
  }

  /** Zero-padding `String(n)` keeps the number it denotes. */
  lemma ZeroPaddedRoundTrip(n: nat, width: nat)
    ensures AllDigits(PadStart(Decimal(n), width, '0'))
    ensures DecimalValue(PadStart(Decimal(n), width, '0')) == n
  {
    var d := Decimal(n);
    DecimalRoundTrip(n);
    if |d| < width {
      LeadingZerosValue(Repeat('0', width - |d|), d);
    }
  }
}

=== FILE: listing.dfy ===
/**
 * The paged listing shared by GET /api/qrcodes and GET /api/users:
 * `ORDER BY key DESC LIMIT limit OFFSET (page - 1) * limit`, returned with
 * the page, the limit, the row count and the page count.
 */
module Listing {
  import opened JsNum
  import Ordering
  import Paging

  /** The listing response: `{ data, page, limit, total, pageCount }`. */
  datatype ListPage<T> = ListPage(data: seq<T>, page: int, limit: int, total: int, pageCount: int)

  /** The rows on `page`: the table in descending key order from the page's
      offset, at most `limit` of them. */
  function PageRows<T>(rows: seq<T>, key: T -> int, page: int, limit: int): (r: seq<T>)
    requires page >= 1 && limit >= 1
    ensures Ordering.SortedDesc(r, key)
    ensures multiset(r) <= multiset(rows)
    ensures |r| == if Paging.Offset(page, limit) >= |rows| then 0
                   else Min(limit, |rows| - Paging.Offset(page, limit))
    ensures forall i :: 0 <= i < |r| ==> r[i] == Ordering.SortDesc(rows, key)[Paging.Offset(page, limit) + i]
  {
    var ordered := Ordering.SortDesc(rows, key);
    Ordering.WindowsDescend(ordered, Paging.Offset(page, limit), limit, key);
    Ordering.Window(ordered, Paging.Offset(page, limit), limit)
  }

  /** The response for one page of a table of `rows`. */
  function List<T>(rows: seq<T>, key: T -> int, page: int, limit: int): (l: ListPage<T>)
    requires page >= 1 && limit >= 1
    ensures l.page == page && l.limit == limit && l.total == |rows|
    ensures l.data == PageRows(rows, key, page, limit)
    ensures l.pageCount == Paging.PageCount(|rows|, limit)
    ensures l.pageCount >= 1 && l.pageCount * limit >= |rows|
    ensures l.pageCount == 1 || (l.pageCount - 1) * limit < |rows|
  {
    var count := Paging.PageCount(|rows|, limit);
    ListPage(PageRows(rows, key, page, limit), page, limit, |rows|, count)
  }

  /** Rows on one page rank at or above every row on the next page. */
  lemma NextPageRanksLower<T>(rows: seq<T>, key: T -> int, page: int, limit: int)
    requires page >= 1 && limit >= 1
    ensures forall x, y :: x in PageRows(rows, key, page, limit) && y in PageRows(rows, key, page + 1, limit) ==>
      key(x) >= key(y)
  {
    var offset := Paging.Offset(page, limit);
    assert page * limit == (page - 1) * limit + limit;
    assert Paging.Offset(page + 1, limit) == offset + limit;
    Ordering.WindowsDescend(Ordering.SortDesc(rows, key), offset, limit, key);
  }

  /** The row ranked `i` is listed on every page whose offset range holds
      `i`; with `Paging.RowOnPage`, walking the pages 1..pageCount shows
      every row. */
  lemma RowListedOnItsPage<T>(rows: seq<T>, key: T -> int, page: int, limit: int, i: nat)
    requires page >= 1 && limit >= 1 && i < |rows|
    requires Paging.Offset(page, limit) <= i < Paging.Offset(page, limit) + limit
    ensures Ordering.SortDesc(rows, key)[i] in PageRows(rows, key, page, limit)
  {
    var ordered := Ordering.SortDesc(rows, key);
    Ordering.InWindow(ordered, Paging.Offset(page, limit), limit, i);
  }
}

=== FILE: me_route.dfy ===
/**
 * GET /api/me: the profile of the user the session cookie belongs to,
 * read straight from the session and user tables.
 */
module MeRoute {
  import opened Wrappers
  import opened Http
  import opened UserStore

  /** The profile returned: `image` is null when the stored image is empty. */
  datatype Profile = Profile(id: string, name: string, email: string, image: Option<string>)

  /** A cookie value JavaScript treats as true: present and non-empty. */
  predicate Truthy(cookie: Option<string>) { cookie.Some? && cookie.value != "" }

  /** `u.image || null`. */
  function ImageOf(image: Option<string>): (r: Option<string>)
    ensures r.Some? <==> image.Some? && image.value != ""
    ensures r.Some? ==> r == image
  {
    if image.Some? && image.value != "" then image else None
  }

  /** 401 without a cookie, 401 for a token no session holds, 404 for a
      session whose user is gone, else the user's profile. */
  function Get(cookie: Option<string>, sessions: seq<SessionRow>, users: seq<UserRow>): (r: Reply<Profile>)
    ensures r.status in {200, 401, 404}
    ensures r == Reply(401, Error("Unauthorized")) <==> !Truthy(cookie)
    ensures r == Reply(401, Error("Invalid Session")) <==>
      Truthy(cookie) && forall i :: 0 <= i < |sessions| ==> sessions[i].token != cookie.value
    ensures r.status == 404 ==> r.body == Error("User Not Found")
    ensures r.status == 200 ==>
      && Truthy(cookie) && r.body.Data?
      && (exists s, u :: s in sessions && u in users && s.token == cookie.value && u.id == s.userId
           && r.body.data == Profile(u.id, u.name, u.email, ImageOf(u.image)))
  {
    if !Truthy(cookie) then Reply(401, Error("Unauthorized"))
    else
      match FindSession(sessions, cookie.value)
      case None => Reply(401, Error("Invalid Session"))
      case Some(s) =>
        match FindUser(users, s.userId)
        case None => Reply(404, Error("User Not Found"))
        case Some(u) => Reply(200, Data(Profile(u.id, u.name, u.email, ImageOf(u.image))))
  }

  /** With unique user ids, a valid session whose user exists yields exactly
      that user's profile. */
  lemma ReturnsSessionOwner(cookie: string, sessions: seq<SessionRow>, users: seq<UserRow>, k: nat)
    requires cookie != "" && IdsUnique(users) && k < |users|
    requires FindSession(sessions, cookie).Some? && FindSession(sessions, cookie).value.userId == users[k].id
    ensures Get(Some(cookie), sessions, users) ==
      Reply(200, Data(Profile(users[k].id, users[k].name, users[k].email, ImageOf(users[k].image))))
  {
    FindUserUnique(users, k);
  }

  /** A session whose user row is missing is the only way to a 404. */
  lemma NotFoundIff(cookie: Option<string>, sessions: seq<SessionRow>, users: seq<UserRow>)
    ensures Get(cookie, sessions, users).status == 404 <==>
      Truthy(cookie) && FindSession(sessions, cookie.value).Some?
      && FindUser(users, FindSession(sessions, cookie.value).value.userId).None?
  {
  }
}

=== FILE: middleware.dfy ===
/**
 * The edge middleware: an optimistic cookie check in front of the dashboard
 * and the admin APIs, and the matcher that decides which paths it sees.
 */
module Middleware {
  import opened Wrappers
  import opened JsText

  /** What the middleware does with a request. */
  datatype Action = Next | Unauthorized | Redirect(to: string)

  const ApiPrefixes: seq<string> := ["/api/participants", "/api/qrcodes", "/api/users", "/api/me"]

  /** A path under one of the guarded API prefixes, by plain string prefix. */
  predicate IsGuardedApi(path: string) {
    exists i :: 0 <= i < |ApiPrefixes| && StartsWith(path, ApiPrefixes[i])
  }

  /** With a non-empty session cookie every request passes; otherwise API
      paths get a JSON 401, dashboard paths go to /login and the rest to /. */
  function Handle(cookie: Option<string>, path: string): (a: Action)
    ensures a == Next <==> cookie.Some? && cookie.value != ""
    ensures a == Unauthorized <==> (cookie.None? || cookie.value == "") && IsGuardedApi(path)
    ensures a == Redirect("/login") <==>
      (cookie.None? || cookie.value == "") && !IsGuardedApi(path) && StartsWith(path, "/dashboard")
    ensures a == Redirect("/") <==>
      (cookie.None? || cookie.value == "") && !IsGuardedApi(path) && !StartsWith(path, "/dashboard")
  {
    if cookie.Some? && cookie.value != "" then Next
    else if StartsWith(path, "/api/participants") || StartsWith(path, "/api/qrcodes")
         || StartsWith(path, "/api/users") || StartsWith(path, "/api/me") then
      assert StartsWith(path, ApiPrefixes[0]) || StartsWith(path, ApiPrefixes[1])
          || StartsWith(path, ApiPrefixes[2]) || StartsWith(path, ApiPrefixes[3]);
      Unauthorized
    else if StartsWith(path, "/dashboard") then Redirect("/login")
    else Redirect("/")
  }

  /** `base/:path*`: the base itself or anything below it. */
  predicate UnderSegment(path: string, base: string) {
    path == base || StartsWith(path, base + "/")
  }

  /** The matcher: the dashboard, the participant, token and user APIs with
      any sub-path, and /api/me exactly. */
  predicate Matches(path: string) {
    || UnderSegment(path, "/dashboard")
    || UnderSegment(path, "/api/participants")
    || UnderSegment(path, "/api/qrcodes")
    || UnderSegment(path, "/api/users")
    || path == "/api/me"
  }

  lemma UnderSegmentStartsWith(path: string, base: string)
    requires UnderSegment(path, base)
    ensures StartsWith(path, base)
  {
    if path != base {
      assert (base + "/")[..|base|] == base;
      assert path[..|base|] == (base + "/")[..|base|];
    }
  }

  /** Every path the middleware runs on is an API path or a dashboard path:
      the fallback redirect to / never fires, and API paths never get a
      redirect. */
  lemma MatchedNeverFallsThrough(cookie: Option<string>, path: string)
    requires Matches(path)
    ensures Handle(cookie, path) != Redirect("/")
    ensures StartsWith(path, "/api/") ==> Handle(cookie, path) in {Next, Unauthorized}
  {
    if UnderSegment(path, "/dashboard") {
      UnderSegmentStartsWith(path, "/dashboard");
      assert path[1] == "/dashboard"[1] == 'd';
    }
    else if UnderSegment(path, "/api/participants") {
      UnderSegmentStartsWith(path, "/api/participants");
      assert StartsWith(path, ApiPrefixes[0]);
    } else if UnderSegment(path, "/api/qrcodes") {
      UnderSegmentStartsWith(path, "/api/qrcodes");
      assert StartsWith(path, ApiPrefixes[1]);
    } else if UnderSegment(path, "/api/users") {
      UnderSegmentStartsWith(path, "/api/users");
      assert StartsWith(path, ApiPrefixes[2]);
    } else {
      assert StartsWith(path, ApiPrefixes[3]);
    }
  }

  /** The prefix test is looser than the matcher: a path that merely starts
      with "/api/me" would be answered with 401, but the matcher never sends
      it to the middleware. */
  lemma PrefixLooserThanMatcher()
    ensures Handle(None, "/api/mex") == Unauthorized
    ensures !Matches("/api/mex")
  {
    assert StartsWith("/api/mex", ApiPrefixes[3]);
    var p := "/api/mex";
    assert p[1] == 'a' && p[5] == 'm';
  }
}

=== FILE: nav_user.dfy ===
/**
 * The sidebar's user badge: avatar source, display name, avatar initial
 * and alt text, derived from the session's user with fallbacks.
 */
module NavUser {
  import opened Wrappers
  import opened JsText

  /** The session user as the auth client returns it; `None` stands for
      null and undefined alike. */
  datatype UserInfo = UserInfo(name: Option<string>, email: Option<string>, image: Option<string>)

  /** What the badge shows. */
  datatype Badge = Badge(avatarSrc: string, displayName: string, initial: string, alt: string, emailLine: Option<string>)

  const AvatarService := "https://avatar.vercel.sh/"

  const Anonymous := "Pengguna"

  predicate HasText(s: Option<string>) { s.Some? && s.value != "" }

  /** The avatar: the user's image whenever one is set, even an empty one;
      otherwise the generated avatar for a non-empty email; otherwise none. */
  function AvatarSrc(user: Option<UserInfo>): (src: string)
    ensures user.Some? && user.value.image.Some? ==> src == user.value.image.value
    ensures (user.None? || user.value.image.None?) && user.Some? && HasText(user.value.email)
      ==> src == AvatarService + user.value.email.value
    ensures src == "" <==> user.None? || (user.value.image == Some("")) || (user.value.image.None? && !HasText(user.value.email))
  {
    if user.Some? && user.value.image.Some? then user.value.image.value
    else if user.Some? && HasText(user.value.email) then AvatarService + user.value.email.value
    else ""
  }

  /** The name shown: a non-empty name, else the email's part before the
      first `@`, else "Pengguna". */
  function DisplayName(user: Option<UserInfo>): (n: string)
    ensures user.Some? && HasText(user.value.name) ==> n == user.value.name.value
    ensures user.Some? && !HasText(user.value.name) && user.value.email.Some?
      ==> n == Split(user.value.email.value, '@')[0] && '@' !in n
    ensures (user.None? || (!HasText(user.value.name) && user.value.email.None?)) ==> n == Anonymous
  {
    if user.Some? && HasText(user.value.name) then user.value.name.value
    else if user.Some? && user.value.email.Some? then Split(user.value.email.value, '@')[0]
    else Anonymous
  }

  /** An email's local part is what the badge falls back to. */
  lemma DisplaysLocalPart(local: string, domain: string)
    requires '@' !in local
    ensures DisplayName(Some(UserInfo(None, Some(local + "@" + domain), None))) == local
  {
    SplitAtSeparator(local, domain, '@');
    assert local + "@" + domain == local + ['@'] + domain;
  }

  /** Only a missing email falls through to "Pengguna": a present but empty
      email leaves the badge with an empty name. */
  lemma EmptyEmailShowsBlank(name: Option<string>)
    requires !HasText(name)
    ensures DisplayName(Some(UserInfo(name, Some(""), None))) == ""
  {
    SplitNoSeparator("", '@');
  }

  /** The avatar fallback: the first character, upper-cased, of a non-empty
      name, else of a non-empty email, else "P". */
  function Initial(user: Option<UserInfo>): (i: string)
    ensures |i| == 1
    ensures user.Some? && HasText(user.value.name) ==> i == [UpperChar(user.value.name.value[0])]
    ensures user.Some? && !HasText(user.value.name) && HasText(user.value.email)
      ==> i == [UpperChar(user.value.email.value[0])]
    ensures (user.None? || (!HasText(user.value.name) && !HasText(user.value.email))) ==> i == "P"
  {
    var first :=
      if user.Some? && HasText(user.value.name) then [user.value.name.value[0]]
      else if user.Some? && HasText(user.value.email) then [user.value.email.value[0]]
      else "P";
    Upper(first)
  }

  /** The initial is the display name's first letter whenever the display
      name comes from the name or from an email whose local part is not empty. */
  lemma InitialStartsDisplayName(user: Option<UserInfo>)
    requires user.Some?
    requires HasText(user.value.name) || (user.value.email.Some? && user.value.email.value != "" && user.value.email.value[0] != '@')
    ensures var n := DisplayName(user); n != [] && Initial(user) == [UpperChar(n[0])]
  {
    if !HasText(user.value.name) {
      var e := user.value.email.value;
      var parts := Split(e, '@');
      assert parts == [[e[0]] + Split(e[1..], '@')[0]] + Split(e[1..], '@')[1..];
    }
  }

  /** The alt text: the name whenever it is set, even empty; else the display name. */
  function Alt(user: Option<UserInfo>): (a: string)
    ensures user.Some? && user.value.name.Some? ==> a == user.value.name.value
    ensures (user.None? || user.value.name.None?) ==> a == DisplayName(user)
  {
    if user.Some? && user.value.name.Some? then user.value.name.value else DisplayName(user)
  }

  /** The badge, or nothing while the session is still loading. */
  function Render(pending: bool, user: Option<UserInfo>): (b: Option<Badge>)
    ensures b.None? <==> pending
    ensures b.Some? ==> (b.value.emailLine.Some? <==> user.Some? && HasText(user.value.email))
    ensures b.Some? && b.value.emailLine.Some? ==> b.value.emailLine == user.value.email
  {
    if pending then None
    else
      var line := if user.Some? && HasText(user.value.email) then user.value.email else None;
      Some(Badge(AvatarSrc(user), DisplayName(user), Initial(user), Alt(user), line))
  }

  /** A signed-out badge is the anonymous one. */
  lemma SignedOutBadge()
    ensures Render(false, None) == Some(Badge("", Anonymous, "P", Anonymous, None))
  {
  }
}

=== FILE: ordering.dfy ===
/**
 * The query shapes the routes use on their tables: `WHERE flag`,
 * `ORDER BY key DESC`, `LIMIT` and `OFFSET`.  A database may order rows
 * with equal keys either way; the sort below fixes one order, and every
 * contract about it speaks only of descending keys and of permutation.
 */
module Ordering {

  /** Keys never increase along `s`. */
  ghost predicate SortedDesc<T>(s: seq<T>, key: T -> int) {
    forall i, j :: 0 <= i < j < |s| ==> key(s[i]) >= key(s[j])
  }

  /** A head no smaller than the first key of a descending tail keeps it descending. */
  lemma ConsSorted<T>(h: T, t: seq<T>, key: T -> int)
    requires SortedDesc(t, key)
    requires t == [] || key(h) >= key(t[0])
    ensures SortedDesc([h] + t, key)
  {
    var r := [h] + t;
    forall i, j | 0 <= i < j < |r|
      ensures key(r[i]) >= key(r[j])
    {
      if i == 0 {
        assert r[j] == t[j - 1];
        assert key(t[0]) >= key(t[j - 1]);
      } else {
        assert r[i] == t[i - 1] && r[j] == t[j - 1];
      }
    }
  }

  /** Inserts `x` before the first element whose key is not larger. */
  function Insert<T>(x: T, s: seq<T>, key: T -> int): (r: seq<T>)
    requires SortedDesc(s, key)
    ensures SortedDesc(r, key)
    ensures |r| == |s| + 1
    ensures r[0] == x || (s != [] && r[0] == s[0])
  {
    if s == [] then [x]
    else if key(x) >= key(s[0]) then
      ConsSorted(x, s, key);
      [x] + s
    else
      var tail := s[1..];
      assert s == [s[0]] + tail;
      assert SortedDesc(tail, key);
      assert tail == [] || key(s[0]) >= key(tail[0]);
      var t := Insert(x, tail, key);
      ConsSorted(s[0], t, key);
      [s[0]] + t
  }

  /** Insertion adds exactly `x`: nothing is lost or duplicated. */
  lemma {:induction false} InsertAddsOne<T>(x: T, s: seq<T>, key: T -> int)
    requires SortedDesc(s, key)
    ensures multiset(Insert(x, s, key)) == multiset(s) + multiset{x}
  {
    if s != [] && key(x) < key(s[0]) {
      var tail := s[1..];
      assert s == [s[0]] + tail;
      InsertAddsOne(x, tail, key);
      assert Insert(x, s, key) == [s[0]] + Insert(x, tail, key);
    }
  }

  /** `ORDER BY key DESC`: a descending permutation of `s`. */
  function SortDesc<T>(s: seq<T>, key: T -> int): (r: seq<T>)
    ensures SortedDesc(r, key)
    ensures multiset(r) == multiset(s)
    ensures |r| == |s|
  {
    if s == [] then []
    else
      assert s == [s[0]] + s[1..];
      InsertAddsOne(s[0], SortDesc(s[1..], key), key);
      Insert(s[0], SortDesc(s[1..], key), key)
  }

  /** `WHERE p(row)`: the rows satisfying `p`, in their original order. */
  function Filter<T(!new)>(s: seq<T>, p: T -> bool): (r: seq<T>)
    ensures |r| <= |s|
    ensures forall x :: multiset(r)[x] == if p(x) then multiset(s)[x] else 0
    ensures forall i :: 0 <= i < |r| ==> p(r[i])
    ensures multiset(r) <= multiset(s)
  {
    if s == [] then []
    else
      assert s == [s[0]] + s[1..];
      if p(s[0]) then [s[0]] + Filter(s[1..], p) else Filter(s[1..], p)
  }

  /** `LIMIT limit OFFSET offset` on an ordered result. */
  function Window<T>(s: seq<T>, offset: nat, limit: nat): (r: seq<T>)
    ensures |r| == if offset >= |s| then 0 else if |s| - offset < limit then |s| - offset else limit
    ensures forall i :: 0 <= i < |r| ==> r[i] == s[offset + i]
    ensures multiset(r) <= multiset(s)
  {
    if offset >= |s| then []
    else
      var end := if |s| - offset < limit then |s| else offset + limit;
      assert s == s[..offset] + s[offset..end] + s[end..];
      s[offset..end]
  }

  /** The element at position `i` lies in every window whose range holds `i`. */
  lemma InWindow<T>(s: seq<T>, offset: nat, limit: nat, i: nat)
    requires offset <= i < offset + limit && i < |s|
    ensures s[i] in Window(s, offset, limit)
  {
    assert Window(s, offset, limit)[i - offset] == s[i];
  }

  /** A window of a descending sequence is descending, and every row of one
      window ranks at or above every row of the next window. */
  lemma WindowsDescend<T>(s: seq<T>, offset: nat, limit: nat, key: T -> int)
    requires SortedDesc(s, key)
    ensures SortedDesc(Window(s, offset, limit), key)
    ensures forall x, y :: x in Window(s, offset, limit) && y in Window(s, offset + limit, limit) ==> key(x) >= key(y)
  {
    var a, b := Window(s, offset, limit), Window(s, offset + limit, limit);
    forall x, y | x in a && y in b
      ensures key(x) >= key(y)
    {
      var i :| 0 <= i < |a| && a[i] == x;
      var j :| 0 <= j < |b| && b[j] == y;
      assert s[offset + i] == x && s[offset + limit + j] == y;
    }
  }

  /** `ORDER BY key DESC LIMIT k` keeps the top rows: a row left out ranks
      no higher than any row kept. */
  lemma TakeKeepsTop<T>(s: seq<T>, k: nat, key: T -> int)
    requires SortedDesc(s, key)
    ensures forall x, y :: x in s && x !in Window(s, 0, k) && y in Window(s, 0, k) ==> key(y) >= key(x)
  {
    var w := Window(s, 0, k);
    forall x, y | x in s && x !in w && y in w
      ensures key(y) >= key(x)
    {
      assert w == s[..|w|];
      assert s == w + s[|w|..];
      var rest := s[|w|..];
      assert x in rest;
      var m :| 0 <= m < |rest| && rest[m] == x;
      var j :| 0 <= j < |w| && w[j] == y;
      assert s[j] == y && s[|w| + m] == x;
    }
  }
}

=== FILE: paging.dfy ===
/**
 * The server-side paging arithmetic shared by GET /api/qrcodes and
 * GET /api/users: the page parameter, the offset and the page count.
 */
module Paging {
  import opened JsNum

  /** `page`: `Number(get("page") || "1")`, floored and raised to 1 when
      finite, and 1 when not finite. */
  function PageOf(p: Param): (page: int)
    ensures page >= 1
    ensures p.Absent? || !p.n.Finite? ==> page == 1
    ensures p.Given? && p.n.Finite? && p.n.v >= 1.0 ==> page == p.n.v.Floor
    ensures p.Given? && p.n.Finite? && p.n.v < 1.0 ==> page == 1
  {
    var raw := if p.Absent? then Finite(1.0) else p.n;
    if raw.Finite? then Max(1, raw.v.Floor) else 1
  }

  /** `(page - 1) * limit`: the number of rows on the pages before `page`. */
  function Offset(page: int, limit: int): (offset: int)
    requires page >= 1 && limit >= 1
    ensures offset >= 0 && offset % limit == 0
    ensures offset / limit == page - 1
  {
    MulDivExact(page - 1, limit);
    (page - 1) * limit
  }

  /** `Math.max(1, Math.ceil(total / limit))`: the fewest pages of `limit`
      rows that hold `total` rows, and at least one. */
  function PageCount(total: nat, limit: int): (n: int)
    requires limit >= 1
    ensures n >= 1
    ensures n * limit >= total
    ensures n == 1 || (n - 1) * limit < total
  {
    Max(1, CeilDiv(total, limit))
  }

  /** Every row position lies on a page within the page count: page
      `index / limit + 1`. */
  lemma RowOnPage(index: nat, total: nat, limit: int)
    requires limit >= 1 && index < total
    ensures var page := index / limit + 1;
            1 <= page <= PageCount(total, limit)
            && Offset(page, limit) <= index < Offset(page, limit) + limit
  {
    var page := index / limit + 1;
    var n := PageCount(total, limit);
    var below := (index / limit) * limit;
    assert index == below + index % limit;
    assert Offset(page, limit) == below;
    assert (page - 1) * limit == below;
    if page > n {
      MulMonotone(n, page - 1, limit);
    }
  }

  /** No row position lies on two pages. */
  lemma PagesDisjoint(index: int, p: int, q: int, limit: int)
    requires limit >= 1 && 1 <= p && 1 <= q
    requires Offset(p, limit) <= index < Offset(p, limit) + limit
    requires Offset(q, limit) <= index < Offset(q, limit) + limit
    ensures p == q
  {
    assert (q - 1) * limit + limit == q * limit;
    assert (p - 1) * limit + limit == p * limit;
    if q < p {
      MulMonotone(q, p - 1, limit);
    } else if q > p {
      MulMonotone(p, q - 1, limit);
    }
  }
}

=== FILE: participants_table.dfy ===
/**
 * The participants table: its page and size read from the address bar,
 * and its previous/next buttons (the server reports only whether more rows
 * follow).  The poster download name is `FileNames.PosterFileName`.
 */
module ParticipantsTable {
  import opened JsNum
  import opened ClientPaging
  import Paging

  /** The table's initial page and size. */
  datatype Start = Start(page: int, pageSize: int)

  /** The initial state: size from `limit` (10 unless one of the offered
      sizes), page from `page` as the table reads it.  A page other than 0
      is the one `Paging.PageOf`, the rule of the qrcodes and users routes,
      gives.  The URL-sync effect reads the address bar again by the same
      rule whenever it changes; the mount-time reset to page 1 follows. */
  function Initial(pageParam: Param, limitParam: Param): (s: Start)
    ensures s.pageSize in PageSizes
    ensures limitParam.Absent? ==> s.pageSize == 10
    ensures s.page >= 0
    ensures s.page == 0 <==> pageParam.Given? && pageParam.n.Finite? && 0.0 < pageParam.n.v < 1.0
    ensures s.page != 0 ==> s.page == Paging.PageOf(pageParam)
  {
    UrlPageAgreesWithServer(pageParam);
    Start(UrlPageAsWritten(pageParam), UrlLimit(limitParam, 10))
  }

  /** `?page=0.5` starts the table on page 0, where `Paging.PageOf` gives
      page 1.  The mount-time reset sets page 1 after the first render, so
      "Halaman 0" shows for one render and one request asks for page 0. */
  lemma HalfPageStartsAtZero()
    ensures Initial(Given(Finite(0.5)), Absent).page == 0
    ensures Paging.PageOf(Given(Finite(0.5))) == 1
  {
    assert (0.5).Floor == 0;
  }

  /** "Sebelumnya": one page back, never below 1. */
  function Previous(page: int): (p: int)
    ensures p >= 1
    ensures page > 1 ==> p == page - 1
    ensures page <= 1 ==> p == 1
  {
    Max(1, page - 1)
  }

  /** "Berikutnya": one page on, only while the server says more rows follow. */
  function Following(page: int, hasMore: bool): (p: int)
    ensures hasMore ==> p == page + 1
    ensures !hasMore ==> p == page
  {
    if hasMore then page + 1 else page
  }

  /** A press of one of the two buttons; `hasMore` is what the server's
      latest reply said about the rows after the current page. */
  datatype Press = Back | On(hasMore: bool)

  /** One press: "Sebelumnya" is disabled at page 1 and below, so a press
      there changes nothing; "Berikutnya" is disabled unless the server
      reported more rows. */
  function Step(page: int, press: Press): (p: int)
    ensures press == Back && page > 1 ==> p == page - 1
    ensures press == Back && page <= 1 ==> p == page
    ensures press == On(true) ==> p == page + 1
    ensures press == On(false) ==> p == page
  {
    match press
    case Back => if page > 1 then Previous(page) else page
    case On(more) => Following(page, more)
  }

  /** The page after a sequence of presses.  Without a granted "next" the
      page never rises, and with only granted ones it rises by one each. */
  function Walk(page: int, presses: seq<Press>): (p: int)
    ensures (forall i :: 0 <= i < |presses| ==> presses[i] != On(true)) ==> p <= page
    ensures (forall i :: 0 <= i < |presses| ==> presses[i] == On(true)) ==> p == page + |presses|
    decreases |presses|
  {
    if presses == [] then page
    else
      assert forall i :: 0 <= i < |presses| - 1 ==> presses[1..][i] == presses[i + 1];
      Walk(Step(page, presses[0]), presses[1..])
  }

  /** Pressing `a` and then `b` is pressing `a + b`. */
  lemma {:induction false} WalkAppend(page: int, a: seq<Press>, b: seq<Press>)
    ensures Walk(page, a + b) == Walk(Walk(page, a), b)
    decreases |a|
  {
    if a == [] {
      assert a + b == b;
    } else {
      assert (a + b)[0] == a[0] && (a + b)[1..] == a[1..] + b;
      WalkAppend(Step(page, a[0]), a[1..], b);
    }
  }

  /** `?page=0.5` then "Sebelumnya": the button is disabled, so the table
      stays on page 0. */
  lemma BackAtZeroStays()
    ensures Walk(0, [Back]) == 0
  {
    assert [Back][1..] == [];
  }

  /** The presses of "Berikutnya" that the server's reply let through. */
  function Granted(presses: seq<Press>): (n: nat)
    ensures n <= |presses|
    decreases |presses|
  {
    if presses == [] then 0 else (if presses[0] == On(true) then 1 else 0) + Granted(presses[1..])
  }

  /** However the buttons are pressed, the table never goes below page 1
      once it is on a page, and it gets past its starting page only one
      page per reply that reported more rows: reaching page k from page 1
      takes at least k - 1 such replies. */
  lemma {:induction false} WalkBounds(page: int, presses: seq<Press>)
    requires page >= 0
    ensures Walk(page, presses) >= 0
    ensures page >= 1 ==> Walk(page, presses) >= 1
    ensures Walk(page, presses) <= page + Granted(presses)
    decreases |presses|
  {
    if presses != [] {
      WalkBounds(Step(page, presses[0]), presses[1..]);
    }
  }
}

=== FILE: qr_store.dfy ===
/**
 * The `qrcode` table: one row per issued token, with the two attendance
 * flags and the two timestamps.  Timestamps are integers supplied by the
 * caller's clock.
 */
module QrStore {
  import opened Wrappers

  /** A row of the `qrcode` table. */
  datatype QrRow = QrRow(id: string, token: string, hadir: bool, souvenir: bool, createdAt: int, updatedAt: int)

  /** The table's uniqueness constraint on `token`. */
  ghost predicate TokensUnique(rows: seq<QrRow>) {
    forall i, j :: 0 <= i < j < |rows| ==> rows[i].token != rows[j].token
  }

  /** `SELECT ... WHERE token = t LIMIT 1`: the position of the first row holding `t`. */
  function Lookup(rows: seq<QrRow>, token: string): (r: Option<nat>)
    ensures r.None? <==> forall i :: 0 <= i < |rows| ==> rows[i].token != token
    ensures r.Some? ==> r.value < |rows| && rows[r.value].token == token
    ensures r.Some? ==> forall i :: 0 <= i < r.value ==> rows[i].token != token
  {
    if rows == [] then None
    else if rows[0].token == token then Some(0)
    else
      var rest := Lookup(rows[1..], token);
      if rest.None? then None else Some(rest.value + 1)
  }

  /** Under the uniqueness constraint, the row found is the only one holding the token. */
  lemma LookupUnique(rows: seq<QrRow>, token: string, i: nat)
    requires TokensUnique(rows)
    requires i < |rows| && rows[i].token == token
    ensures Lookup(rows, token) == Some(i)
  {
  }

  function CreatedAt(r: QrRow): int { r.createdAt }

  function UpdatedAt(r: QrRow): int { r.updatedAt }

  function IsHadir(r: QrRow): bool { r.hadir }

  function IsSouvenir(r: QrRow): bool { r.souvenir }
}

=== FILE: qrcodes_route.dfy ===
/**
 * GET and POST /api/qrcodes: the paged listing of tokens, newest first, and
 * bulk issuance of new tokens.  The database's default values for a new
 * row's id and token arrive as a supply of minted pairs.
 */
module QrCodesRoute {
  import opened Wrappers
  import opened JsNum
  import opened Http
  import opened QrStore
  import Listing
  import Paging
  import RequireAdmin

  const DefaultLimit := 50
  const MaxLimit := 500
  const MaxIssue := 5000

  /** `limit`: `Number(get("limit") || "0")` floored when finite (0 otherwise);
      0 or less becomes 50 and more than 500 becomes 500. */
  function ListLimit(p: Param): (limit: int)
    ensures 1 <= limit <= MaxLimit
    ensures p.Absent? || !p.n.Finite? ==> limit == DefaultLimit
    ensures p.Given? && p.n.Finite? && p.n.v.Floor <= 0 ==> limit == DefaultLimit
    ensures p.Given? && p.n.Finite? && 1 <= p.n.v.Floor <= MaxLimit ==> limit == p.n.v.Floor
    ensures p.Given? && p.n.Finite? && p.n.v.Floor > MaxLimit ==> limit == MaxLimit
  {
    var raw := if p.Absent? then Finite(0.0) else p.n;
    var floored := if raw.Finite? then raw.v.Floor else 0;
    var limit := if floored <= 0 then DefaultLimit else floored;
    if limit > MaxLimit then MaxLimit else limit
  }

  /** GET: the page of rows in descending `createdAt` order starting at the
      page's offset, with the row count and the page count. */
  function Get(guard: RequireAdmin.Guard, limitParam: Param, pageParam: Param, rows: seq<QrRow>): (r: Reply<Listing.ListPage<QrRow>>)
    ensures guard.Denied? ==> r == RequireAdmin.DeniedReply(guard)
    ensures guard.Granted? ==> r.status == 200 && r.body.Data?
    ensures guard.Granted? ==>
      var l := r.body.data;
      && l.limit == ListLimit(limitParam)
      && l.page == Paging.PageOf(pageParam)
      && l.total == |rows|
      && l.data == Listing.PageRows(rows, CreatedAt, l.page, l.limit)
      && l.pageCount >= 1 && l.pageCount * l.limit >= l.total
      && l.pageCount == Paging.PageCount(l.total, l.limit)
      && |l.data| <= l.limit
  {
    if guard.Denied? then RequireAdmin.DeniedReply(guard)
    else Reply(200, Data(Listing.List(rows, CreatedAt, Paging.PageOf(pageParam), ListLimit(limitParam))))
  }

  /** The POST body: `{ count?, jumlah?, qty? }`. */
  datatype CountBody = CountBody(count: NumField, jumlah: NumField, qty: NumField)

  /** `Number(body?.count ?? body?.jumlah ?? body?.qty ?? 0)`: the first field
      that is neither null nor missing; only nullish fields fall through. */
  function RequestedCount(b: CountBody): (n: Num)
    ensures b.count.Present? ==> n == b.count.asNumber
    ensures b.count.Nullish? && b.jumlah.Present? ==> n == b.jumlah.asNumber
    ensures b.count.Nullish? && b.jumlah.Nullish? && b.qty.Present? ==> n == b.qty.asNumber
    ensures b.count.Nullish? && b.jumlah.Nullish? && b.qty.Nullish? ==> n == Finite(0.0)
  {
    if b.count.Present? then b.count.asNumber
    else if b.jumlah.Present? then b.jumlah.asNumber
    else if b.qty.Present? then b.qty.asNumber
    else Finite(0.0)
  }

  /** The number of rows to insert: the floored count, rejected when it is
      not finite or not positive, and cut to 5000. */
  function IssueCount(b: CountBody): (r: Option<nat>)
    ensures r.None? <==> !RequestedCount(b).Finite? || RequestedCount(b).v.Floor <= 0
    ensures r.Some? ==> 1 <= r.value <= MaxIssue && r.value == Min(RequestedCount(b).v.Floor, MaxIssue)
  {
    var raw := RequestedCount(b);
    var countVal := if raw.Finite? then raw.v.Floor else 0;
    if countVal <= 0 then None
    else if countVal > MaxIssue then Some(MaxIssue)
    else Some(countVal)
  }

  /** A database-generated `(id, token)` pair for a new row. */
  datatype Minted = Minted(id: string, token: string)

  /** The rows the insert creates: fresh ids and tokens, both flags false. */
  function NewRows(supply: seq<Minted>, n: nat, now: int): (created: seq<QrRow>)
    requires n <= |supply|
    ensures |created| == n
    ensures forall i :: 0 <= i < n ==>
      created[i].token == supply[i].token && created[i].id == supply[i].id
      && !created[i].hadir && !created[i].souvenir && created[i].createdAt == now
  {
    seq(n, i requires 0 <= i < n => QrRow(supply[i].id, supply[i].token, false, false, now, now))
  }

  /** The table after an issuance request, and the response. */
  datatype Issue = Issue(reply: Reply<seq<QrRow>>, rows: seq<QrRow>)

  /** POST: 400 and no insert for a count that floors to 0 or less; otherwise
      201 with the inserted rows, as many as the count cut to 5000. */
  function Post(guard: RequireAdmin.Guard, body: CountBody, rows: seq<QrRow>, supply: seq<Minted>, now: int): (r: Issue)
    requires |supply| >= MaxIssue
    ensures guard.Denied? ==> r.reply == RequireAdmin.DeniedReply(guard) && r.rows == rows
    ensures guard.Granted? && IssueCount(body).None? ==> r.reply == Reply(400, Error("count harus > 0")) && r.rows == rows
    ensures guard.Granted? && IssueCount(body).Some? ==>
      && r.reply.status == 201 && r.reply.body.Data?
      && |r.reply.body.data| == IssueCount(body).value
      && r.rows == rows + r.reply.body.data
      && forall i :: 0 <= i < |r.reply.body.data| ==> !r.reply.body.data[i].hadir && !r.reply.body.data[i].souvenir
  {
    if guard.Denied? then Issue(RequireAdmin.DeniedReply(guard), rows)
    else
      match IssueCount(body)
      case None => Issue(Reply(400, Error("count harus > 0")), rows)
      case Some(n) =>
        var created := NewRows(supply, n, now);
        Issue(Reply(201, Data(created)), rows + created)
  }

  /** The supply's tokens are pairwise distinct and unused in the table. */
  ghost predicate FreshSupply(rows: seq<QrRow>, supply: seq<Minted>) {
    && (forall i, j :: 0 <= i < j < |supply| ==> supply[i].token != supply[j].token)
    && (forall i, k :: 0 <= i < |supply| && 0 <= k < |rows| ==> supply[i].token != rows[k].token)
  }

  /** Issuing from a fresh supply keeps every token unique. */
  lemma PostKeepsTokensUnique(guard: RequireAdmin.Guard, body: CountBody, rows: seq<QrRow>, supply: seq<Minted>, now: int)
    requires |supply| >= MaxIssue
    requires TokensUnique(rows) && FreshSupply(rows, supply)
    ensures TokensUnique(Post(guard, body, rows, supply, now).rows)
  {
    var after := Post(guard, body, rows, supply, now).rows;
    forall i, j | 0 <= i < j < |after|
      ensures after[i].token != after[j].token
    {
      if j >= |rows| {
        if i >= |rows| {
          assert after[i].token == supply[i - |rows|].token;
        }
        assert after[j].token == supply[j - |rows|].token;
      }
    }
  }
}

=== FILE: qrcodes_table.dfy ===
/**
 * The token table in the dashboard: its page and page size, read from the
 * address bar on mount, the page count taken from the server, and the
 * controls that move between pages or change the page size.
 */
module QrCodesTable {
  import opened Wrappers
  import opened JsNum
  import opened ClientPaging

  /** The table's paging state. */
  datatype View = View(page: int, pageSize: int, pageCount: int)

  /** The state before the address bar is read. */
  const Initial := View(1, 10, 1)

  /** `Math.max(1, payload.pageCount || 1)`: a missing or zero count reads
      as one page. */
  function ClientPageCount(reported: Option<int>): (n: int)
    ensures n >= 1
    ensures reported.Some? && reported.value >= 1 ==> n == reported.value
    ensures reported.None? || reported.value < 1 ==> n == 1
  {
    var v := if reported.None? || reported.value == 0 then 1 else reported.value;
    Max(1, v)
  }

  /** Mounting: page and size from the address bar; a size different from
      the current one triggers the size effect, which puts the page back
      to 1. The page is read as the table reads it, so a page strictly
      between 0 and 1 mounts at page 0. */
  function Mount(pageParam: Param, limitParam: Param): (v: View)
    ensures v.page >= 0 && v.pageSize in PageSizes && v.pageCount == 1
    ensures v.pageSize != Initial.pageSize ==> v.page == 1
    ensures v.pageSize == Initial.pageSize ==> v.page == UrlPageAsWritten(pageParam)
  {
    MountWith(UrlPageAsWritten(pageParam), limitParam)
  }

  /** Mounting with the evident intent: the page read as the server reads it. */
  function MountCorrected(pageParam: Param, limitParam: Param): (v: View)
    ensures Valid(v) && v.pageCount == 1
    ensures v.pageSize != Initial.pageSize ==> v.page == 1
    ensures v.pageSize == Initial.pageSize ==> v.page == UrlPage(pageParam)
  {
    MountWith(UrlPage(pageParam), limitParam)
  }

  /** `?page=0.5` mounts the table as written on page 0, which is not a
      valid state, and the corrected table on page 1. */
  lemma HalfPageMountsAtZero()
    ensures Mount(Given(Finite(0.5)), Absent) == View(0, 10, 1)
    ensures !Valid(Mount(Given(Finite(0.5)), Absent))
    ensures MountCorrected(Given(Finite(0.5)), Absent) == View(1, 10, 1)
  {
    assert (0.5).Floor == 0;
  }

  /** The mount with the address bar's page already read. */
  function MountWith(page: int, limitParam: Param): View {
    var size := UrlLimit(limitParam, Initial.pageSize);
    if size != Initial.pageSize then View(1, size, Initial.pageCount)
    else View(page, size, Initial.pageCount)
  }

  /** The two mounts differ only when the address bar's page lies strictly
      between 0 and 1 and the size stays 10: the table as written then sits
      on page 0, outside the invariant, where the corrected one sits on 1. */
  lemma MountsAgreeExceptHalfPage(pageParam: Param, limitParam: Param)
    ensures Mount(pageParam, limitParam) != MountCorrected(pageParam, limitParam)
      <==> UrlPageAsWritten(pageParam) == 0 && Mount(pageParam, limitParam).pageSize == Initial.pageSize
    ensures Valid(Mount(pageParam, limitParam)) <==> Mount(pageParam, limitParam) == MountCorrected(pageParam, limitParam)
  {
  }

  /** The user's and the server's inputs to the table. */
  datatype Event = PrevLink | NextLink | PickPage(n: int) | PickSize(size: int) | Loaded(reported: Option<int>)

  /** One input: the links move by one page within range, a bar button
      moves to its page, a new size starts again at page 1, and a response
      replaces the page count. */
  function Step(v: View, e: Event): (w: View)
    ensures e.PrevLink? ==> w == v.(page := Prev(v.page))
    ensures e.NextLink? ==> w == v.(page := Next(v.page, v.pageCount))
    ensures e.PickPage? ==> w == v.(page := e.n)
    ensures e.PickSize? ==> w == View(1, e.size, v.pageCount)
    ensures e.Loaded? ==> w == v.(pageCount := ClientPageCount(e.reported))
  {
    match e
    case PrevLink => v.(page := Prev(v.page))
    case NextLink => v.(page := Next(v.page, v.pageCount))
    case PickPage(n) => if n != v.page then v.(page := n) else v
    case PickSize(size) => View(1, size, v.pageCount)
    case Loaded(reported) => v.(pageCount := ClientPageCount(reported))
  }

  /** The inputs the page offers: only buttons of the current bar and only
      the sizes of the menu. */
  predicate Offered(v: View, e: Event) {
    && (e.PickPage? ==> Num(e.n) in Window(v.page, v.pageCount))
    && (e.PickSize? ==> e.size in PageSizes)
  }

  /** The table's invariant: a page of at least 1, an offered size, and a
      page count of at least 1. */
  predicate Valid(v: View) {
    v.page >= 1 && v.pageSize in PageSizes && v.pageCount >= 1
  }

  /** Offered inputs keep the table valid, and navigation keeps a page that
      was within the page count within it. */
  lemma StepKeepsValid(v: View, e: Event)
    requires Valid(v) && Offered(v, e)
    ensures Valid(Step(v, e))
    ensures v.page <= v.pageCount && !e.Loaded? ==> Step(v, e).page <= Step(v, e).pageCount
  {
    if e.PickPage? {
      WindowIncreasing(v.page, v.pageCount);
    }
  }

  /** The table after a sequence of inputs. */
  function Run(v: View, events: seq<Event>): View
    decreases |events|
  {
    if events == [] then v else Run(Step(v, events[0]), events[1..])
  }

  /** Every input of the sequence is offered in the state it meets. */
  ghost predicate OfferedRun(v: View, events: seq<Event>)
    decreases |events|
  {
    events == [] || (Offered(v, events[0]) && OfferedRun(Step(v, events[0]), events[1..]))
  }

  /** From a valid state, such as the corrected mount, any sequence of
      offered inputs leaves the table valid. */
  lemma {:induction false} RunKeepsValid(v: View, events: seq<Event>)
    requires Valid(v) && OfferedRun(v, events)
    ensures Valid(Run(v, events))
    decreases |events|
  {
    if events != [] {
      StepKeepsValid(v, events[0]);
      RunKeepsValid(Step(v, events[0]), events[1..]);
    }
  }
}

=== FILE: recent_route.dfy ===
/**
 * GET /api/qrcodes/recent: the most recently updated tokens that carry the
 * requested attendance flag, for the dashboard's live feeds.
 */
module RecentRoute {
  import opened Wrappers
  import opened JsNum
  import opened JsText
  import opened Http
  import opened QrStore
  import Ordering
  import RequireAdmin

  const DefaultLimit := 5
  const MaxLimit := 50

  /** Which flag the feed follows. */
  datatype Kind = Hadir | Souvenir

  /** `(type || "hadir").toLowerCase()`: only a value spelling "souvenir" in
      some mix of cases selects the souvenir feed; anything else, a missing
      value included, selects check-ins. */
  function KindOf(typeParam: Option<string>): (k: Kind)
    ensures k == Souvenir <==> typeParam.Some? && Lower(typeParam.value) == "souvenir"
  {
    var t := if typeParam.None? || typeParam.value == "" then "hadir" else typeParam.value;
    if Lower(t) == "souvenir" then Souvenir else Hadir
  }

  /** Upper-case and mixed-case spellings select the souvenir feed, a longer
      word does not. */
  lemma UpperCaseSouvenir(t: string)
    requires t == "SOUVENIR"
    ensures KindOf(Some(t)) == Souvenir
  {
    var l := Lower(t);
    assert l[0] == 's' && l[1] == 'o' && l[2] == 'u' && l[3] == 'v';
    assert l[4] == 'e' && l[5] == 'n' && l[6] == 'i' && l[7] == 'r';
    assert l == "souvenir";
  }

  lemma OtherWordsAreCheckIns()
    ensures KindOf(Some("souvenirs")) == Hadir
    ensures KindOf(Some("")) == Hadir && KindOf(None) == Hadir
  {
    assert |Lower("souvenirs")| == 9;
    assert |Lower("hadir")| == 5;
  }

  /** `limit`: 5 when missing or not a finite number, otherwise the floor
      clamped into [1, 50]. */
  function RecentLimit(p: Param): (limit: int)
    ensures 1 <= limit <= MaxLimit
    ensures p.Absent? || !p.n.Finite? ==> limit == DefaultLimit
    ensures p.Given? && p.n.Finite? && 1 <= p.n.v.Floor <= MaxLimit ==> limit == p.n.v.Floor
    ensures p.Given? && p.n.Finite? && p.n.v.Floor < 1 ==> limit == 1
    ensures p.Given? && p.n.Finite? && p.n.v.Floor > MaxLimit ==> limit == MaxLimit
  {
    var raw := if p.Absent? then Finite(5.0) else p.n;
    if raw.Finite? then Min(MaxLimit, Max(1, raw.v.Floor)) else DefaultLimit
  }

  /** The flag a feed follows. */
  function Flag(k: Kind): QrRow -> bool {
    if k == Souvenir then IsSouvenir else IsHadir
  }

  /** The projection the feed returns: no `createdAt`. */
  datatype RecentRow = RecentRow(id: string, token: string, hadir: bool, souvenir: bool, updatedAt: int)

  function Project(r: QrRow): (p: RecentRow)
    ensures p.id == r.id && p.token == r.token && p.hadir == r.hadir
    ensures p.souvenir == r.souvenir && p.updatedAt == r.updatedAt
  {
    RecentRow(r.id, r.token, r.hadir, r.souvenir, r.updatedAt)
  }

  /** The rows the feed selects, before projection: flagged rows, latest
      update first, at most `limit`. */
  function Chosen(rows: seq<QrRow>, k: Kind, limit: nat): (c: seq<QrRow>)
    ensures |c| <= limit
    ensures multiset(c) <= multiset(rows)
    ensures forall i :: 0 <= i < |c| ==> Flag(k)(c[i])
    ensures Ordering.SortedDesc(c, UpdatedAt)
  {
    var flagged := Ordering.Filter(rows, Flag(k));
    var ordered := Ordering.SortDesc(flagged, UpdatedAt);
    var c := Ordering.Window(ordered, 0, limit);
    Ordering.WindowsDescend(ordered, 0, limit, UpdatedAt);
    forall i | 0 <= i < |c|
      ensures Flag(k)(c[i])
    {
      assert c[i] in multiset(flagged);
    }
    c
  }

  /** The feed shows the newest flagged rows: every flagged row left out was
      updated no later than every row shown, and it is left out only because
      the feed is full. */
  lemma ChosenAreNewest(rows: seq<QrRow>, k: Kind, limit: nat, x: QrRow)
    requires x in rows && Flag(k)(x) && x !in Chosen(rows, k, limit)
    ensures |Chosen(rows, k, limit)| == limit
    ensures forall y :: y in Chosen(rows, k, limit) ==> y.updatedAt >= x.updatedAt
  {
    var flagged := Ordering.Filter(rows, Flag(k));
    var ordered := Ordering.SortDesc(flagged, UpdatedAt);
    assert x in multiset(rows);
    assert x in multiset(flagged);
    assert x in ordered;
    Ordering.TakeKeepsTop(ordered, limit, UpdatedAt);
  }

  /** GET: 200 with the projection of the chosen rows. */
  function Get(guard: RequireAdmin.Guard, typeParam: Option<string>, limitParam: Param, rows: seq<QrRow>): (r: Reply<seq<RecentRow>>)
    ensures guard.Denied? ==> r == RequireAdmin.DeniedReply(guard)
    ensures guard.Granted? ==> r.status == 200 && r.body.Data?
    ensures guard.Granted? ==>
      var c := Chosen(rows, KindOf(typeParam), RecentLimit(limitParam));
      |r.body.data| == |c| && forall i :: 0 <= i < |c| ==>
        var d := r.body.data[i];
        d.id == c[i].id && d.token == c[i].token && d.hadir == c[i].hadir
        && d.souvenir == c[i].souvenir && d.updatedAt == c[i].updatedAt
  {
    if guard.Denied? then RequireAdmin.DeniedReply(guard)
    else
      Reply(200, Data(ProjectAll(Chosen(rows, KindOf(typeParam), RecentLimit(limitParam)))))
  }

  /** The projection of every chosen row, in order. */
  function ProjectAll(c: seq<QrRow>): (d: seq<RecentRow>)
    ensures |d| == |c|
    ensures forall i :: 0 <= i < |c| ==>
      d[i].id == c[i].id && d[i].token == c[i].token && d[i].hadir == c[i].hadir
      && d[i].souvenir == c[i].souvenir && d[i].updatedAt == c[i].updatedAt
  {
    seq(|c|, i requires 0 <= i < |c| => Project(c[i]))
  }

  /** After a successful check-in the token heads the check-in feed when its
      update time is the latest in the table. */
  lemma CheckInHeadsFeed(rows: seq<QrRow>, limit: nat, x: QrRow)
    requires limit >= 1 && x in rows && x.hadir
    requires forall y :: y in rows && y != x ==> y.updatedAt < x.updatedAt
    ensures x in Chosen(rows, Hadir, limit)
  {
    var flagged := Ordering.Filter(rows, Flag(Hadir));
    var ordered := Ordering.SortDesc(flagged, UpdatedAt);
    assert x in multiset(flagged);
    assert x in multiset(ordered);
    var j :| 0 <= j < |ordered| && ordered[j] == x;
    assert ordered[0].updatedAt >= x.updatedAt;
    assert ordered[0] in multiset(rows);
    assert ordered[0] == x;
    assert Chosen(rows, Hadir, limit)[0] == ordered[0];
  }
}

=== FILE: require_admin.dfy ===
/**
 * The admin gate of lib/require-admin.ts: the allow-lists read from the
 * environment, the role test on a session, and the status ordering of the
 * guard every protected route calls first.  Session resolution belongs to
 * the authentication library and arrives here as a `Lookup` outcome.
 */
module RequireAdmin {
  import opened Wrappers
  import opened JsText
  import Http

  /** `ADMIN_USER_IDS` and `ADMIN_ROLES` as read from the environment. */
  datatype Env = Env(adminUserIds: Option<string>, adminRoles: Option<string>)

  /** The allow-lists computed once from the environment. */
  datatype Config = Config(adminUserIds: seq<string>, adminRoles: seq<string>)

  /** The user part of a resolved session: `id?` and `role?: string | null`. */
  datatype SessionUser = SessionUser(id: Option<string>, role: Option<string>)

  datatype Session = Session(user: Option<SessionUser>)

  /** What `auth.api.getSession` gave: no session, a session, or an exception
      (`Some(message)` for an `Error`, `None` for any other thrown value). */
  datatype Lookup = NoSession | Resolved(session: Session) | Threw(message: Option<string>)

  /** The guard's result: the session, or the response the route must return. */
  datatype Guard = Granted(session: Session) | Denied(status: int, error: string)

  /** Where `requireAdminPage` sends a page request. */
  datatype PageGate = Render(session: Session) | RedirectTo(path: string) | Propagates

  /** A clean list item: non-empty, trimmed, and free of commas. */
  predicate CleanItem(x: string) {
    x != [] && ',' !in x && Trim(x) == x
  }

  function TrimEach(parts: seq<string>): (r: seq<string>)
    ensures |r| == |parts|
    ensures forall i :: 0 <= i < |r| ==> r[i] == Trim(parts[i])
  {
    seq(|parts|, i requires 0 <= i < |parts| => Trim(parts[i]))
  }

  function DropEmpty(parts: seq<string>): (r: seq<string>)
    ensures forall i :: 0 <= i < |r| ==> r[i] != []
    ensures forall x :: x in r <==> x in parts && x != []
  {
    if parts == [] then []
    else if parts[0] == [] then DropEmpty(parts[1..])
    else [parts[0]] + DropEmpty(parts[1..])
  }

  /** `text.split(",").map((s) => s.trim()).filter(Boolean)`. */
  function CommaList(text: string): (r: seq<string>)
    ensures forall i :: 0 <= i < |r| ==> CleanItem(r[i])
  {
    var pieces := Split(text, ',');
    TrimmedPiecesClean(pieces);
    DropEmptyKeepsClean(TrimEach(pieces));
    DropEmpty(TrimEach(pieces))
  }

  /** Dropping empty items keeps any property every item had. */
  lemma {:induction false} DropEmptyKeeps(parts: seq<string>, p: string -> bool)
    requires forall i :: 0 <= i < |parts| ==> p(parts[i])
    ensures forall i :: 0 <= i < |DropEmpty(parts)| ==> p(DropEmpty(parts)[i])
  {
    if parts != [] {
      DropEmptyKeeps(parts[1..], p);
    }
  }

  lemma DropEmptyKeepsClean(parts: seq<string>)
    requires forall i :: 0 <= i < |parts| ==> ',' !in parts[i] && Trim(parts[i]) == parts[i]
    ensures forall i :: 0 <= i < |DropEmpty(parts)| ==> CleanItem(DropEmpty(parts)[i])
  {
    var tidy := (x: string) => ',' !in x && Trim(x) == x;
    assert forall i :: 0 <= i < |parts| ==> tidy(parts[i]);
    DropEmptyKeeps(parts, tidy);
  }

  lemma TrimmedPiecesClean(pieces: seq<string>)
    requires forall i :: 0 <= i < |pieces| ==> ',' !in pieces[i]
    ensures forall i :: 0 <= i < |pieces| ==> ',' !in TrimEach(pieces)[i] && Trim(TrimEach(pieces)[i]) == TrimEach(pieces)[i]
  {
    forall i | 0 <= i < |pieces|
      ensures ',' !in TrimEach(pieces)[i] && Trim(TrimEach(pieces)[i]) == TrimEach(pieces)[i]
    {
      TrimIdempotent(pieces[i]);
      TrimAddsNothing(pieces[i], ',');
    }
  }

  lemma {:induction false} TrimEachClean(items: seq<string>)
    requires forall i :: 0 <= i < |items| ==> CleanItem(items[i])
    ensures TrimEach(items) == items
  {
    if items != [] {
      TrimEachClean(items[1..]);
    }
  }

  lemma {:induction false} DropEmptyClean(items: seq<string>)
    requires forall i :: 0 <= i < |items| ==> items[i] != []
    ensures DropEmpty(items) == items
  {
    if items != [] {
      DropEmptyClean(items[1..]);
    }
  }

  /** Writing clean items comma-separated and parsing them back gives the items. */
  lemma CommaListJoin(items: seq<string>)
    requires |items| >= 1
    requires forall i :: 0 <= i < |items| ==> CleanItem(items[i])
    ensures CommaList(Join(items, ',')) == items
  {
    SplitJoin(items, ',');
    TrimEachClean(items);
    DropEmptyClean(items);
  }

  /** The two defaults: a blank list parses to no items, and "admin" to itself. */
  lemma DefaultLists(blank: string, admin: string)
    requires blank == "" && admin == "admin"
    ensures CommaList(blank) == []
    ensures CommaList(admin) == [admin]
  {
    assert CommaList(blank) == [] by {
      assert Split(blank, ',') == [blank];
      assert Trim(blank) == blank;
    }
    AdminIsClean(admin);
    ItemParsesAlone(admin);
  }

  /** A clean item on its own parses to itself. */
  lemma ItemParsesAlone(t: string)
    requires CleanItem(t)
    ensures CommaList(t) == [t]
  {
    assert Join([t], ',') == t;
    CommaListJoin([t]);
  }

  lemma AdminIsClean(a: string)
    requires a == "admin"
    ensures CleanItem(a)
  {
    assert a[0] == 'a' && a[|a| - 1] == 'n';
    TrimmedAlready(a);
  }

  /** The allow-lists: `ADMIN_USER_IDS || ""` and `ADMIN_ROLES || "admin"`,
      each parsed as a comma list. */
  function ConfigOf(env: Env): (c: Config)
    ensures env.adminUserIds.GetOr("") == "" ==> c.adminUserIds == []
    ensures env.adminRoles.GetOr("") == "" ==> c.adminRoles == ["admin"]
    ensures env.adminUserIds.Some? && env.adminUserIds.value != "" ==> c.adminUserIds == CommaList(env.adminUserIds.value)
    ensures env.adminRoles.Some? && env.adminRoles.value != "" ==> c.adminRoles == CommaList(env.adminRoles.value)
  {
    var ids := env.adminUserIds.GetOr("");
    var roles := env.adminRoles.GetOr("");
    var idText := if ids == "" then "" else ids;
    var roleText := if roles == "" then "admin" else roles;
    DefaultLists("", "admin");
    assert ids == "" ==> CommaList(idText) == [];
    assert roles == "" ==> CommaList(roleText) == ["admin"];
    Config(CommaList(idText), CommaList(roleText))
  }

  /** `session?.user?.id`, with absence as `None`. */
  function UserId(s: Option<Session>): Option<string> {
    if s.Some? && s.value.user.Some? then s.value.user.value.id else None
  }

  /** The session's roles: `(session?.user?.role || "")` as a comma list. */
  function RolesOf(s: Option<Session>): seq<string> {
    var role := if s.Some? && s.value.user.Some? then s.value.user.value.role.GetOr("") else "";
    CommaList(role)
  }

  /** `roles.some((r) => allowed.includes(r))`. */
  function SomeAllowed(roles: seq<string>, allowed: seq<string>): (b: bool)
    ensures b <==> exists i :: 0 <= i < |roles| && roles[i] in allowed
  {
    if roles == [] then false
    else roles[0] in allowed || SomeAllowed(roles[1..], allowed)
  }

  /** `isAdminSession`: one of the session's roles is an admin role, or its
      user id is non-empty and listed as an admin id. */
  function IsAdminSession(cfg: Config, s: Option<Session>): (b: bool)
    ensures b <==> (exists i :: 0 <= i < |RolesOf(s)| && RolesOf(s)[i] in cfg.adminRoles)
                   || (UserId(s).Some? && UserId(s).value != "" && UserId(s).value in cfg.adminUserIds)
  {
    var id := UserId(s);
    SomeAllowed(RolesOf(s), cfg.adminRoles) || (id.Some? && id.value != "" && id.value in cfg.adminUserIds)
  }

  /** With the environment unset, a session whose role field lists "admin"
      between two other comma-free entries is an admin session. */
  lemma DefaultAdminRole(id: Option<string>, before: string, after: string)
    requires ',' !in before && ',' !in after
    ensures IsAdminSession(ConfigOf(Env(None, None)), Some(Session(Some(SessionUser(id, Some(before + "," + "admin" + "," + after))))))
  {
    var text := before + "," + "admin" + "," + after;
    AdminListed(before, after);
    var s := Some(Session(Some(SessionUser(id, Some(text)))));
    assert RolesOf(s) == CommaList(text);
    var i :| 0 <= i < |CommaList(text)| && CommaList(text)[i] == "admin";
    assert ConfigOf(Env(None, None)).adminRoles == ["admin"];
  }

  lemma AdminListed(before: string, after: string)
    requires ',' !in before && ',' !in after
    ensures "admin" in CommaList(before + "," + "admin" + "," + after)
  {
    AdminIsClean("admin");
    ItemListed(before, "admin", after);
  }

  /** A clean item between two comma-free entries is one of the parsed items. */
  lemma ItemListed(before: string, item: string, after: string)
    requires ',' !in before && ',' !in after && CleanItem(item)
    ensures item in CommaList(before + "," + item + "," + after)
  {
    var text := before + "," + item + "," + after;
    var pieces := [before, item, after];
    SplitThree(before, item, after);
    CleanPieceSurvives(pieces, 1);
    assert CommaList(text) == DropEmpty(TrimEach(pieces));
  }

  lemma SplitThree(before: string, item: string, after: string)
    requires ',' !in before && ',' !in item && ',' !in after
    ensures Split(before + "," + item + "," + after, ',') == [before, item, after]
  {
    var pieces := [before, item, after];
    assert forall i :: 0 <= i < |pieces| ==> ',' !in pieces[i];
    SplitJoin(pieces, ',');
    JoinThree(before, item, after);
  }

  /** A clean piece survives trimming and the empty-item filter. */
  lemma CleanPieceSurvives(pieces: seq<string>, k: nat)
    requires k < |pieces| && CleanItem(pieces[k])
    ensures pieces[k] in DropEmpty(TrimEach(pieces))
  {
    var trimmed := TrimEach(pieces);
    assert trimmed[k] == pieces[k];
    assert pieces[k] in trimmed;
  }

  lemma JoinThree(a: string, b: string, c: string)
    ensures Join([a, b, c], ',') == a + "," + b + "," + c
  {
    var pieces := [a, b, c];
    assert pieces[1..] == [b, c] && pieces[1..][1..] == [c];
    assert Join([c], ',') == c;
    assert Join([b, c], ',') == b + "," + c;
  }

  /** `ensureAdminApi`: 401 without a session, then 403 for a non-admin
      session, 503 when session resolution throws, else the session. */
  function EnsureAdminApi(cfg: Config, lookup: Lookup): (g: Guard)
    ensures lookup.NoSession? <==> g == Denied(401, "Unauthorized")
    ensures g == Denied(403, "Forbidden") <==> lookup.Resolved? && !IsAdminSession(cfg, Some(lookup.session))
    ensures (g.Denied? && g.status == 503) <==> lookup.Threw?
    ensures g.Granted? <==> lookup.Resolved? && IsAdminSession(cfg, Some(lookup.session))
    ensures g.Granted? ==> g.session == lookup.session
    ensures g.Denied? ==> g.status in {401, 403, 503}
    ensures lookup.Threw? && lookup.message.Some? ==> g.error == "Auth unavailable: " + lookup.message.value
    ensures lookup.Threw? && lookup.message.None? ==> g.error == "Auth unavailable: Service unavailable"
  {
    match lookup
    case NoSession => Denied(401, "Unauthorized")
    case Resolved(session) =>
      if !IsAdminSession(cfg, Some(session)) then Denied(403, "Forbidden") else Granted(session)
    case Threw(message) =>
      DefaultUnavailable();
      Denied(503, "Auth unavailable: " + message.GetOr("Service unavailable"))
  }

  /** The 503 message when the thrown value is not an `Error`. */
  lemma DefaultUnavailable()
    ensures "Auth unavailable: " + "Service unavailable" == "Auth unavailable: Service unavailable"
  {
  }

  /** `requireAdminPage`: to /login without a session, to /not-admin for a
      non-admin, and an exception from session resolution is not caught. */
  function RequireAdminPage(cfg: Config, lookup: Lookup): (p: PageGate)
    ensures lookup.NoSession? <==> p == RedirectTo("/login")
    ensures p == RedirectTo("/not-admin") <==> lookup.Resolved? && !IsAdminSession(cfg, Some(lookup.session))
    ensures p.Render? <==> EnsureAdminApi(cfg, lookup).Granted?
    ensures p.Propagates? <==> lookup.Threw?
  {
    match lookup
    case NoSession => RedirectTo("/login")
    case Resolved(session) =>
      if !IsAdminSession(cfg, Some(session)) then RedirectTo("/not-admin") else Render(session)
    case Threw(_) => Propagates
  }

  /** The response a route returns unchanged when its guard denies. */
  function DeniedReply<T>(g: Guard): (r: Http.Reply<T>)
    requires g.Denied?
    ensures r.status == g.status && r.body == Http.Error(g.error)
  {
    Http.Reply(g.status, Http.Error(g.error))
  }
}

=== FILE: scan_page.dfy ===
/**
 * The check-in scanning page: what a submit of the token field does, and
 * how the page reads the check-in route's answer.
 */
module ScanPage {
  import opened Wrappers
  import opened JsText
  import opened Http
  import QrStore
  import HadirRoute

  /** What pressing submit does. */
  datatype Submit = Ignored | EmptyToken | Send(token: string)

  /** A submit while a request is running does nothing; otherwise the
      trimmed field is sent unless it is empty. */
  function OnSubmit(busy: bool, field: string): (s: Submit)
    ensures busy <==> s == Ignored
    ensures s == EmptyToken <==> !busy && Trim(field) == ""
    ensures s.Send? ==> s.token == Trim(field) && s.token != ""
    ensures s.Send? ==> |s.token| <= |field| && !IsSpace(s.token[0]) && !IsSpace(s.token[|s.token| - 1])
  {
    if busy then Ignored
    else
      var token := Trim(field);
      if token == "" then EmptyToken else Send(token)
  }

  /** The JSON body of the request: `{ token }`. */
  function RequestBody(token: string): HadirRoute.TokenBody {
    HadirRoute.TokenBody(Str(token), NotString)
  }

  /** How the page reports the answer. */
  datatype Result = Success | AlreadyCheckedIn | Failure(message: string)

  /** An ok status is a success, 409 is informational, and anything else is
      an error with the server's `error` or "Gagal". */
  function Classify(status: int, error: Option<string>): (r: Result)
    ensures r == Success <==> Ok(status)
    ensures r == AlreadyCheckedIn <==> status == 409
    ensures r.Failure? ==> r.message == if error.Some? && error.value != "" then error.value else "Gagal"
  {
    if Ok(status) then Success
    else if status == 409 then AlreadyCheckedIn
    else Failure(if error.Some? && error.value != "" then error.value else "Gagal")
  }

  /** The field after the answer: cleared after a success or a repeat
      check-in, kept after an error so it can be corrected. */
  function FieldAfter(field: string, r: Result): (f: string)
    ensures !r.Failure? ==> f == ""
    ensures r.Failure? ==> f == field
  {
    if r.Success? || r.AlreadyCheckedIn? then "" else field
  }

  /** The error text a reply carries. */
  function ErrorOf<T>(body: Body<T>): Option<string> {
    match body
    case Data(_) => None
    case Error(e) => Some(e)
    case ErrorWith(e, _) => Some(e)
  }

  /** A submit end to end against the check-in step: the route sees the
      trimmed token, and the page reports exactly the route's outcome. */
  lemma SubmitEndToEnd(rows: seq<QrStore.QrRow>, field: string, now: int)
    requires OnSubmit(false, field).Send?
    ensures var token := OnSubmit(false, field).token;
      var c := HadirRoute.CheckInStep(rows, RequestBody(token), now);
      var r := Classify(c.reply.status, ErrorOf(c.reply.body));
      && HadirRoute.Requested(RequestBody(token)) == Trim(field)
      && (r == Success <==> c.reply.status == 200)
      && (r == AlreadyCheckedIn <==> c.reply.status == 409)
      && (r.Failure? ==> c.reply.status == 404 && c.rows == rows)
  {
  }

  /** Scanning the same code twice: the first submit succeeds, the second
      is reported as already checked in, and the field is cleared both times. */
  lemma ScanTwice(rows: seq<QrStore.QrRow>, field: string, now: int, later: int)
    requires OnSubmit(false, field).Send?
    requires HadirRoute.CheckInStep(rows, RequestBody(OnSubmit(false, field).token), now).reply.status == 200
    ensures var body := RequestBody(OnSubmit(false, field).token);
      var first := HadirRoute.CheckInStep(rows, body, now);
      var second := HadirRoute.CheckInStep(first.rows, body, later);
      && Classify(first.reply.status, ErrorOf(first.reply.body)) == Success
      && Classify(second.reply.status, ErrorOf(second.reply.body)) == AlreadyCheckedIn
      && FieldAfter(field, AlreadyCheckedIn) == ""
  {
    var body := RequestBody(OnSubmit(false, field).token);
    HadirRoute.SecondCheckInConflicts(rows, body, now, later);
  }
}

=== FILE: seed_route.dfy ===
/**
 * POST /api/seed: creates the first administrator account when the
 * deployment enables seeding.  Each credential comes from the request body,
 * else from the environment, else from a built-in default.
 */
module SeedRoute {
  import opened Wrappers
  import opened Http
  import UsersRoute

  const DefaultEmail := "admin@admin.com"
  const DefaultPassword := "12345678"
  const DefaultName := "Admin"

  /** The environment variables the route reads. */
  datatype SeedEnv = SeedEnv(enableSeed: Option<string>, email: Option<string>, password: Option<string>, name: Option<string>)

  /** One body field as `body.x || …` sees it.  The route checks no type:
      a string, a missing field, a falsy non-string (0, false, null) or any
      other JSON value, kept as its JSON text. */
  datatype BodyField = Missing | Text(s: string) | OtherFalsy | OtherTruthy(json: string)

  /** The body's three fields. */
  datatype SeedBody = SeedBody(email: BodyField, password: BodyField, name: BodyField)

  /** A value handed to sign-up and echoed back: a string, or a non-string
      body value passed through unchanged. */
  datatype Value = StrValue(s: string) | JsonValue(text: string)

  /** The three values the seed signs up with. */
  datatype Seed = Seed(email: Value, password: Value, name: Value)

  /** JavaScript truthiness of a body field. */
  predicate Truthy(f: BodyField) {
    (f.Text? && f.s != "") || f.OtherTruthy?
  }

  /** `a || b || fallback`: the body value if truthy, else the environment
      value if it is a non-empty string, else the fallback. */
  function FirstTruthy(a: BodyField, b: Option<string>, fallback: string): (r: Value)
    ensures a.Text? && a.s != "" ==> r == StrValue(a.s)
    ensures a.OtherTruthy? ==> r == JsonValue(a.json)
    ensures !Truthy(a) && b.Some? && b.value != "" ==> r == StrValue(b.value)
    ensures !Truthy(a) && (b.None? || b.value == "") ==> r == StrValue(fallback)
    ensures fallback != "" ==> r != StrValue("")
  {
    if a.Text? && a.s != "" then StrValue(a.s)
    else if a.OtherTruthy? then JsonValue(a.json)
    else if b.Some? && b.value != "" then StrValue(b.value)
    else StrValue(fallback)
  }

  /** The values the seed signs up with. */
  function SeedCredentials(env: SeedEnv, body: SeedBody): (c: Seed)
    ensures c.email != StrValue("") && c.password != StrValue("") && c.name != StrValue("")
    ensures c.email.JsonValue? <==> body.email.OtherTruthy?
    ensures c.password.JsonValue? <==> body.password.OtherTruthy?
    ensures c.name.JsonValue? <==> body.name.OtherTruthy?
  {
    Seed(
      FirstTruthy(body.email, env.email, DefaultEmail),
      FirstTruthy(body.password, env.password, DefaultPassword),
      FirstTruthy(body.name, env.name, DefaultName))
  }

  /** The response, with the sign-up call made if any. */
  datatype Seeding = Seeding(reply: Reply<Value>, signedUp: Option<Seed>)

  /** 403 without any sign-up unless `ENABLE_SEED` is exactly "1"; otherwise
      sign-up with the chosen values, echoing the email on success and the
      thrown message (or "Seed failed") on failure. */
  function Post(env: SeedEnv, body: SeedBody, signUp: UsersRoute.CallResult): (s: Seeding)
    ensures env.enableSeed != Some("1") <==> s == Seeding(Reply(403, Error("Seed disabled")), None)
    ensures env.enableSeed == Some("1") ==> s.signedUp == Some(SeedCredentials(env, body))
    ensures s.reply.status == 200 <==> env.enableSeed == Some("1") && signUp.Completed?
    ensures s.reply.status == 200 ==> s.reply.body == Data(SeedCredentials(env, body).email)
    ensures env.enableSeed == Some("1") && signUp.ThrewError? ==> s.reply == Reply(400, Error(signUp.message))
    ensures env.enableSeed == Some("1") && signUp.ThrewOther? ==> s.reply == Reply(400, Error("Seed failed"))
  {
    if env.enableSeed != Some("1") then Seeding(Reply(403, Error("Seed disabled")), None)
    else
      var cred := SeedCredentials(env, body);
      match signUp
      case Completed => Seeding(Reply(200, Data(cred.email)), Some(cred))
      case ThrewError(m) => Seeding(Reply(400, Error(m)), Some(cred))
      case ThrewOther => Seeding(Reply(400, Error("Seed failed")), Some(cred))
  }

  /** With nothing configured, seeding creates the built-in administrator. */
  lemma DefaultSeed(signUp: UsersRoute.CallResult)
    ensures var env := SeedEnv(Some("1"), None, None, None);
      Post(env, SeedBody(Missing, Missing, Missing), signUp).signedUp ==
      Some(Seed(StrValue(DefaultEmail), StrValue(DefaultPassword), StrValue(DefaultName)))
  {
  }

  /** A falsy field, string or not, is the same as a missing one. */
  lemma FalsyIsMissing(env: SeedEnv, body: SeedBody, signUp: UsersRoute.CallResult)
    requires !Truthy(body.email) && !Truthy(body.password) && !Truthy(body.name)
    ensures Post(env, body, signUp) == Post(env, SeedBody(Missing, Missing, Missing), signUp)
  {
  }

  /** `{"email": 5}`: the number goes to sign-up and comes back as the
      reply's email unchanged. */
  lemma NonStringEmailEchoed(env: SeedEnv, password: BodyField, name: BodyField)
    requires env.enableSeed == Some("1")
    ensures var s := Post(env, SeedBody(OtherTruthy("5"), password, name), UsersRoute.Completed);
      s.reply == Reply(200, Data(JsonValue("5"))) && s.signedUp.value.email == JsonValue("5")
  {
  }
}

=== FILE: template_page.dfy ===
/**
 * The poster composer page: a participant's QR code drawn over the event
 * background at a fixed placeholder, prefilled from `?token=` and
 * downloaded once on its own when the page is opened with `?auto=download`.
 */
module TemplatePage {
  import opened Wrappers
  import opened JsNum
  import opened JsText
  import FileNames

  /** Where the QR code goes on the background, as the number inputs hold it. */
  datatype Placement = Placement(x: Num, y: Num, size: Num)

  /** The placeholder printed on the background, also the initial placement. */
  const Placeholder := Placement(Finite(292.0), Finite(860.0), Finite(500.0))

  function RMax(a: real, b: real): real { if a >= b then a else b }

  function RMin(a: real, b: real): real { if a <= b then a else b }

  /** The pixel size the QR code is fetched and drawn at:
      `Math.max(50, Math.min(size, Math.min(w, h)))` for an image of w by h. */
  function QrPx(size: Num, w: int, h: int): (px: Num)
    ensures px.NaN? <==> size.NaN?
    ensures !px.Infinity?
    ensures px.Finite? ==> px.v >= 50.0
    ensures px.Finite? && Min(w, h) >= 50 ==> px.v <= Min(w, h) as real
    ensures size.Finite? && 50.0 <= size.v <= Min(w, h) as real ==> px == size
  {
    match size
    case NaN => NaN
    case Infinity(negative) => Finite(if negative then 50.0 else RMax(50.0, Min(w, h) as real))
    case Finite(v) => Finite(RMax(50.0, RMin(v, Min(w, h) as real)))
  }

  /** Clamping twice changes nothing: a size already drawn is drawn again at
      the same size. */
  lemma QrPxIdempotent(size: Num, w: int, h: int)
    ensures QrPx(QrPx(size, w, h), w, h) == QrPx(size, w, h)
  {
  }

  /** The page's query: each parameter with `?? ""`. */
  datatype Query = Query(token: string, auto: string, name: string)

  /** The prefill effect: the query token fills an empty field and never
      replaces what is already typed. */
  function Prefill(q: Query, token: string): (t: string)
    ensures token != "" ==> t == token
    ensures token == "" ==> t == q.token
    ensures t == "" <==> token == "" && q.token == ""
  {
    if q.token != "" && token == "" then q.token else token
  }

  lemma PrefillIdempotent(q: Query, token: string)
    ensures Prefill(q, Prefill(q, token)) == Prefill(q, token)
  {
  }

  /** What the page holds between renders. */
  datatype Page = Page(token: string, bgReady: bool, place: Placement, fired: bool)

  const Initial := Page("", false, Placeholder, false)

  /** A PNG download: the token drawn, where, under which file name, and
      whether the page started it on its own. */
  datatype Download = Download(token: string, place: Placement, fileName: string, automatic: bool)

  /** What the user or the browser does. */
  datatype Event =
    | Typed(text: string)
    | BackgroundLoaded
    | BackgroundFailed
    | Edited(place: Placement)
    | ResetPressed
    | DownloadPressed

  predicate Ready(p: Page) { p.token != "" && p.bgReady }

  predicate AutoRequested(q: Query) { Lower(q.auto) == "download" }

  /** The event's own handler; a disabled button does nothing. */
  function Handle(q: Query, p: Page, e: Event): (r: (Page, seq<Download>))
    ensures r.0.fired == p.fired
    ensures |r.1| <= 1
    ensures r.1 != [] <==> e == DownloadPressed && Ready(p)
    ensures r.1 != [] ==> r.1[0] == Download(p.token, p.place, FileNames.PosterFileName(q.name), false)
    ensures e.Typed? ==> r.0 == p.(token := e.text)
    ensures e == BackgroundLoaded ==> r.0 == p.(bgReady := true)
    ensures e == BackgroundFailed ==> r.0 == p.(bgReady := false)
    ensures e.Edited? ==> r.0 == p.(place := e.place)
    ensures e == ResetPressed && p.bgReady ==> r.0 == p.(place := Placeholder)
    ensures e == ResetPressed && !p.bgReady ==> r.0 == p
    ensures e == DownloadPressed ==> r.0 == p
  {
    match e
    case Typed(text) => (p.(token := text), [])
    case BackgroundLoaded => (p.(bgReady := true), [])
    case BackgroundFailed => (p.(bgReady := false), [])
    case Edited(place) => (p.(place := place), [])
    case ResetPressed => (if p.bgReady then p.(place := Placeholder) else p, [])
    case DownloadPressed =>
      if Ready(p) then (p, [Download(p.token, p.place, FileNames.PosterFileName(q.name), false)])
      else (p, [])
  }

  /** The effects after a render: the prefill, then the automatic download,
      which fires once, snaps the placement back to the placeholder and
      downloads with the placement the render held. */
  function Settle(q: Query, p: Page): (r: (Page, seq<Download>))
    ensures r.0.token == Prefill(q, p.token)
    ensures r.0.bgReady == p.bgReady
    ensures |r.1| <= 1
    ensures r.1 != [] <==> p.bgReady && Prefill(q, p.token) != "" && AutoRequested(q) && !p.fired
    ensures r.1 != [] ==> r.1[0].automatic && r.1[0].token != "" && r.0.fired && r.0.place == Placeholder
    ensures r.1 != [] ==> r.1[0] == Download(Prefill(q, p.token), p.place, FileNames.PosterFileName(q.name), true)
    ensures r.1 == [] ==> r.0 == p.(token := Prefill(q, p.token))
  {
    var filled := p.(token := Prefill(q, p.token));
    if filled.bgReady && filled.token != "" && AutoRequested(q) && !filled.fired then
      (filled.(fired := true, place := Placeholder),
       [Download(filled.token, filled.place, FileNames.PosterFileName(q.name), true)])
    else (filled, [])
  }

  function Step(q: Query, p: Page, e: Event): (r: (Page, seq<Download>)) {
    var handled := Handle(q, p, e);
    var settled := Settle(q, handled.0);
    (settled.0, handled.1 + settled.1)
  }

  /** The page over a sequence of events: its last state and every download. */
  function Run(q: Query, p: Page, es: seq<Event>): (Page, seq<Download>)
    decreases |es|
  {
    if es == [] then (p, [])
    else
      var first := Step(q, p, es[0]);
      var rest := Run(q, first.0, es[1..]);
      (rest.0, first.1 + rest.1)
  }

  /** The automatic downloads among a list. */
  function Automatic(ds: seq<Download>): (r: seq<Download>)
    ensures |r| <= |ds|
    ensures forall i :: 0 <= i < |r| ==> r[i].automatic
    ensures forall d :: d in r <==> d in ds && d.automatic
  {
    if ds == [] then []
    else (if ds[0].automatic then [ds[0]] else []) + Automatic(ds[1..])
  }

  lemma {:induction false} AutomaticAppend(a: seq<Download>, b: seq<Download>)
    ensures Automatic(a + b) == Automatic(a) + Automatic(b)
  {
    if a != [] {
      assert (a + b)[0] == a[0];
      assert (a + b)[1..] == a[1..] + b;
      AutomaticAppend(a[1..], b);
    } else {
      assert a + b == b;
    }
  }

  lemma StepAutomatic(q: Query, p: Page, e: Event)
    ensures var r := Step(q, p, e);
      && (p.fired ==> r.0.fired && Automatic(r.1) == [])
      && |Automatic(r.1)| <= 1
      && (Automatic(r.1) != [] ==> r.0.fired)
  {
    var h := Handle(q, p, e);
    var s := Settle(q, h.0);
    AutomaticAppend(h.1, s.1);
    assert Automatic(h.1) == [] by {
      if h.1 != [] {
        assert Automatic(h.1[1..]) == [];
      }
    }
    assert |Automatic(s.1)| <= |s.1|;
  }

  /** Once the automatic download has fired it never fires again, and
      before that at most one fires: a whole session of the page downloads
      on its own at most once. */
  lemma {:induction false} AutomaticAtMostOnce(q: Query, p: Page, es: seq<Event>)
    ensures var r := Run(q, p, es);
      && (p.fired ==> r.0.fired && Automatic(r.1) == [])
      && |Automatic(r.1)| <= 1
      && (Automatic(r.1) != [] ==> r.0.fired)
    decreases |es|
  {
    if es != [] {
      var first := Step(q, p, es[0]);
      var rest := Run(q, first.0, es[1..]);
      StepAutomatic(q, p, es[0]);
      AutomaticAtMostOnce(q, first.0, es[1..]);
      AutomaticAppend(first.1, rest.1);
    }
  }

  /** Without `?auto=download` nothing is downloaded on its own. */
  lemma {:induction false} NoAutomaticUnlessAsked(q: Query, p: Page, es: seq<Event>)
    requires !AutoRequested(q)
    ensures Automatic(Run(q, p, es).1) == []
    decreases |es|
  {
    if es != [] {
      var first := Step(q, p, es[0]);
      var h := Handle(q, p, es[0]);
      var s := Settle(q, h.0);
      assert Automatic(h.1) == [] by {
        if h.1 != [] {
          assert Automatic(h.1[1..]) == [];
        }
      }
      AutomaticAppend(h.1, s.1);
      NoAutomaticUnlessAsked(q, first.0, es[1..]);
      AutomaticAppend(first.1, Run(q, first.0, es[1..]).1);
    }
  }

  /** Every download, manual or automatic, draws a non-empty token. */
  lemma {:induction false} DownloadsCarryToken(q: Query, p: Page, es: seq<Event>)
    ensures forall i :: 0 <= i < |Run(q, p, es).1| ==> Run(q, p, es).1[i].token != ""
    decreases |es|
  {
    if es != [] {
      var first := Step(q, p, es[0]);
      DownloadsCarryToken(q, first.0, es[1..]);
    }
  }

  /** With a token in the query the field never stays empty: clearing it
      brings the query token back after the render. */
  lemma QueryTokenSticks(q: Query, p: Page, e: Event)
    requires q.token != ""
    ensures Step(q, p, e).0.token != ""
  {
  }

  /** Opening `?token=T&auto=download&name=N` and letting the background
      load downloads T once, on its own, under the name made from N, at
      the placeholder. */
  lemma OpenedForDownload(q: Query)
    requires q.token != "" && AutoRequested(q)
    ensures var r := Run(q, Initial, [BackgroundLoaded]);
      r.1 == [Download(q.token, Placeholder, FileNames.PosterFileName(q.name), true)]
  {
    var h := Handle(q, Initial, BackgroundLoaded);
    assert h.1 == [];
    var s := Settle(q, h.0);
    assert s.1 == [Download(q.token, Placeholder, FileNames.PosterFileName(q.name), true)];
  }
}

=== FILE: user_store.dfy ===
/**
 * The `user` and `session` tables maintained by the authentication library,
 * reduced to the columns the routes read.
 */
module UserStore {
  import opened Wrappers

  /** A row of the `user` table. */
  datatype UserRow = UserRow(id: string, name: string, email: string, image: Option<string>, createdAt: int)

  /** A row of the `session` table: a cookie token and the user it belongs to. */
  datatype SessionRow = SessionRow(token: string, userId: string)

  function CreatedAt(u: UserRow): int { u.createdAt }

  /** The table's primary key. */
  ghost predicate IdsUnique(users: seq<UserRow>) {
    forall i, j :: 0 <= i < j < |users| ==> users[i].id != users[j].id
  }

  /** `SELECT ... WHERE id = uid LIMIT 1`. */
  function FindUser(users: seq<UserRow>, uid: string): (r: Option<UserRow>)
    ensures r.None? <==> forall i :: 0 <= i < |users| ==> users[i].id != uid
    ensures r.Some? ==> r.value in users && r.value.id == uid
  {
    if users == [] then None
    else if users[0].id == uid then Some(users[0])
    else FindUser(users[1..], uid)
  }

  /** Under the primary key the row found is the one row holding the id. */
  lemma {:induction false} FindUserUnique(users: seq<UserRow>, i: nat)
    requires IdsUnique(users) && i < |users|
    ensures FindUser(users, users[i].id) == Some(users[i])
  {
    if i > 0 {
      assert users[1..][i - 1] == users[i];
      FindUserUnique(users[1..], i - 1);
    }
  }

  /** `SELECT ... FROM session WHERE token = t LIMIT 1`. */
  function FindSession(sessions: seq<SessionRow>, token: string): (r: Option<SessionRow>)
    ensures r.None? <==> forall i :: 0 <= i < |sessions| ==> sessions[i].token != token
    ensures r.Some? ==> r.value in sessions && r.value.token == token
  {
    if sessions == [] then None
    else if sessions[0].token == token then Some(sessions[0])
    else FindSession(sessions[1..], token)
  }
}

=== FILE: users_route.dfy ===
/**
 * GET and POST /api/users: the paged list of accounts, newest first, and
 * account creation by an administrator.  The authentication library's
 * calls are parameters: the sign-up outcome and the user lookup that
 * precedes the role assignment.
 */
module UsersRoute {
  import opened Wrappers
  import opened JsNum
  import opened Http
  import opened UserStore
  import Listing
  import Paging
  import RequireAdmin

  const DefaultLimit := 10
  const MaxLimit := 100
  const MissingFields := "email, password, name required"
  const CreateFailed := "Failed to create user"

  /** `limit`: 10 when missing or not a finite number, otherwise the floor
      clamped into [1, 100]; an explicit 0 becomes 1. */
  function UsersLimit(p: Param): (limit: int)
    ensures 1 <= limit <= MaxLimit
    ensures p.Absent? || !p.n.Finite? ==> limit == DefaultLimit
    ensures p.Given? && p.n.Finite? && 1 <= p.n.v.Floor <= MaxLimit ==> limit == p.n.v.Floor
    ensures p.Given? && p.n.Finite? && p.n.v.Floor < 1 ==> limit == 1
    ensures p.Given? && p.n.Finite? && p.n.v.Floor > MaxLimit ==> limit == MaxLimit
  {
    var raw := if p.Absent? then Finite(10.0) else p.n;
    if raw.Finite? then Max(1, Min(MaxLimit, raw.v.Floor)) else DefaultLimit
  }

  /** GET: the page of accounts in descending `createdAt` order. */
  function Get(guard: RequireAdmin.Guard, limitParam: Param, pageParam: Param, users: seq<UserRow>): (r: Reply<Listing.ListPage<UserRow>>)
    ensures guard.Denied? ==> r == RequireAdmin.DeniedReply(guard)
    ensures guard.Granted? ==> r.status == 200 && r.body.Data?
    ensures guard.Granted? ==>
      var l := r.body.data;
      && l.limit == UsersLimit(limitParam)
      && l.page == Paging.PageOf(pageParam)
      && l.total == |users|
      && l.data == Listing.PageRows(users, CreatedAt, l.page, l.limit)
      && l.pageCount >= 1 && l.pageCount * l.limit >= l.total
      && l.pageCount == Paging.PageCount(l.total, l.limit)
      && |l.data| <= l.limit
  {
    if guard.Denied? then RequireAdmin.DeniedReply(guard)
    else Reply(200, Data(Listing.List(users, CreatedAt, Paging.PageOf(pageParam), UsersLimit(limitParam))))
  }

  /** The POST body; a field that is not a string counts as missing. */
  datatype UserBody = UserBody(email: StrField, password: StrField, name: StrField)

  /** The credentials handed to the sign-up call. */
  datatype Credentials = Credentials(email: string, password: string, name: string)

  /** How a call into the authentication library ended: normally, by
      throwing an `Error` with a message, or by throwing anything else. */
  datatype CallResult = Completed | ThrewError(message: string) | ThrewOther

  /** What the user lookup before the role assignment produced. */
  datatype RoleLookup = LookupThrew | NotAList | FirstUser(first: Option<StrField>)

  /** A field that is a non-empty string. */
  predicate Given(f: StrField) { f.Str? && f.s != "" }

  /** The credentials when all three fields are non-empty strings. */
  function CredentialsOf(b: UserBody): (c: Option<Credentials>)
    ensures c.Some? <==> Given(b.email) && Given(b.password) && Given(b.name)
    ensures c.Some? ==> c.value == Credentials(b.email.s, b.password.s, b.name.s)
  {
    if Given(b.email) && Given(b.password) && Given(b.name)
    then Some(Credentials(b.email.s, b.password.s, b.name.s))
    else None
  }

  /** The id the role assignment targets: the first listed user's id when it
      is a non-empty string. */
  function PromotedId(lookup: RoleLookup): (id: Option<string>)
    ensures id.Some? <==> lookup.FirstUser? && lookup.first.Some? && Given(lookup.first.value)
    ensures id.Some? ==> id.value == lookup.first.value.s && id.value != ""
  {
    if lookup.FirstUser? && lookup.first.Some? && lookup.first.value.Str? && lookup.first.value.s != ""
    then Some(lookup.first.value.s)
    else None
  }

  /** The response and the calls made: the sign-up and the role assignment. */
  datatype Creation = Creation(reply: Reply<bool>, signedUp: Option<Credentials>, promoted: Option<string>)

  /** POST: 400 without calling the library when a field is missing; 400
      with the thrown message when sign-up fails; otherwise 200, whatever
      the role assignment does. */
  function Post(guard: RequireAdmin.Guard, body: UserBody, signUp: CallResult, lookup: RoleLookup): (c: Creation)
    ensures guard.Denied? ==> c == Creation(RequireAdmin.DeniedReply(guard), None, None)
    ensures guard.Granted? ==> c.signedUp == CredentialsOf(body)
    ensures guard.Granted? && CredentialsOf(body).None? ==> c.reply == Reply(400, Error(MissingFields))
    ensures c.promoted.Some? ==> c.signedUp.Some? && signUp.Completed? && c.promoted == PromotedId(lookup)
    ensures guard.Granted? && CredentialsOf(body).Some? ==>
      (signUp.Completed? ==> c.reply == Reply(200, Data(true)) && c.promoted == PromotedId(lookup))
      && (signUp.ThrewError? ==> c.reply == Reply(400, Error(signUp.message)))
      && (signUp.ThrewOther? ==> c.reply == Reply(400, Error(CreateFailed)))
  {
    if guard.Denied? then Creation(RequireAdmin.DeniedReply(guard), None, None)
    else
      match CredentialsOf(body)
      case None => Creation(Reply(400, Error(MissingFields)), None, None)
      case Some(cred) =>
        match signUp
        case ThrewError(m) => Creation(Reply(400, Error(m)), Some(cred), None)
        case ThrewOther => Creation(Reply(400, Error(CreateFailed)), Some(cred), None)
        case Completed => Creation(Reply(200, Data(true)), Some(cred), PromotedId(lookup))
  }

  /** The role assignment never decides the response: any two lookups give
      the same reply. */
  lemma RoleStepNeverFails(guard: RequireAdmin.Guard, body: UserBody, signUp: CallResult, a: RoleLookup, b: RoleLookup)
    ensures Post(guard, body, signUp, a).reply == Post(guard, body, signUp, b).reply
    ensures Post(guard, body, signUp, a).signedUp == Post(guard, body, signUp, b).signedUp
  {
  }

  /** A successful creation is exactly an admin request with three non-empty
      fields whose sign-up completed. */
  lemma CreatedIff(cfg: RequireAdmin.Config, auth: RequireAdmin.Lookup, body: UserBody, signUp: CallResult, lookup: RoleLookup)
    ensures var guard := RequireAdmin.EnsureAdminApi(cfg, auth);
      Post(guard, body, signUp, lookup).reply.status == 200 <==>
      guard.Granted? && CredentialsOf(body).Some? && signUp.Completed?
  {
  }
}

=== FILE: users_table.dfy ===
/**
 * The user table in the dashboard: the page count it derives from the
 * listing's total, the guard against deleting one's own account, and where
 * it goes after a deletion.
 */
module UsersTable {
  import opened Wrappers
  import opened JsNum
  import Paging

  /** `Math.max(1, Math.ceil((total || 0) / limit))`, with a total that is
      not a number read as 0. */
  function PageCountOf(total: Option<int>, limit: int): (n: int)
    requires limit >= 1
    ensures n >= 1
    ensures total.Some? && total.value > 0 ==> (n - 1) * limit < total.value <= n * limit
    ensures total.None? || total.value <= 0 ==> n == 1
  {
    var t := total.GetOr(0);
    CeilNonPositive(t, limit);
    Max(1, CeilDiv(t, limit))
  }

  /** No rows, or a negative count, rounds up to at most zero pages. */
  lemma CeilNonPositive(t: int, limit: int)
    requires limit >= 1
    ensures t <= 0 ==> CeilDiv(t, limit) <= 0
  {
    var q := CeilDiv(t, limit);
    if q > 0 {
      MulMonotone(1, q, limit);
    }
  }

  /** For any count the server could report, the table's page count is the
      server's own. */
  lemma PageCountAgreesWithServer(total: nat, limit: int)
    requires limit >= 1
    ensures PageCountOf(Some(total), limit) == Paging.PageCount(total, limit)
  {
  }

  /** `currentUserId && id === currentUserId`: the signed-in user's own row. */
  predicate IsSelf(currentUserId: Option<string>, id: string) {
    currentUserId.Some? && currentUserId.value != "" && id == currentUserId.value
  }

  /** What a delete attempt did: refused before any request, failed at the
      server, or succeeded and moved back a page or reloaded the page. */
  datatype Removal = Refused | Failed(message: string) | StepBack(page: int) | Refetch

  /** How the server answered the delete request. */
  datatype DeleteAnswer = Deleted | Rejected(error: Option<string>)

  /** `removeRow`: refuses one's own account; after a deletion that emptied
      a page beyond the first, shows the previous page, else reloads. */
  function Remove(currentUserId: Option<string>, id: string, answer: DeleteAnswer, rowsOnPage: nat, page: int): (r: Removal)
    ensures r == Refused <==> IsSelf(currentUserId, id)
    ensures r.Failed? <==> !IsSelf(currentUserId, id) && answer.Rejected?
    ensures r.Failed? ==> r.message == answer.error.GetOr("Gagal hapus user")
    ensures r.StepBack? <==> !IsSelf(currentUserId, id) && answer.Deleted? && rowsOnPage == 1 && page > 1
    ensures r.StepBack? ==> r.page == page - 1 && r.page >= 1
  {
    if IsSelf(currentUserId, id) then Refused
    else match answer
      case Rejected(error) => Failed(error.GetOr("Gagal hapus user"))
      case Deleted => if rowsOnPage == 1 && page > 1 then StepBack(page - 1) else Refetch
  }

  /** Deleting the only row of the last page leaves one page fewer, and the
      page the table steps back to is the new last page, still holding rows. */
  lemma StepBackLandsOnLastPage(total: nat, limit: int, page: int)
    requires limit >= 1 && page > 1
    requires total == Paging.Offset(page, limit) + 1
    ensures Paging.PageCount(total - 1, limit) == page - 1
    ensures Paging.Offset(page - 1, limit) < total - 1
  {
    var n := Paging.PageCount(total - 1, limit);
    assert (page - 1) * limit == (page - 2) * limit + limit;
    MulMonotone(1, page - 1, limit);
    if n < page - 1 {
      MulMonotone(n, page - 2, limit);
    }
    if n > page - 1 {
      MulMonotone(page - 1, n - 1, limit);
    }
  }
}

=== FILE: wrappers.dfy ===
/** Failure-compatible helper datatypes shared by every module of the model. */
module Wrappers {

  /** A value that may be absent: JavaScript's `null`/`undefined` for optional fields. */
  datatype Option<+T> = None | Some(value: T) {

    /** The value, or a default when absent (JavaScript's `??`). */
    function GetOr(default: T): T {
      match this
      case Some(v) => v
      case None => default
    }
  }
}

=== FILE: zip.dfy ===
/**
 * The ZIP builder: files are added to the archive in order, stored without
 * compression, and an optional callback hears the progress before, during
 * and after.  The zip writer is an appended list of entries.
 */
module Zip {
  /** A file to archive. */
  datatype FileIn = FileIn(name: string, data: seq<bv8>)

  /** An archive entry: name, contents and compression level. */
  datatype Entry = Entry(name: string, data: seq<bv8>, level: nat)

  /** One call of the progress callback: `(done, total)`. */
  datatype Progress = Progress(done: nat, total: nat)

  /** The entry a file becomes: same name and contents, level 0. */
  function Stored(f: FileIn): Entry {
    Entry(f.name, f.data, 0)
  }

  /** The callbacks a run over `n` files makes: (0, n), then (k, n) after
      the k-th file, then (n, n) once the archive is closed. */
  function CallbackTrace(n: nat): (t: seq<Progress>)
    ensures |t| == n + 2
    ensures t[0] == Progress(0, n) && t[n + 1] == Progress(n, n)
    ensures forall k :: 1 <= k <= n ==> t[k] == Progress(k, n)
  {
    [Progress(0, n)] + seq(n, (k: nat) => Progress(k + 1, n)) + [Progress(n, n)]
  }

  /** `zipFiles`: every file stored in order. */
  function ZipFiles(files: seq<FileIn>): (archive: seq<Entry>)
    ensures |archive| == |files|
    ensures forall i :: 0 <= i < |files| ==> archive[i] == Entry(files[i].name, files[i].data, 0)
  {
    seq(|files|, i requires 0 <= i < |files| => Stored(files[i]))
  }

  /** `zipFilesWithProgress`: the same archive as `zipFiles`, and with a
      callback the trace (0, n), (1, n), ..., (n, n), (n, n). */
  method ZipFilesWithProgress(files: seq<FileIn>, hasCallback: bool) returns (archive: seq<Entry>, trace: seq<Progress>)
    ensures archive == ZipFiles(files)
    ensures hasCallback ==> trace == CallbackTrace(|files|)
    ensures !hasCallback ==> trace == []
  {
    var total := |files|;
    trace := if hasCallback then [Progress(0, total)] else [];
    archive := [];
    var done := 0;
    while done < total
      invariant 0 <= done <= total
      invariant |archive| == done
      invariant forall i :: 0 <= i < done ==> archive[i] == Stored(files[i])
      invariant hasCallback ==> |trace| == done + 1
      invariant hasCallback ==> forall k :: 0 <= k <= done ==> trace[k] == Progress(k, total)
      invariant !hasCallback ==> trace == []
    {
      archive := archive + [Stored(files[done])];
      done := done + 1;
      if hasCallback {
        trace := trace + [Progress(done, total)];
      }
    }
    if hasCallback {
      trace := trace + [Progress(total, total)];
    }
  }

  /** Each callback reports progress at most one file ahead of the one before. */
  lemma TraceStepsByOne(n: nat, k: nat)
    requires k < n + 1
    ensures CallbackTrace(n)[k + 1].done - CallbackTrace(n)[k].done in {0, 1}
    ensures CallbackTrace(n)[k].done <= n && CallbackTrace(n)[k].total == n
  {
  }
}
